=== FILE: README.md ===
# LinkedIn lead discovery, modelled in Dafny

This project models the computational core of the LinkedIn-Lead-Scraper tool. The tool starts from a list of
LinkedIn usernames and repeatedly asks a remote API for "similar profiles". The result is a tree of
discovered leads, which it exports as JSON, CSV or an indented text tree. The model has three parts.

- **The retrying API client** (`client.dfy`, module `Client`) models `LeadsAPIClient`.
  - `_make_api_call_with_retry` becomes a function over the sequence of per-attempt outcomes:
    - an empty response;
    - a response with a `success` flag;
    - a response without one;
    - a raised exception.
  - Its result is a `CallRun`: the `(success, payload-or-error)` pair, the sleeps requested, how often
    the log callback fired, and how many calls were made.
  - `get_full_profile`, `get_similar_profiles` and `get_full_profiles_batch` are post-processing of
    that result.
- **The breadth-first discovery engine** (`discovery.dfy`, module `Discovery`) models
  `ProfileTreeDiscovery`:
  - seed resolution;
  - the level-by-level crawl, including `process_profile`;
  - `_build_result`.

  The remote lookups are two deterministic oracles: `fullOf(username)` and `similarOf(urn)`. Each
  level's concurrent expansions run one after another in frontier order, each node as one step. The
  candidate scan of one node is atomic in the code too, since it has no `await` between testing a URN
  against `seen_urns` and adding it. The order in which nodes finish is one schedule among those
  `asyncio.gather` allows; see "Left out".
- **The export transforms** (`export.dfy`, module `Export`, and `tree.dfy`, module `TreeExport`):
  - `flatten_profile`;
  - the CSV column selection;
  - output file naming for the three formats;
  - the discovery-tree text (`children_map`, root selection, `get_profile_text`, `add_children_to_tree`).

The support modules are:

- `Wrappers`: `Option` and `Result`.
- `Seqs`: an order-preserving filter, subsequences, duplicate-freedom.
- `Text`: Python's `str.strip`, `str.lower` on ASCII, `", ".join`, `str(n)` and code-point string order.
- `Profiles`: the profile, candidate and record datatypes.

The main results are these:

- The discovered records always form a forest listed parents-first, no deeper than `max_depth`.
- The similar-profiles endpoint is called for exactly the recorded profiles above `max_depth`, once
  each, in record order (of the modelled schedule).
- `failed_urns` and `failed_usernames` are exactly the failed lookups, in the modelled order.
- A node's children are exactly the successful fetches of the handles it queued, and a node whose
  lookup fails changes nothing its siblings read.
- No candidate URN is queued twice in a run.
- Under the assumption that the API returns the profile whose URN the similar list announced, no URN
  is recorded twice. Hence `total_discovered <= unique_urns`.
- A CSV column exists exactly when some row holds a truthy value under it, and the header is strictly
  sorted.
- In the tree text, the entries directly under a node are the visible children's texts in list order,
  plus an elision entry when children are hidden. The elision's count reads back as the number of hidden
  children. Exactly one of those entries uses the closing connector `└── `. The subtrees drawn before
  it hang from a `│` column, and everything after it is indented with blanks. An entry is one element
  of the code's `tree_lines` list; a profile's entry spans two lines of the written file.

## Model

| member | source | states |
|---|---|---|
| Client.MakeApiCallWithRetry | src/api/client.py:22-75 | The remote call is made at most `max_retries` times. A non-positive budget fails with "Max retries exceeded" without calling it. The log callback fires at most once, only when a callback is installed, and only when a non-empty first attempt is retried. The whole run obeys the attempt-by-attempt reading `RunMatches`. |
| Client.RetryFromMatches | src/api/client.py:26-75 | From any attempt index the loop satisfies `RunMatches`. Every attempt but the last is retryable. The last either stops the loop or exhausts the budget, and the result is that attempt's verdict. There is one wait per retry: `retry_delay` after an empty response or an ordinary exception, 1 after an explicit retryable failure, and `retry_delay * (attempt+1)` after a rate limit. |
| Client.RetriedMatches | src/api/client.py:44-73 | Putting one retried attempt, with its wait and its log count, in front of a run that matches the reading gives a run that matches from one index earlier. |
| Client.FirstStopDecides | src/api/client.py:37-55 | The first attempt that ends the loop decides the call: exactly that many attempts are made, one wait per earlier attempt, and that attempt's verdict is returned. Such an attempt is a success, a response without a `success` flag, or a failure whose lower-cased message contains "not found", "doesn't exist" or "cannot be displayed". |
| Client.BudgetExhausted | src/api/client.py:26-75 | When no attempt ends the loop, all `max_retries` attempts are made and the last one's verdict is returned: "Empty response", the failure message, "Rate limit exceeded", or the exception text, which becomes "Max retries exceeded" when it is empty. |
| Client.RateLimitThenSuccess | src/api/client.py:60-66 | A rate-limited first attempt followed by a success returns the data after exactly one wait of `retry_delay`, logging once if a callback is set. |
| Client.ValidateFullProfile | src/api/client.py:87-97 | A profile is returned exactly when the call succeeded with data whose URN and username are non-empty. A failed call passes its own error on. A successful call without data gives "No data in response". Data lacking a URN or username gives "Invalid profile data structure". |
| Client.GetFullProfile | src/api/client.py:77-97 | A returned profile has a non-empty URN and username and is the data of a successful retried call. When the retried call fails, its error is returned unchanged. When it succeeds without data, the error is "No data in response". |
| Client.ValidateSimilar | src/api/client.py:109-122 | A failed call propagates its error, and a missing or non-list `data` gives "Invalid data format". Otherwise the result keeps the entries with non-empty `urn` and `id`: in order, each with its original multiplicity, and nothing else. |
| Client.GetSimilarProfiles | src/api/client.py:99-122 | A failed call passes its error through, and a response without a `data` list fails with "Invalid data format". Otherwise the result is the entries with a non-empty `urn` and `id`, in response order and with their multiplicity. |
| Client.GetFullProfilesBatch | src/api/client.py:124-134 | One entry per requested username, in request order, each carrying that username's own fetch result. |
| Discovery.SeedStep | src/discovery/tree_discovery.py:112-131 | A username whose fetch fails or yields no URN is appended to `failed_usernames`. A profile whose URN was already seen is skipped and not reported. Any other profile becomes a starting profile and its URN is added to the seen set. Nothing else changes. |
| Discovery.ResolveSeeds | src/discovery/tree_discovery.py:111-131 | Seeding records nothing, looks nothing up, queues nothing and reports no failed URN. |
| Discovery.SeedsDistinct | src/discovery/tree_discovery.py:115-122 | The starting profiles have pairwise distinct, non-empty URNs, and the seen set is exactly their URNs. |
| Discovery.SeedsCoverUsernames | src/discovery/tree_discovery.py:112-128 | Every starting profile is the fetched profile of some input username. The URN of every resolvable username ends up seen, whether it became a seed or was skipped as a duplicate. |
| Discovery.FailedSeedsAreUnresolved | src/discovery/tree_discovery.py:124-131 | After seeding, `failed_usernames` is exactly the usernames whose fetch failed or gave no URN, in input order. |
| Discovery.SelectCandidates | src/discovery/tree_discovery.py:221-227 | The queued URNs are pairwise distinct and were all unseen before the scan. The seen set afterwards is the old one plus exactly the queued URNs. |
| Discovery.SelectionFromCandidates | src/discovery/tree_discovery.py:222-226 | Every queued (handle, URN) pair comes from one similar entry that has a URN and a username or `publicIdentifier`. |
| Discovery.SelectionCoversCandidates | src/discovery/tree_discovery.py:222-227 | After the scan the URN of every entry with a URN and a handle is seen. |
| Discovery.FetchChildren | src/discovery/tree_discovery.py:236-251 | Processing a batch only appends records, at depth `parent + 1` with source `parent urn`. A failed fetch adds no failure entry and leaves the seen set alone. |
| Discovery.FetchChildrenAreFetched | src/discovery/tree_discovery.py:237-251 | A node's children are exactly the successfully fetched profiles of its batch, in batch order. |
| Discovery.ExpandNode | src/discovery/tree_discovery.py:212-262 | Each node is looked up once. A failed lookup appends the parent URN to `failed_urns` and changes nothing else: no children, no records. A successful lookup leaves `failed_urns` alone. It queues the handles `SelectCandidates` picks and appends their URNs to the queue. The seen set becomes exactly the scan's result. The children are exactly the successful fetches of those handles, in batch order, recorded at depth `level + 1` with the parent URN as source. `failed_usernames` never changes, and the queue stays duplicate-free. |
| Discovery.ExpandLevel | src/discovery/tree_discovery.py:264-276 | A level only appends records, exactly one per child of the next frontier. |
| Discovery.LevelRecords | src/discovery/tree_discovery.py:239-276 | A level only appends to the records: one record per child of the next frontier, in order, each at depth `level + 1` and naming a frontier node's URN as its source. |
| Discovery.LevelExpandsFrontier | src/discovery/tree_discovery.py:264-267 | A level looks up exactly the frontier URNs, in frontier order, and leaves `failed_usernames` alone. |
| Discovery.LevelFailedUrns | src/discovery/tree_discovery.py:259-262 | In the modelled frontier order, a level appends to `failed_urns` exactly the frontier URNs whose lookup failed, in order. |
| Discovery.NodeUntraced | src/discovery/tree_discovery.py:212-262 | A node's records, seen set, queue and children do not depend on the lookups made or failed before it. |
| Discovery.LevelSkipsFailed | src/discovery/tree_discovery.py:259-262 | A failed lookup leaves its siblings unaffected. Dropping every frontier node whose lookup fails gives the same records, seen set, queue and next frontier. Only the lookup traces differ. |
| Discovery.LevelKeepsSeen | src/discovery/tree_discovery.py:225-227 | A level never removes a URN from the seen set and keeps the queue duplicate-free with every queued URN seen. |
| Discovery.CrawlQueueSound | src/discovery/tree_discovery.py:165-289 | The level loop keeps the queue duplicate-free with every queued URN seen. |
| Discovery.RunQueuesOnce | src/discovery/tree_discovery.py:222-227 | Over a whole run no candidate URN is queued for a full fetch twice, and every queued URN is in `seen_urns`. |
| Discovery.CrawlAppendsDeeper | src/discovery/tree_discovery.py:165-289 | The level loop only appends to the records, and everything it appends lies deeper than the level it starts from. |
| Discovery.RunStartsWithSeeds | src/discovery/tree_discovery.py:186-193 | A run's records open with the starting profiles, in input order, at depth 0 with an empty source. Every later record lies at depth 1 or more. |
| Discovery.ForestExtends | src/discovery/tree_discovery.py:239-247 | Appending the children of a frontier that ends the record list keeps the records a parents-first forest. The children become the new tail frontier, and no depth exceeds `level + 1`. |
| Discovery.SeedsForest | src/discovery/tree_discovery.py:120-121 | The seed records form a forest of roots at depth 0 with an empty source. |
| Discovery.CrawlKeepsForest | src/discovery/tree_discovery.py:168-205 | The level loop keeps the records a parents-first forest. No depth exceeds `max_depth`, or the starting level when that is already at or beyond it. |
| Discovery.RunIsForest | src/discovery/tree_discovery.py:165-205 | In every run each depth-0 record has no source, and each deeper record names an earlier record one level up as its parent. No record is deeper than `max_depth`, and with `max_depth <= 0` none is deeper than 0. |
| Discovery.PartialLevelForest | src/discovery/tree_discovery.py:239-267 | The records stay a parents-first forest after any of a level's nodes have been expanded, in any order. This is the state a level interrupted between node expansions leaves behind. |
| Discovery.CrawlFailedUrns | src/discovery/tree_discovery.py:259-262 | Across all levels `failed_urns` is exactly the failed subsequence of the lookups made, and `failed_usernames` is untouched. |
| Discovery.ShallowExtends | src/discovery/tree_discovery.py:204-205 | Expanding a frontier below depth `d` keeps every lookup tied to a recorded profile above `d`. |
| Discovery.CrawlShallow | src/discovery/tree_discovery.py:203-217 | The crawl looks up only profiles it has recorded at a depth below `max_depth`. |
| Discovery.LookedUpStep | src/discovery/tree_discovery.py:209-276 | Expanding a level appends the frontier's URNs to the lookups. The lookups then equal the URNs of every record in front of the new frontier. |
| Discovery.CrawlExpandsShallow | src/discovery/tree_discovery.py:168-205 | The level loop looks up exactly the profiles it has recorded above `max_depth`, in record order of the modelled schedule. It stops only when a level is empty or `max_depth` is reached. |
| Discovery.RunExpandsShallow | src/discovery/tree_discovery.py:165-217 | No recorded profile above `max_depth` is skipped. A run's lookups are exactly the URNs of those records, in record order of the modelled schedule. |
| Discovery.RunLookups | src/discovery/tree_discovery.py:203-262 | In a whole run the similar-profiles endpoint is called exactly for the recorded profiles above `max_depth`, once each and in record order. `failed_urns` is exactly the failed subsequence of those calls. `failed_usernames` is exactly the unresolvable seed usernames, in input order. |
| Discovery.NoDepthNoLookup | src/discovery/tree_discovery.py:203-205 | With `max_depth <= 0` the records are exactly the seeds at depth 0 and no similar profile is looked up. |
| Discovery.NoSeedsNoCrawl | src/discovery/tree_discovery.py:133-137 | When no username resolves, nothing is recorded or looked up, and every username is reported as failed. |
| Discovery.UnresolvedMeansNoSeeds | src/discovery/tree_discovery.py:133-137 | If every username is unresolvable there is no starting profile. |
| Discovery.FetchedDistinct | src/discovery/tree_discovery.py:237-249 | When each fetched profile carries the URN it was queued under, the fetched profiles have distinct URNs, all among the queued ones. |
| Discovery.NodeDistinct | src/discovery/tree_discovery.py:222-249 | Under the URN-match assumption, expanding a node keeps recorded URNs distinct and all seen. |
| Discovery.LevelDistinct | src/discovery/tree_discovery.py:264-276 | Under the URN-match assumption, a level keeps recorded URNs distinct and all seen. |
| Discovery.CrawlDistinct | src/discovery/tree_discovery.py:168-289 | Under the URN-match assumption, the crawl keeps recorded URNs distinct and all seen. |
| Discovery.RunDistinct | src/discovery/tree_discovery.py:291-300 | Under the URN-match assumption, no two records share a URN, so `total_discovered <= unique_urns`. |
| Discovery.DiscoverReport | src/discovery/tree_discovery.py:291-300 | The report's profiles form a parents-first forest counted by `total_discovered`. `failed_usernames` are the unresolvable inputs. `failed_urns` are exactly the reported profiles above `max_depth` whose lookup failed, in report order. Under the URN-match assumption, `total_discovered <= unique_urns`. |
| Export.NestedKey | src/utils/export.py:88-117 | A nested key is present exactly when its source field is non-empty: the geo keys for a non-empty `geo`, `languages`, the `current_*` keys for a non-empty position list, `skills` and `education`. |
| Export.FlattenKey | src/utils/export.py:71-119 | A flattened row has the twelve base keys always and an optional key exactly when its source field is non-empty. A base cell is never overwritten, and an optional cell comes from its group. |
| Export.FlattenKeys | src/utils/export.py:71-119 | The key set of a flattened row, for all keys at once. |
| Export.BaseWins | src/utils/export.py:73-86 | Every base key is present and holds the cell read from its own field with the code's default. |
| Export.NestedValue | src/utils/export.py:88-117 | Each present optional key holds the value of its own group: no later group shadows an earlier one. |
| Export.FirstEntryValues | src/utils/export.py:100-117 | The `current_*` cells come from the first position and `education` from the first education. |
| Export.ListValues | src/utils/export.py:95-111 | `languages` joins with ", " the names of at most the first 3 languages, and `skills` those of at most the first 10 skills, in order. |
| Export.ColumnsSorted | src/utils/export.py:61 | The texts of all possible keys, in the column order used, ascend strictly in code-point order. |
| Export.CsvColumnsExact | src/utils/export.py:52-59 | A key is a CSV column exactly when some flattened record holds a truthy value under it. `''`, `0` and `False` count as empty. |
| Export.CsvFieldnamesSorted | src/utils/export.py:52-61 | The header ascends strictly, so it has no duplicates and is in `sorted` order. |
| Export.DroppedColumnsEmpty | src/utils/export.py:52-66 | Every cell left out of the CSV is falsy: dropping columns loses no data. |
| Export.CsvKeepsValues | src/utils/export.py:52-66 | Reading the file back loses no data. For every truthy value of a flattened record, the header has the key's text. That record's row holds the value, rendered as Python prints it, in the column so named. |
| Export.RowReadsBack | src/utils/export.py:63-66 | A row written under columns with distinct texts that include a key holds, in the column with that key's text, the row's rendered value. A missing key is written as "". |
| Export.NameInjective | src/utils/export.py:61 | Distinct keys have distinct texts, so a header text names exactly one column. |
| Export.OutputName | src/utils/export.py:16-21 | The file name always ends with the format's extension. |
| Export.OutputNameOfGiven | src/utils/export.py:37-42 | A given name that already ends with the extension is kept unchanged. Any other given name gets the extension appended. |
| Export.OutputNameIdempotent | src/utils/export.py:128-133 | Normalising a name a second time changes nothing, for every input, including the all-empty one. |
| Export.ExportJson | src/utils/export.py:14-28 | The JSON export always produces a name ending in `.json`, even for an empty list. |
| Export.ExportCsv | src/utils/export.py:31-50 | The CSV export produces nothing exactly for an empty list. Otherwise it writes one row per record under a name ending in `.csv`. |
| TreeExport.BuildChildrenMap | src/utils/export.py:137-142 | The `defaultdict` loop groups each record under its non-empty `source_urn`. Every lookup equals the record-order list of that URN's children, and only URNs with a child get a key. |
| TreeExport.ForestHasRoot | src/utils/export.py:145-149 | A non-empty parents-first forest has a record at depth 0. |
| TreeExport.DiscoveryTreeExported | src/utils/export.py:145-149 | Exporting a discovery result as a tree is refused exactly when the result has no profiles. |
| TreeExport.DisplayNameBlank | src/utils/export.py:160-164 | The name shown is blank exactly when the stripped full name is blank and the username is present but empty. |
| TreeExport.DisplayNameTrimmed | src/utils/export.py:162 | A non-blank full name is shown without surrounding whitespace. |
| TreeExport.ProfileTextReadsBack | src/utils/export.py:160-181 | A profile's text opens with the name and the headline, or "No headline" when it is absent. It closes with the link line carrying the username, or "N/A" when it is absent. Between them stands a location part, the separator followed by `geo.full`, exactly when `geo.full` is non-empty; the count note comes last before the link. |
| TreeExport.CountNoteReadsBack | src/utils/export.py:176-177 | The "(N discovered)" note of a profile with children prints a decimal numeral whose value is the child count. |
| TreeExport.Visible | src/utils/export.py:190-191 | The visible children are a prefix of the children. The prefix has length `min(max, count)` for a non-negative maximum and `max(0, count + max)` for a negative one, as Python slicing gives. |
| TreeExport.NodeLinesPrefixed | src/utils/export.py:183-212 | Every `tree_lines` entry drawn below a node starts with that node's prefix. The link text inside a profile's entry follows an embedded newline and is not prefixed. |
| TreeExport.SiblingLinesPrefixed | src/utils/export.py:193-209 | Every `tree_lines` entry drawn for the remaining visible children starts with the parent's prefix. |
| TreeExport.SubtreeIndirect | src/utils/export.py:203-208 | A child's subtree is indented past the parent's connector column, so none of its entries is a direct entry of the parent. |
| TreeExport.ConnectorLine | src/utils/export.py:196-202 | A child's own entry is a direct entry. It is a closing entry exactly when it is drawn with `└── `. |
| TreeExport.ElisionDirect | src/utils/export.py:210-212 | The "... and N more profiles" entry is a direct entry drawn with the closing connector. Its N is a decimal numeral that reads back as the number of hidden children. |
| TreeExport.SiblingLinesDirect | src/utils/export.py:193-209 | From visible child `i` on, each remaining child contributes exactly one direct entry. The closing connector appears once, on the last child, exactly when nothing is hidden. |
| TreeExport.NodeLinesDirect | src/utils/export.py:183-212 | Directly under a node there is one entry per visible child, plus the elision entry when children are hidden, and nothing at depth 5 or for a childless profile. Exactly one of these entries uses `└── `. |
| TreeExport.SiblingLinesEntries | src/utils/export.py:193-209 | From visible child `i` on, the direct entries are the children's own entries in list order, each carrying that child's text. Only the last uses `└── `, and only when nothing is hidden. |
| TreeExport.NodeLinesEntries | src/utils/export.py:183-212 | The direct entries under a node are the visible children's entries in list order, each with that child's text, then "... and N more profiles" when children are hidden. N is the child count minus the visible count. There are none at depth 5 or for a childless profile. |
| TreeExport.SiblingColumns | src/utils/export.py:196-209 | Within the entries for `visible[i..]`, an entry after the closing entry starts with the prefix plus `"    "`. An indirect entry before it starts with the prefix plus `"│   "`. While children are hidden no entry closes the column. |
| TreeExport.NodeColumns | src/utils/export.py:183-212 | Under a node, every subtree drawn before the closing entry hangs from a `"│   "` column. Everything after the closing entry is indented with `"    "`. A child's prefix therefore follows the connector of its own entry. |
| TreeExport.RootLinesCover | src/utils/export.py:214-220 | Every root's own text is drawn, with at least two entries per root. |
| TreeExport.DocumentFrame | src/utils/export.py:151-225 | The document opens and closes with a rule of 80 `=` and has at least ten framing entries plus two per root. |
| TreeExport.DocumentShowsRoots | src/utils/export.py:214-220 | Every root's text appears in the document. |
| TreeExport.ExportTree | src/utils/export.py:120-149 | The tree export produces nothing exactly when the list is empty or no record is at depth 0. Otherwise the name ends with `.txt`. |

## Left out

- The Rich live display, progress bar, log buffer, panels and console messages of the discovery engine
  and the exporters. They are presentation only; `activity_log` is therefore absent from `Report`.
- asyncio concurrency (semaphore, `gather`, cancellation). Each level is expanded sequentially in
  frontier order, one whole node at a time. Under `gather` the nodes of a level interleave at their
  `await`s (src/discovery/tree_discovery.py:215-247, 264-267). Records of different parents are then
  appended in completion order, and `failed_urns` grows in lookup-completion order. A later node's
  candidate scan may run first, which changes which parent is credited with a shared URN and which
  handle is fetched for it. Only the modelled schedule is covered by the "in order" parts of
  Discovery.LevelRecords, Discovery.LevelFailedUrns, Discovery.CrawlFailedUrns, Discovery.RunLookups,
  Discovery.LookedUpStep, Discovery.CrawlExpandsShallow, Discovery.RunExpandsShallow and
  Discovery.DiscoverReport. Under `gather` the next level is looked up in task order, while the records
  are appended in completion order, so the two orders can differ.
- Discovery.DiscoverReport: an interrupted run (`KeyboardInterrupt`, reported through `_build_result`
  by main.py) is not modelled as a run. Discovery.PartialLevelForest covers a level stopped between
  whole node expansions, but not a node stopped part-way through its batch.
- `asyncio.sleep`: sleeps are returned as the list of requested waits, not as elapsed time. The
  `identifier` and the text of log messages are not modelled; only the number of log-callback
  invocations is.
- The remote `linkdapi` calls are replaced by a per-attempt outcome function (client) and by two
  deterministic oracles (discovery). `fullOf` stands for the whole `get_full_profile`, so its
  validation is assumed of the oracle rather than composed with the retry loop.
- Discovery.UrnMatch: the dedup results assume the API returns, for a similar entry's handle, the
  profile with that entry's URN. The code tracks the candidate's URN in `seen_urns` but records the
  fetched profile's URN.
- File I/O, `json.dump`, `csv.DictWriter` quoting, `Path` joining and `datetime.now()`. Timestamps are
  parameters (`stamp` for file names, `generated` for the tree header), and documents are returned as
  lists of entries rather than written.
- JSON `null` values and wrongly-typed fields, which make the Python code raise or print `None`. A
  missing string field is modelled as "". A missing `urn` in `get_profile_text` is also modelled as "",
  where Python raises `KeyError`.
- `str.lower` is modelled for ASCII letters only.
- TreeExport.SiblingLinesDirect: counts the direct and closing entries only. The texts, their order and
  the children's indentation are stated by TreeExport.SiblingLinesEntries and TreeExport.SiblingColumns.
- TreeExport.NodeLinesDirect: counts the direct and closing entries only. The texts, their order, the
  elision count and the children's indentation are stated by TreeExport.NodeLinesEntries,
  TreeExport.ElisionDirect and TreeExport.NodeColumns.
- Export.BaseWins: states that each base key holds `BaseRow`'s cell rather than listing the twelve
  field-by-field values in the contract. The values are read off `BaseRow`.
- The dead branch at src/discovery/tree_discovery.py:181-183 (an empty level batch) cannot be taken,
  because every queued profile sits exactly one level below the current one. The dead emptiness test
  at src/utils/export.py:48-50 cannot fire either: there is one flattened row per record.
- The profile's `position` list is the field `positions` of `Profile`.
- main.py, the menu and the terminal display module are user-interface code and are not part of this
  model.

=== FILE: client.dfy ===
/** The retrying gateway around the remote profile API (src/api/client.py): one
    retry loop that classifies every attempt, and three wrappers that validate what
    it returns. Sleeping is modelled by the list of waits requested, and the log
    callback by the number of times it is invoked. */
module Client {
  import opened Wrappers
  import opened Text
  import opened Seqs
  import opened Profiles

  /** What one invocation of the remote call produced. `P` is the response's `data`
      field as the caller reads it. */
  datatype Attempt<P> =
    | Empty                                                     // a falsy response: None or {}
    | Flagged(success: bool, message: Option<string>, data: P)  // a response with a 'success' key
    | NoFlag                                                    // a non-empty response without one
    | Raised(error: string)                                     // the call raised; `str(e)`

  /** `max_retries`, `retry_delay`, and whether a log callback is installed. */
  datatype Config = Config(maxRetries: int, retryDelay: int, logCallback: bool)

  /** Everything one retried call produces: the `(success, payload-or-error)` pair,
      the sleeps it requested in order, how often it invoked the log callback, and
      how many times it invoked the remote call. */
  datatype CallRun<P> = CallRun(result: Result<P, string>, sleeps: seq<int>, logs: nat, attempts: nat)

  const NonRetryable: seq<string> := ["not found", "doesn't exist", "cannot be displayed"]

  /** An explicit failure message that ends the loop at once. */
  predicate IsTerminalMessage(msg: string) {
    exists k | k in NonRetryable :: Contains(Lower(msg), k)
  }

  /** An exception text that signals rate limiting. */
  predicate IsRateLimit(error: string) {
    Contains(error, "429") || Contains(Lower(error), "too many requests")
  }

  /** `response.get('message', 'Unknown error')`. */
  function FailureMessage(message: Option<string>): string {
    message.GetOr("Unknown error")
  }

  /** The log callback fires only when the first attempt is being retried. */
  function LogIf(attempt: nat, cfg: Config): nat {
    if attempt == 0 && cfg.logCallback then 1 else 0
  }

  function Stop<P>(result: Result<P, string>): CallRun<P> {
    CallRun(result, [], 0, 1)
  }

  function Retry<P>(rest: CallRun<P>, wait: int, log: nat): CallRun<P> {
    CallRun(rest.result, [wait] + rest.sleeps, log + rest.logs, rest.attempts + 1)
  }

  /** The loop of `_make_api_call_with_retry` from attempt index `attempt` on, with
      `lastError` holding `last_error`. */
  function RetryFrom<P>(call: nat -> Attempt<P>, cfg: Config, attempt: nat, lastError: Option<string>): CallRun<P>
    decreases cfg.maxRetries - attempt
  {
    if attempt >= cfg.maxRetries then
      CallRun(Failure(if lastError.Some? && lastError.value != "" then lastError.value else "Max retries exceeded"), [], 0, 0)
    else
      var retryLeft := attempt < cfg.maxRetries - 1;
      match call(attempt)
      case Empty =>
        if retryLeft then Retry(RetryFrom(call, cfg, attempt + 1, Some("Empty response")), cfg.retryDelay, 0)
        else Stop(Failure("Empty response"))
      case Flagged(ok, message, data) =>
        if !ok then
          var error := FailureMessage(message);
          if IsTerminalMessage(error) then Stop(Failure(error))
          else if retryLeft then Retry(RetryFrom(call, cfg, attempt + 1, Some(error)), 1, LogIf(attempt, cfg))
          else Stop(Failure(error))
        else Stop(Success(data))
      case NoFlag =>
        Stop(Failure("Invalid response format"))
      case Raised(error) =>
        if IsRateLimit(error) then
          if retryLeft then Retry(RetryFrom(call, cfg, attempt + 1, Some(error)), cfg.retryDelay * (attempt + 1), LogIf(attempt, cfg))
          else Stop(Failure("Rate limit exceeded"))
        else if retryLeft then
          Retry(RetryFrom(call, cfg, attempt + 1, Some(error)), cfg.retryDelay, LogIf(attempt, cfg))
        else
          // the last attempt falls out of the loop and reports `last_error`
          var tail := RetryFrom(call, cfg, attempt + 1, Some(error));
          CallRun(tail.result, tail.sleeps, tail.logs, tail.attempts + 1)
  }

  // ---------------------------------------------------------------------------
  // An attempt-by-attempt reading of the loop, independent of its control flow.

  /** An attempt that ends the loop whatever budget is left: success, a terminal
      explicit failure, or a response without a success flag. */
  predicate Stops<P>(a: Attempt<P>) {
    match a
    case Flagged(ok, message, _) => ok || IsTerminalMessage(FailureMessage(message))
    case NoFlag => true
    case _ => false
  }

  /** The wait requested after attempt `i` when that attempt is retried. */
  function Backoff<P>(a: Attempt<P>, i: nat, cfg: Config): int {
    match a
    case Empty => cfg.retryDelay
    case Flagged(_, _, _) => 1
    case Raised(error) => if IsRateLimit(error) then cfg.retryDelay * (i + 1) else cfg.retryDelay
    case NoFlag => 0
  }

  /** What the call returns when `a` is the outcome of the last attempt made. */
  function Verdict<P>(a: Attempt<P>): Result<P, string> {
    match a
    case Empty => Failure("Empty response")
    case Flagged(ok, message, data) => if ok then Success(data) else Failure(FailureMessage(message))
    case NoFlag => Failure("Invalid response format")
    case Raised(error) =>
      if IsRateLimit(error) then Failure("Rate limit exceeded")
      else Failure(if error != "" then error else "Max retries exceeded")
  }

  /** Whether retrying attempt 0 with outcome `a` invokes the log callback. */
  function FirstRetryLogs<P>(a: Attempt<P>, cfg: Config): nat {
    if cfg.logCallback && !a.Empty? then 1 else 0
  }

  /** The run started at `attempt` made `n` attempts: every one but the last was
      retryable, the last either stopped the loop or used up the budget, the result
      is the last attempt's verdict, one wait was requested per retry with the
      length its outcome calls for, and the log callback fired at most once, for a
      retried attempt 0 that was not an empty response. */
  ghost predicate RunMatches<P>(call: nat -> Attempt<P>, cfg: Config, attempt: nat, run: CallRun<P>) {
    && (attempt >= cfg.maxRetries ==> run.attempts == 0 && run.sleeps == [] && run.logs == 0)
    && (attempt < cfg.maxRetries ==>
          && 1 <= run.attempts <= cfg.maxRetries - attempt
          && |run.sleeps| == run.attempts - 1
          && (forall j :: attempt <= j < attempt + run.attempts - 1 ==> !Stops(call(j)))
          && (forall i :: 0 <= i < |run.sleeps| ==> run.sleeps[i] == Backoff(call(attempt + i), attempt + i, cfg))
          && (Stops(call(attempt + run.attempts - 1)) || attempt + run.attempts == cfg.maxRetries)
          && run.result == Verdict(call(attempt + run.attempts - 1))
          && run.logs == (if attempt == 0 && run.attempts >= 2 then FirstRetryLogs(call(0), cfg) else 0))
  }

  /** One retried attempt in front of a run that matches extends to a run that matches. */
  lemma RetriedMatches<P>(call: nat -> Attempt<P>, cfg: Config, attempt: nat, rest: CallRun<P>)
    requires attempt < cfg.maxRetries - 1
    requires !Stops(call(attempt))
    requires RunMatches(call, cfg, attempt + 1, rest)
    ensures RunMatches(call, cfg, attempt,
              Retry(rest, Backoff(call(attempt), attempt, cfg), if attempt == 0 then FirstRetryLogs(call(0), cfg) else 0))
  {
    var run := Retry(rest, Backoff(call(attempt), attempt, cfg), if attempt == 0 then FirstRetryLogs(call(0), cfg) else 0);
    forall i | 0 <= i < |run.sleeps| ensures run.sleeps[i] == Backoff(call(attempt + i), attempt + i, cfg) {
      if i > 0 { assert run.sleeps[i] == rest.sleeps[i - 1]; }
    }
  }

  /** The `last_error` a retried attempt leaves behind. */
  function NextError<P>(a: Attempt<P>): Option<string> {
    match a
    case Empty => Some("Empty response")
    case Flagged(_, message, _) => Some(FailureMessage(message))
    case Raised(error) => Some(error)
    case NoFlag => None
  }

  /** An attempt that does not stop the loop, with budget left, is retried. */
  lemma RetryStep<P>(call: nat -> Attempt<P>, cfg: Config, attempt: nat, lastError: Option<string>)
    requires attempt < cfg.maxRetries - 1
    requires !Stops(call(attempt))
    ensures RetryFrom(call, cfg, attempt, lastError)
              == Retry(RetryFrom(call, cfg, attempt + 1, NextError(call(attempt))),
                       Backoff(call(attempt), attempt, cfg), if attempt == 0 then FirstRetryLogs(call(0), cfg) else 0)
  {
  }

  lemma {:induction false} RetryFromMatches<P>(call: nat -> Attempt<P>, cfg: Config, attempt: nat, lastError: Option<string>)
    ensures RunMatches(call, cfg, attempt, RetryFrom(call, cfg, attempt, lastError))
    decreases cfg.maxRetries - attempt
  {
    if attempt < cfg.maxRetries {
      var a := call(attempt);
      if attempt < cfg.maxRetries - 1 && !Stops(a) {
        RetryStep(call, cfg, attempt, lastError);
        RetryFromMatches(call, cfg, attempt + 1, NextError(a));
        RetriedMatches(call, cfg, attempt, RetryFrom(call, cfg, attempt + 1, NextError(a)));
      } else if a.Raised? && !IsRateLimit(a.error) && attempt == cfg.maxRetries - 1 {
        RetryFromMatches(call, cfg, attempt + 1, Some(a.error));
      }
    }
  }

  /** `_make_api_call_with_retry`: the remote call is invoked at most `max_retries`
      times, a zero budget fails with "Max retries exceeded" without calling it, and
      the run follows the attempt-by-attempt reading above. */
  function MakeApiCallWithRetry<P>(call: nat -> Attempt<P>, cfg: Config): (run: CallRun<P>)
    ensures cfg.maxRetries <= 0 ==> run == CallRun(Failure("Max retries exceeded"), [], 0, 0)
    ensures cfg.maxRetries > 0 ==> 1 <= run.attempts <= cfg.maxRetries
    ensures run.logs <= 1
    ensures run.logs == 1 ==> cfg.logCallback && run.attempts >= 2 && !call(0).Empty?
    ensures RunMatches(call, cfg, 0, run)
  {
    RetryFromMatches(call, cfg, 0, None);
    RetryFrom(call, cfg, 0, None)
  }

  /** The first attempt that stops the loop decides the call: nothing after it is
      attempted, and its verdict is returned. This covers an immediate success, a
      response without a success flag, and an explicit "not found"-style failure. */
  lemma FirstStopDecides<P>(call: nat -> Attempt<P>, cfg: Config, k: nat)
    requires k < cfg.maxRetries
    requires Stops(call(k))
    requires forall i :: 0 <= i < k ==> !Stops(call(i))
    ensures MakeApiCallWithRetry(call, cfg).attempts == k + 1
    ensures MakeApiCallWithRetry(call, cfg).result == Verdict(call(k))
    ensures |MakeApiCallWithRetry(call, cfg).sleeps| == k
  {
  }

  /** When no attempt stops the loop, all `max_retries` attempts are made and the
      last one's verdict is returned. */
  lemma BudgetExhausted<P>(call: nat -> Attempt<P>, cfg: Config)
    requires cfg.maxRetries > 0
    requires forall i :: 0 <= i < cfg.maxRetries ==> !Stops(call(i))
    ensures MakeApiCallWithRetry(call, cfg).attempts == cfg.maxRetries
    ensures MakeApiCallWithRetry(call, cfg).result == Verdict(call(cfg.maxRetries - 1))
  {
  }

  /** A rate-limited first attempt followed by a success: the call succeeds after
      one wait of `retry_delay`, logging once if a callback is set. */
  lemma RateLimitThenSuccess<P>(call: nat -> Attempt<P>, cfg: Config, data: P)
    requires cfg.maxRetries >= 2
    requires call(0).Raised? && IsRateLimit(call(0).error)
    requires call(1) == Flagged(true, None, data)
    ensures MakeApiCallWithRetry(call, cfg) == CallRun(Success(data), [cfg.retryDelay], if cfg.logCallback then 1 else 0, 2)
  {
    FirstStopDecides(call, cfg, 1);
  }

  // ---------------------------------------------------------------------------
  // The three wrappers.

  /** The full-profile post-processing of `get_full_profile`: `data` is the response's
      `data` field, `None` when absent or empty. */
  function ValidateFullProfile(response: Result<Option<Profile>, string>): (r: Result<Profile, string>)
    ensures r.Success? <==> response.Success? && response.value.Some?
                            && response.value.value.urn != "" && HasUsername(response.value.value)
    ensures r.Success? ==> response == Success(Some(r.value))
    ensures response.Failure? ==> r == Failure(response.error)
    ensures response == Success(None) ==> r == Failure("No data in response")
    ensures response.Success? && response.value.Some? && r.Failure? ==> r.error == "Invalid profile data structure"
  {
    match response
    case Failure(error) => Failure(error)
    case Success(data) =>
      if data.None? then Failure("No data in response")
      else if data.value.urn == "" || !HasUsername(data.value) then Failure("Invalid profile data structure")
      else Success(data.value)
  }

  /** `get_full_profile`: a profile is returned only when the call succeeded with data
      carrying a non-empty URN and username; a failed call passes its error on, and a
      successful call without data reports "No data in response". */
  function GetFullProfile(call: nat -> Attempt<Option<Profile>>, cfg: Config): (r: Result<Profile, string>)
    ensures r.Success? ==> r.value.urn != "" && HasUsername(r.value)
    ensures r.Success? ==> MakeApiCallWithRetry(call, cfg).result == Success(Some(r.value))
    ensures MakeApiCallWithRetry(call, cfg).result.Failure? ==> r == Failure(MakeApiCallWithRetry(call, cfg).result.error)
    ensures MakeApiCallWithRetry(call, cfg).result == Success(None) ==> r == Failure("No data in response")
  {
    ValidateFullProfile(MakeApiCallWithRetry(call, cfg).result)
  }

  /** `profile.get('urn') and profile.get('id')`: the entries kept from a similar list. */
  predicate Listed(c: Candidate) {
    c.urn != "" && c.id != ""
  }

  /** The similar-profiles post-processing of `get_similar_profiles`: `data` is `None`
      when the response has no `data` key or it is not a list. The kept entries are
      the well-keyed ones, in order and with their multiplicity. */
  function ValidateSimilar(response: Result<Option<seq<Candidate>>, string>): (r: Result<seq<Candidate>, string>)
    ensures response.Failure? ==> r == Failure(response.error)
    ensures response == Success(None) ==> r == Failure("Invalid data format")
    ensures response.Success? && response.value.Some? ==>
              && r.Success?
              && Subsequence(r.value, response.value.value)
              && (forall i :: 0 <= i < |r.value| ==> Listed(r.value[i]))
              && (forall c :: multiset(r.value)[c] == if Listed(c) then multiset(response.value.value)[c] else 0)
  {
    match response
    case Failure(error) => Failure(error)
    case Success(data) =>
      if data.None? then Failure("Invalid data format")
      else
        FilterIsSubsequence(data.value, Listed);
        Success(Filter(data.value, Listed))
  }

  /** `get_similar_profiles`. */
  function GetSimilarProfiles(call: nat -> Attempt<Option<seq<Candidate>>>, cfg: Config): (r: Result<seq<Candidate>, string>)
    ensures MakeApiCallWithRetry(call, cfg).result.Failure? ==> r == Failure(MakeApiCallWithRetry(call, cfg).result.error)
    ensures MakeApiCallWithRetry(call, cfg).result == Success(None) ==> r == Failure("Invalid data format")
    ensures MakeApiCallWithRetry(call, cfg).result.Success? && MakeApiCallWithRetry(call, cfg).result.value.Some? ==>
              && r.Success?
              && Subsequence(r.value, MakeApiCallWithRetry(call, cfg).result.value.value)
              && (forall i :: 0 <= i < |r.value| ==> Listed(r.value[i]))
              && (forall c :: multiset(r.value)[c] == if Listed(c) then multiset(MakeApiCallWithRetry(call, cfg).result.value.value)[c] else 0)
  {
    ValidateSimilar(MakeApiCallWithRetry(call, cfg).result)
  }

  /** One `(username, success, profile, error)` tuple of a batch. */
  datatype BatchEntry = BatchEntry(username: string, result: Result<Profile, string>)

  /** `get_full_profiles_batch`: one entry per requested username, in request order,
      each carrying that username's own fetch result. */
  function GetFullProfilesBatch(fetch: string -> Result<Profile, string>, usernames: seq<string>): (r: seq<BatchEntry>)
    ensures |r| == |usernames|
    ensures forall i :: 0 <= i < |r| ==> r[i].username == usernames[i] && r[i].result == fetch(usernames[i])
    decreases |usernames|
  {
    if |usernames| == 0 then []
    else [BatchEntry(usernames[0], fetch(usernames[0]))] + GetFullProfilesBatch(fetch, usernames[1..])
  }
}

=== FILE: discovery.dfy ===
/** The breadth-first discovery engine of `ProfileTreeDiscovery`
    (src/discovery/tree_discovery.py) without its live display. The two remote
    lookups are deterministic oracles: `fullOf` stands for `get_full_profile` and
    `similarOf` for `get_similar_profiles`. Each level's concurrent expansions are
    sequentialised in frontier order; every expansion is atomic with respect to the
    seen set because the Python code has no `await` between testing a URN and
    adding it. */
module Discovery {
  import opened Wrappers
  import opened Seqs
  import opened Profiles
  import opened Client

  type FullOracle = string -> Result<Profile, string>
  type SimilarOracle = string -> Result<seq<Candidate>, string>

  /** The engine's mutable state: `discovered_profiles`, `seen_urns`,
      `failed_usernames` and `failed_urns`, plus two traces that make the engine's
      calls observable: the URNs whose similar profiles were looked up, in order,
      and the candidate URNs queued for a full fetch, in order. */
  datatype State = State(
    records: seq<Record>,
    seen: set<string>,
    failedUsernames: seq<string>,
    failedUrns: seq<string>,
    expanded: seq<string>,
    queued: seq<string>)

  const Initial: State := State([], {}, [], [], [], [])

  function UrnsOf(ps: seq<Profile>): (r: seq<string>)
    ensures |r| == |ps|
    ensures forall i :: 0 <= i < |ps| ==> r[i] == ps[i].urn
  {
    seq(|ps|, i requires 0 <= i < |ps| => ps[i].urn)
  }

  /** The records made by tagging each profile with a depth and a source URN. */
  function Tag(ps: seq<Profile>, depth: nat, source: string): (r: seq<Record>)
    ensures |r| == |ps|
    ensures forall i :: 0 <= i < |ps| ==> r[i] == Record(ps[i], depth, source)
  {
    seq(|ps|, i requires 0 <= i < |ps| => Record(ps[i], depth, source))
  }

  // ---------------------------------------------------------------------------
  // Seed resolution (tree_discovery.py:111-131)

  datatype Seeding = Seeding(state: State, seeds: seq<Profile>)

  /** A seed username that yields no starting profile: the fetch failed or the
      profile has no URN. */
  predicate Unresolved(fullOf: FullOracle, username: string) {
    fullOf(username).Failure? || fullOf(username).value.urn == ""
  }

  function UnresolvedBy(fullOf: FullOracle): string -> bool {
    u => Unresolved(fullOf, u)
  }

  /** One iteration of the seed loop: a username whose fetch fails or yields no URN
      is reported as failed; a profile whose URN was already seen is skipped without
      being reported; any other profile becomes a starting profile and its URN is
      marked seen. Nothing else changes. */
  function SeedStep(fullOf: FullOracle, s: Seeding, username: string): (r: Seeding)
    ensures Unresolved(fullOf, username) ==>
              r.seeds == s.seeds && r.state == s.state.(failedUsernames := s.state.failedUsernames + [username])
    ensures !Unresolved(fullOf, username) && fullOf(username).value.urn in s.state.seen ==> r == s
    ensures !Unresolved(fullOf, username) && fullOf(username).value.urn !in s.state.seen ==>
              && r.seeds == s.seeds + [fullOf(username).value]
              && r.state == s.state.(seen := s.state.seen + {fullOf(username).value.urn})
  {
    match fullOf(username)
    case Success(p) =>
      if p.urn != "" && p.urn !in s.state.seen then
        Seeding(s.state.(seen := s.state.seen + {p.urn}), s.seeds + [p])
      else if p.urn != "" then
        s
      else
        Seeding(s.state.(failedUsernames := s.state.failedUsernames + [username]), s.seeds)
    case Failure(_) =>
      Seeding(s.state.(failedUsernames := s.state.failedUsernames + [username]), s.seeds)
  }

  /** The seed loop over `usernames`, in order. Nothing is recorded, expanded or
      queued yet. */
  function ResolveSeeds(fullOf: FullOracle, usernames: seq<string>): (r: Seeding)
    ensures r.state.records == [] && r.state.failedUrns == [] && r.state.expanded == [] && r.state.queued == []
    decreases |usernames|
  {
    if |usernames| == 0 then Seeding(Initial, [])
    else SeedStep(fullOf, ResolveSeeds(fullOf, usernames[..|usernames| - 1]), usernames[|usernames| - 1])
  }

  /** The starting profiles have distinct non-empty URNs, and the seen set is exactly
      their URNs. */
  lemma {:induction false} SeedsDistinct(fullOf: FullOracle, usernames: seq<string>)
    ensures NoDup(UrnsOf(ResolveSeeds(fullOf, usernames).seeds))
    ensures forall p :: p in ResolveSeeds(fullOf, usernames).seeds ==> p.urn != ""
    ensures forall x :: x in ResolveSeeds(fullOf, usernames).state.seen <==> x in UrnsOf(ResolveSeeds(fullOf, usernames).seeds)
    decreases |usernames|
  {
    if |usernames| > 0 {
      var init := usernames[..|usernames| - 1];
      var last := usernames[|usernames| - 1];
      SeedsDistinct(fullOf, init);
      var prev := ResolveSeeds(fullOf, init);
      var r := ResolveSeeds(fullOf, usernames);
      if |r.seeds| != |prev.seeds| {
        assert UrnsOf(r.seeds) == UrnsOf(prev.seeds) + [fullOf(last).value.urn];
      } else {
        assert r.seeds == prev.seeds;
      }
    }
  }

  /** The fetch results of a list of usernames, in order. */
  function Fetches(fullOf: FullOracle, usernames: seq<string>): (r: seq<Result<Profile, string>>)
    ensures |r| == |usernames|
    ensures forall k :: 0 <= k < |usernames| ==> r[k] == fullOf(usernames[k])
  {
    seq(|usernames|, k requires 0 <= k < |usernames| => fullOf(usernames[k]))
  }

  /** Every starting profile is the fetched profile of one of the usernames, and the
      URN of every resolvable username ends up seen, whether it became a starting
      profile or was skipped as a duplicate. */
  lemma {:induction false} SeedsCoverUsernames(fullOf: FullOracle, usernames: seq<string>)
    ensures forall p :: p in ResolveSeeds(fullOf, usernames).seeds ==> Success(p) in Fetches(fullOf, usernames)
    ensures forall u :: u in usernames && !Unresolved(fullOf, u) ==> fullOf(u).value.urn in ResolveSeeds(fullOf, usernames).state.seen
    decreases |usernames|
  {
    if |usernames| > 0 {
      var init := usernames[..|usernames| - 1];
      var last := usernames[|usernames| - 1];
      SeedsCoverUsernames(fullOf, init);
      var prev := ResolveSeeds(fullOf, init);
      var r := ResolveSeeds(fullOf, usernames);
      assert Fetches(fullOf, usernames) == Fetches(fullOf, init) + [fullOf(last)];
      assert prev.state.seen <= r.state.seen;
      assert r.seeds == prev.seeds || r.seeds == prev.seeds + [fullOf(last).value];
      assert forall u :: u in usernames ==> u in init || u == last;
    }
  }

  /** `failed_usernames` after seeding lists exactly the usernames whose fetch failed or
      yielded no URN, in input order and with repetitions. */
  lemma {:induction false} FailedSeedsAreUnresolved(fullOf: FullOracle, usernames: seq<string>)
    ensures ResolveSeeds(fullOf, usernames).state.failedUsernames == Filter(usernames, UnresolvedBy(fullOf))
    decreases |usernames|
  {
    if |usernames| > 0 {
      var init := usernames[..|usernames| - 1];
      var last := usernames[|usernames| - 1];
      FailedSeedsAreUnresolved(fullOf, init);
      assert usernames == init + [last];
      FilterAppend(init, [last], UnresolvedBy(fullOf));
    }
  }

  // ---------------------------------------------------------------------------
  // Expanding one frontier node (process_profile, tree_discovery.py:212-262)

  /** Some queueable candidate of `cands` has URN `urn` and handle `handle`. */
  predicate QueuedFrom(cands: seq<Candidate>, handle: string, urn: string) {
    exists c :: c in cands && Queueable(c) && c.urn == urn && Handle(c) == handle
  }

  /** A similar-profile entry the engine may queue: it has a URN and a handle. */
  predicate Queueable(c: Candidate) {
    c.urn != "" && Handle(c) != ""
  }

  /** The handles queued for a full fetch, the URNs they were queued under, and the
      seen set afterwards. */
  datatype Selection = Selection(handles: seq<string>, urns: seq<string>, seen: set<string>)

  /** The candidate scan of process_profile (lines 221-227): a candidate is queued
      when it is queueable and its URN is unseen, and its URN is marked seen at once,
      so no URN is queued twice and none that was seen before. */
  function SelectCandidates(cands: seq<Candidate>, seen: set<string>): (r: Selection)
    ensures |r.handles| == |r.urns|
    ensures NoDup(r.urns)
    ensures forall i :: 0 <= i < |r.urns| ==> r.urns[i] !in seen
    ensures forall x :: x in r.seen <==> x in seen || x in r.urns
    decreases |cands|
  {
    if |cands| == 0 then Selection([], [], seen)
    else
      var c := cands[0];
      if Queueable(c) && c.urn !in seen then
        var rest := SelectCandidates(cands[1..], seen + {c.urn});
        Selection([Handle(c)] + rest.handles, [c.urn] + rest.urns, rest.seen)
      else
        SelectCandidates(cands[1..], seen)
  }

  /** Every queued (handle, URN) pair comes from one queueable candidate of the list. */
  lemma {:induction false} SelectionFromCandidates(cands: seq<Candidate>, seen: set<string>)
    ensures forall i :: 0 <= i < |SelectCandidates(cands, seen).urns| ==>
              QueuedFrom(cands, SelectCandidates(cands, seen).handles[i], SelectCandidates(cands, seen).urns[i])
    decreases |cands|
  {
    if |cands| > 0 {
      var c := cands[0];
      var seen' := if Queueable(c) && c.urn !in seen then seen + {c.urn} else seen;
      SelectionFromCandidates(cands[1..], seen');
      var rest := SelectCandidates(cands[1..], seen');
      var r := SelectCandidates(cands, seen);
      forall i | 0 <= i < |r.urns| ensures QueuedFrom(cands, r.handles[i], r.urns[i]) {
        if Queueable(c) && c.urn !in seen {
          if i == 0 {
            assert c in cands;
          } else {
            assert r.urns[i] == rest.urns[i - 1] && r.handles[i] == rest.handles[i - 1];
            QueuedFromTail(cands, rest.handles[i - 1], rest.urns[i - 1]);
          }
        } else {
          QueuedFromTail(cands, rest.handles[i], rest.urns[i]);
        }
      }
    }
  }

  lemma QueuedFromTail(cands: seq<Candidate>, handle: string, urn: string)
    requires |cands| > 0 && QueuedFrom(cands[1..], handle, urn)
    ensures QueuedFrom(cands, handle, urn)
  {
    var d :| d in cands[1..] && Queueable(d) && d.urn == urn && Handle(d) == handle;
    assert d in cands;
  }

  /** After the scan every queueable candidate's URN is seen, whether it was queued
      now or seen before. */
  lemma {:induction false} SelectionCoversCandidates(cands: seq<Candidate>, seen: set<string>)
    ensures forall c :: c in cands && Queueable(c) ==> c.urn in SelectCandidates(cands, seen).seen
    decreases |cands|
  {
    if |cands| > 0 {
      var c := cands[0];
      assert forall d :: d in cands ==> d == c || d in cands[1..];
      if Queueable(c) && c.urn !in seen {
        SelectionCoversCandidates(cands[1..], seen + {c.urn});
      } else {
        SelectionCoversCandidates(cands[1..], seen);
      }
    }
  }

  /** The profiles of the successful entries of a batch, in batch order. */
  function Fetched(entries: seq<BatchEntry>): seq<Profile>
    decreases |entries|
  {
    if |entries| == 0 then []
    else (if entries[0].result.Success? then [entries[0].result.value] else []) + Fetched(entries[1..])
  }

  datatype Expansion = Expansion(state: State, children: seq<Profile>)

  /** The loop over a batch's results (lines 237-251): every fetched profile is
      recorded at once with depth `level + 1` and source `parentUrn`, in batch order;
      a failed fetch adds nothing, not even a failure entry. */
  function FetchChildren(st: State, entries: seq<BatchEntry>, parentUrn: string, level: nat): (r: Expansion)
    ensures r.state == st.(records := st.records + Tag(r.children, level + 1, parentUrn))
    decreases |entries|
  {
    if |entries| == 0 then
      assert st.records + Tag([], level + 1, parentUrn) == st.records;
      Expansion(st, [])
    else
      match entries[0].result
      case Success(p) =>
        var st1 := st.(records := st.records + [Record(p, level + 1, parentUrn)]);
        var rest := FetchChildren(st1, entries[1..], parentUrn, level);
        var children := [p] + rest.children;
        assert Tag(children, level + 1, parentUrn) == [Record(p, level + 1, parentUrn)] + Tag(rest.children, level + 1, parentUrn);
        assert rest.state.records == st.records + Tag(children, level + 1, parentUrn);
        Expansion(rest.state, children)
      case Failure(_) =>
        FetchChildren(st, entries[1..], parentUrn, level)
  }

  /** The children of a node are exactly the successfully fetched profiles of its
      batch, in batch order: a failed fetch contributes nothing. */
  lemma {:induction false} FetchChildrenAreFetched(st: State, entries: seq<BatchEntry>, parentUrn: string, level: nat)
    ensures FetchChildren(st, entries, parentUrn, level).children == Fetched(entries)
    decreases |entries|
  {
    if |entries| > 0 {
      match entries[0].result
      case Success(p) =>
        FetchChildrenAreFetched(st.(records := st.records + [Record(p, level + 1, parentUrn)]), entries[1..], parentUrn, level);
      case Failure(_) =>
        FetchChildrenAreFetched(st, entries[1..], parentUrn, level);
    }
  }

  /** `failed_urns`, `queued` and `seen` are related as the engine keeps them: no URN is
      queued twice, and every queued URN is seen. */
  ghost predicate QueueSound(st: State) {
    NoDup(st.queued) && forall i :: 0 <= i < |st.queued| ==> st.queued[i] in st.seen
  }

  /** `process_profile` for one frontier node at depth `level`: its URN is looked up
      (and traced); a failed lookup appends the URN to `failed_urns` and changes
      nothing else; a successful one queues the fresh candidates, marks their URNs
      seen, fetches them in one batch and records the fetched ones as its children:
      the children are exactly the successful fetches of the queued handles.
      No username failure is ever reported here, and the queue stays sound. */
  function ExpandNode(fullOf: FullOracle, similarOf: SimilarOracle, st: State, parent: Profile, level: nat): (r: Expansion)
    ensures r.state.expanded == st.expanded + [parent.urn]
    ensures r.state.records == st.records + Tag(r.children, level + 1, parent.urn)
    ensures r.state.failedUsernames == st.failedUsernames
    ensures st.seen <= r.state.seen
    ensures similarOf(parent.urn).Failure? ==>
              r == Expansion(st.(expanded := st.expanded + [parent.urn], failedUrns := st.failedUrns + [parent.urn]), [])
    ensures similarOf(parent.urn).Success? ==>
              && r.state.failedUrns == st.failedUrns
              && forall c :: c in similarOf(parent.urn).value && Queueable(c) ==> c.urn in r.state.seen
    ensures similarOf(parent.urn).Success? ==>
              && r.state.seen == SelectCandidates(similarOf(parent.urn).value, st.seen).seen
              && r.state.queued == st.queued + SelectCandidates(similarOf(parent.urn).value, st.seen).urns
              && r.children == Fetched(GetFullProfilesBatch(fullOf, SelectCandidates(similarOf(parent.urn).value, st.seen).handles))
    ensures QueueSound(st) ==> QueueSound(r.state)
  {
    var urn := parent.urn;
    var st0 := st.(expanded := st.expanded + [urn]);
    match similarOf(urn)
    case Failure(_) =>
      Expansion(st0.(failedUrns := st0.failedUrns + [urn]), [])
    case Success(cands) =>
      var sel := SelectCandidates(cands, st0.seen);
      SelectionCoversCandidates(cands, st0.seen);
      var st1 := st0.(seen := sel.seen, queued := st0.queued + sel.urns);
      assert QueueSound(st) ==> QueueSound(st1) by {
        if QueueSound(st) {
          forall i, j | 0 <= i < |st1.queued| && 0 <= j < |st1.queued| && i != j ensures st1.queued[i] != st1.queued[j] {
            if i >= |st.queued| && j < |st.queued| {
              assert st1.queued[i] == sel.urns[i - |st.queued|];
            } else if j >= |st.queued| && i < |st.queued| {
              assert st1.queued[j] == sel.urns[j - |st.queued|];
            }
          }
        }
      }
      if |sel.handles| == 0 then
        assert st1.records + Tag([], level + 1, urn) == st1.records;
        assert GetFullProfilesBatch(fullOf, sel.handles) == [];
        Expansion(st1, [])
      else
        FetchChildrenAreFetched(st1, GetFullProfilesBatch(fullOf, sel.handles), urn, level);
        FetchChildren(st1, GetFullProfilesBatch(fullOf, sel.handles), urn, level)
  }

  // ---------------------------------------------------------------------------
  // One depth level (tree_discovery.py:209-289) and the level loop (lines 165-205)

  /** All nodes of one level expanded in frontier order; the next frontier is the
      concatenation of their children, which are appended to the records in that
      same order. */
  function ExpandLevel(fullOf: FullOracle, similarOf: SimilarOracle, st: State, frontier: seq<Profile>, level: nat): (r: Expansion)
    ensures |r.state.records| == |st.records| + |r.children|
    ensures r.state.records[..|st.records|] == st.records
    decreases |frontier|
  {
    if |frontier| == 0 then Expansion(st, [])
    else
      var e1 := ExpandNode(fullOf, similarOf, st, frontier[0], level);
      var e2 := ExpandLevel(fullOf, similarOf, e1.state, frontier[1..], level);
      assert e2.state.records[..|st.records|] == e1.state.records[..|st.records|];
      Expansion(e2.state, e1.children + e2.children)
  }

  /** `after` is `before` extended by one record per child, each one level below
      `level` and attributed to a node of `frontier`. */
  ghost predicate ExtendsLevel(before: seq<Record>, after: seq<Record>, children: seq<Profile>, frontier: seq<Profile>, level: nat) {
    && |after| == |before| + |children|
    && after[..|before|] == before
    && forall j :: |before| <= j < |after| ==>
         && after[j].profile == children[j - |before|]
         && after[j].depthLevel == level + 1
         && after[j].sourceUrn in UrnsOf(frontier)
  }

  /** One node's children, tagged with its URN, followed by an extension for the
      rest of the frontier, extend the records for the whole frontier. */
  lemma ExtendsStep(a0: seq<Record>, a1: seq<Record>, a2: seq<Record>, c1: seq<Profile>, c2: seq<Profile>, frontier: seq<Profile>, level: nat)
    requires |frontier| > 0
    requires a1 == a0 + Tag(c1, level + 1, frontier[0].urn)
    requires ExtendsLevel(a1, a2, c2, frontier[1..], level)
    ensures ExtendsLevel(a0, a2, c1 + c2, frontier, level)
  {
    assert UrnsOf(frontier) == [frontier[0].urn] + UrnsOf(frontier[1..]);
    assert a2[..|a0|] == a1[..|a0|];
    forall j | |a0| <= j < |a2|
      ensures a2[j].profile == (c1 + c2)[j - |a0|]
      ensures a2[j].depthLevel == level + 1
      ensures a2[j].sourceUrn in UrnsOf(frontier)
    {
      if j < |a1| {
        assert a2[j] == a2[..|a1|][j];
        assert a1[j] == Record(c1[j - |a0|], level + 1, frontier[0].urn);
      }
    }
  }

  /** A level appends exactly one record per child of the next frontier, each one
      level deeper and attributed to a node of the frontier. */
  lemma {:induction false} LevelRecords(fullOf: FullOracle, similarOf: SimilarOracle, st: State, frontier: seq<Profile>, level: nat)
    ensures ExtendsLevel(st.records, ExpandLevel(fullOf, similarOf, st, frontier, level).state.records,
                         ExpandLevel(fullOf, similarOf, st, frontier, level).children, frontier, level)
    decreases |frontier|
  {
    if |frontier| > 0 {
      var e1 := ExpandNode(fullOf, similarOf, st, frontier[0], level);
      var e2 := ExpandLevel(fullOf, similarOf, e1.state, frontier[1..], level);
      LevelRecords(fullOf, similarOf, e1.state, frontier[1..], level);
      ExtendsStep(st.records, e1.state.records, e2.state.records, e1.children, e2.children, frontier, level);
    }
  }

  /** A frontier node whose similar-profiles lookup fails. */
  function LookupFailsBy(similarOf: SimilarOracle): string -> bool {
    u => similarOf(u).Failure?
  }

  lemma UrnsCons(ps: seq<Profile>)
    requires |ps| > 0
    ensures UrnsOf(ps) == [ps[0].urn] + UrnsOf(ps[1..])
  {
  }

  lemma AppendCons<T>(a: seq<T>, x: T, b: seq<T>)
    ensures (a + [x]) + b == a + ([x] + b)
  {
  }

  /** Every node's URN is looked up exactly once, in frontier order, and
      `failed_usernames` is untouched. */
  lemma {:induction false} LevelExpandsFrontier(fullOf: FullOracle, similarOf: SimilarOracle, st: State, frontier: seq<Profile>, level: nat)
    ensures ExpandLevel(fullOf, similarOf, st, frontier, level).state.expanded == st.expanded + UrnsOf(frontier)
    ensures ExpandLevel(fullOf, similarOf, st, frontier, level).state.failedUsernames == st.failedUsernames
    decreases |frontier|
  {
    if |frontier| > 0 {
      var e1 := ExpandNode(fullOf, similarOf, st, frontier[0], level);
      var e2 := ExpandLevel(fullOf, similarOf, e1.state, frontier[1..], level);
      assert ExpandLevel(fullOf, similarOf, st, frontier, level).state == e2.state;
      LevelExpandsFrontier(fullOf, similarOf, e1.state, frontier[1..], level);
      UrnsCons(frontier);
      AppendCons(st.expanded, frontier[0].urn, UrnsOf(frontier[1..]));
    } else {
      assert UrnsOf(frontier) == [];
    }
  }

  /** `failed_urns` grows by exactly the frontier URNs whose lookup failed, in
      frontier order. */
  lemma {:induction false} LevelFailedUrns(fullOf: FullOracle, similarOf: SimilarOracle, st: State, frontier: seq<Profile>, level: nat)
    ensures ExpandLevel(fullOf, similarOf, st, frontier, level).state.failedUrns
              == st.failedUrns + Filter(UrnsOf(frontier), LookupFailsBy(similarOf))
    decreases |frontier|
  {
    var us := UrnsOf(frontier);
    if |frontier| > 0 {
      var e1 := ExpandNode(fullOf, similarOf, st, frontier[0], level);
      LevelFailedUrns(fullOf, similarOf, e1.state, frontier[1..], level);
      assert us[1..] == UrnsOf(frontier[1..]);
      var rest := Filter(UrnsOf(frontier[1..]), LookupFailsBy(similarOf));
      if similarOf(frontier[0].urn).Failure? {
        assert Filter(us, LookupFailsBy(similarOf)) == [us[0]] + rest;
        assert e1.state.failedUrns == st.failedUrns + [us[0]];
      } else {
        assert Filter(us, LookupFailsBy(similarOf)) == rest;
      }
    } else {
      assert Filter(us, LookupFailsBy(similarOf)) == [];
    }
  }

  /** The state without its two lookup traces: everything a later expansion reads. */
  function Untraced(st: State): State {
    st.(expanded := [], failedUrns := [])
  }

  /** A frontier node whose similar-profiles lookup succeeds. */
  function AnsweredBy(similarOf: SimilarOracle): Profile -> bool {
    (p: Profile) => similarOf(p.urn).Success?
  }

  /** A node's expansion does not depend on the lookups made before it. */
  lemma NodeUntraced(fullOf: FullOracle, similarOf: SimilarOracle, st: State, st2: State, parent: Profile, level: nat)
    requires Untraced(st) == Untraced(st2)
    ensures Untraced(ExpandNode(fullOf, similarOf, st, parent, level).state) == Untraced(ExpandNode(fullOf, similarOf, st2, parent, level).state)
    ensures ExpandNode(fullOf, similarOf, st, parent, level).children == ExpandNode(fullOf, similarOf, st2, parent, level).children
  {
    assert st.records == st2.records && st.seen == st2.seen && st.queued == st2.queued;
  }

  /** A failed lookup leaves its siblings unaffected: dropping every frontier node
      whose lookup fails changes neither the records, the seen set, the queue nor
      the next frontier; only the two lookup traces differ. */
  lemma {:induction false} LevelSkipsFailed(fullOf: FullOracle, similarOf: SimilarOracle, st: State, st2: State, frontier: seq<Profile>, level: nat)
    requires Untraced(st) == Untraced(st2)
    ensures Untraced(ExpandLevel(fullOf, similarOf, st, frontier, level).state)
              == Untraced(ExpandLevel(fullOf, similarOf, st2, Filter(frontier, AnsweredBy(similarOf)), level).state)
    ensures ExpandLevel(fullOf, similarOf, st, frontier, level).children
              == ExpandLevel(fullOf, similarOf, st2, Filter(frontier, AnsweredBy(similarOf)), level).children
    decreases |frontier|, 1
  {
    if |frontier| == 0 {
      assert Filter(frontier, AnsweredBy(similarOf)) == [];
    } else if similarOf(frontier[0].urn).Failure? {
      SkipsFailedHead(fullOf, similarOf, st, st2, frontier, level);
    } else {
      KeepsAnsweredHead(fullOf, similarOf, st, st2, frontier, level);
    }
  }

  /** A failing first node is looked up and dropped; its siblings see the same state. */
  lemma {:induction false} SkipsFailedHead(fullOf: FullOracle, similarOf: SimilarOracle, st: State, st2: State, frontier: seq<Profile>, level: nat)
    requires Untraced(st) == Untraced(st2)
    requires |frontier| > 0 && similarOf(frontier[0].urn).Failure?
    ensures Untraced(ExpandLevel(fullOf, similarOf, st, frontier, level).state)
              == Untraced(ExpandLevel(fullOf, similarOf, st2, Filter(frontier, AnsweredBy(similarOf)), level).state)
    ensures ExpandLevel(fullOf, similarOf, st, frontier, level).children
              == ExpandLevel(fullOf, similarOf, st2, Filter(frontier, AnsweredBy(similarOf)), level).children
    decreases |frontier|, 0
  {
    var p := frontier[0];
    var e1 := ExpandNode(fullOf, similarOf, st, p, level);
    LevelUnfold(fullOf, similarOf, st, frontier, level);
    FilterCons(frontier, AnsweredBy(similarOf));
    assert e1 == Expansion(st.(expanded := st.expanded + [p.urn], failedUrns := st.failedUrns + [p.urn]), []);
    LevelSkipsFailed(fullOf, similarOf, e1.state, st2, frontier[1..], level);
  }

  /** An answering first node is expanded on both sides alike. */
  lemma {:induction false} KeepsAnsweredHead(fullOf: FullOracle, similarOf: SimilarOracle, st: State, st2: State, frontier: seq<Profile>, level: nat)
    requires Untraced(st) == Untraced(st2)
    requires |frontier| > 0 && similarOf(frontier[0].urn).Success?
    ensures Untraced(ExpandLevel(fullOf, similarOf, st, frontier, level).state)
              == Untraced(ExpandLevel(fullOf, similarOf, st2, Filter(frontier, AnsweredBy(similarOf)), level).state)
    ensures ExpandLevel(fullOf, similarOf, st, frontier, level).children
              == ExpandLevel(fullOf, similarOf, st2, Filter(frontier, AnsweredBy(similarOf)), level).children
    decreases |frontier|, 0
  {
    var p := frontier[0];
    var kept := Filter(frontier, AnsweredBy(similarOf));
    var rest := Filter(frontier[1..], AnsweredBy(similarOf));
    var e1 := ExpandNode(fullOf, similarOf, st, p, level);
    LevelUnfold(fullOf, similarOf, st, frontier, level);
    FilterCons(frontier, AnsweredBy(similarOf));
    LevelUnfold(fullOf, similarOf, st2, kept, level);
    assert kept[0] == p && kept[1..] == rest;
    var e1' := ExpandNode(fullOf, similarOf, st2, p, level);
    NodeUntraced(fullOf, similarOf, st, st2, p, level);
    LevelSkipsFailed(fullOf, similarOf, e1.state, e1'.state, frontier[1..], level);
  }

  /** One step of a level: the first node, then the rest of the frontier. */
  lemma LevelUnfold(fullOf: FullOracle, similarOf: SimilarOracle, st: State, frontier: seq<Profile>, level: nat)
    requires |frontier| > 0
    ensures ExpandLevel(fullOf, similarOf, st, frontier, level).state
              == ExpandLevel(fullOf, similarOf, ExpandNode(fullOf, similarOf, st, frontier[0], level).state, frontier[1..], level).state
    ensures ExpandLevel(fullOf, similarOf, st, frontier, level).children
              == ExpandNode(fullOf, similarOf, st, frontier[0], level).children
                 + ExpandLevel(fullOf, similarOf, ExpandNode(fullOf, similarOf, st, frontier[0], level).state, frontier[1..], level).children
  {
  }

  /** Nothing leaves the seen set during a level, and the queue stays sound. */
  lemma {:induction false} LevelKeepsSeen(fullOf: FullOracle, similarOf: SimilarOracle, st: State, frontier: seq<Profile>, level: nat)
    ensures st.seen <= ExpandLevel(fullOf, similarOf, st, frontier, level).state.seen
    ensures QueueSound(st) ==> QueueSound(ExpandLevel(fullOf, similarOf, st, frontier, level).state)
    decreases |frontier|
  {
    if |frontier| > 0 {
      var e1 := ExpandNode(fullOf, similarOf, st, frontier[0], level);
      LevelKeepsSeen(fullOf, similarOf, e1.state, frontier[1..], level);
    }
  }

  /** The level loop from depth `level` with the given frontier: a level is expanded
      only when it is non-empty and below `maxDepth`. The measure is
      `maxDepth - level`. */
  function Crawl(fullOf: FullOracle, similarOf: SimilarOracle, st: State, frontier: seq<Profile>, level: nat, maxDepth: int): State
    decreases maxDepth - level
  {
    if |frontier| == 0 || level >= maxDepth then st
    else
      var e := ExpandLevel(fullOf, similarOf, st, frontier, level);
      Crawl(fullOf, similarOf, e.state, e.children, level + 1, maxDepth)
  }

  /** Recording the starting profiles at depth 0 with an empty source
      (tree_discovery.py:186-193). */
  function RecordSeeds(st: State, seeds: seq<Profile>): State {
    st.(records := st.records + Tag(seeds, 0, ""))
  }

  /** `discover_from_usernames` up to `_build_result`: resolve the seeds; when none
      resolves, stop before any expansion; otherwise record them and crawl. */
  function Run(fullOf: FullOracle, similarOf: SimilarOracle, usernames: seq<string>, maxDepth: int): State {
    var s := ResolveSeeds(fullOf, usernames);
    if |s.seeds| == 0 then s.state
    else Crawl(fullOf, similarOf, RecordSeeds(s.state, s.seeds), s.seeds, 0, maxDepth)
  }

  // ---------------------------------------------------------------------------
  // Shape of the discovered records

  /** The records form a forest listed parents-first: a depth-0 record has no source,
      and every deeper record names as its source the URN of an earlier record one
      level up. */
  ghost predicate Forest(rs: seq<Record>) {
    forall j :: 0 <= j < |rs| ==> Rooted(rs, j)
  }

  /** Record `j` is a root without a source, or has its parent among the earlier
      records. */
  ghost predicate Rooted(rs: seq<Record>, j: int)
    requires 0 <= j < |rs|
  {
    && (rs[j].depthLevel == 0 ==> rs[j].sourceUrn == "")
    && (rs[j].depthLevel > 0 ==> exists k :: ParentAt(rs, j, k))
  }

  /** Record `k` comes before record `j`, one level up, and is its source. */
  ghost predicate ParentAt(rs: seq<Record>, j: int, k: int) {
    0 <= k < j < |rs| && rs[k].profile.urn == rs[j].sourceUrn && rs[k].depthLevel + 1 == rs[j].depthLevel
  }

  /** The frontier is the tail of the records, all at depth `level`. */
  ghost predicate FrontierAt(rs: seq<Record>, frontier: seq<Profile>, level: nat) {
    && |frontier| <= |rs|
    && forall i :: 0 <= i < |frontier| ==>
         rs[|rs| - |frontier| + i].profile == frontier[i] && rs[|rs| - |frontier| + i].depthLevel == level
  }

  ghost predicate DepthsAtMost(rs: seq<Record>, d: nat) {
    forall j :: 0 <= j < |rs| ==> rs[j].depthLevel <= d
  }

  /** Extending a forest by a level of children of its frontier yields a forest
      whose frontier is those children. */
  lemma {:induction false} ForestExtends(before: seq<Record>, after: seq<Record>, children: seq<Profile>, frontier: seq<Profile>, level: nat)
    requires Forest(before) && FrontierAt(before, frontier, level) && DepthsAtMost(before, level)
    requires ExtendsLevel(before, after, children, frontier, level)
    ensures Forest(after) && FrontierAt(after, children, level + 1) && DepthsAtMost(after, level + 1)
  {
    ExtendsPrefix(before, after, children, frontier, level);
    forall j | 0 <= j < |after| ensures Rooted(after, j) {
      RootedAfter(before, after, children, frontier, level, j);
    }
  }

  lemma ExtendsPrefix(before: seq<Record>, after: seq<Record>, children: seq<Profile>, frontier: seq<Profile>, level: nat)
    requires ExtendsLevel(before, after, children, frontier, level)
    ensures forall j :: 0 <= j < |before| ==> after[j] == before[j]
  {
    forall j | 0 <= j < |before| ensures after[j] == before[j] {
      assert after[..|before|][j] == after[j];
    }
  }

  /** One record of the extended list has its parent, either inherited from
      `before` or found on the frontier. */
  lemma RootedAfter(before: seq<Record>, after: seq<Record>, children: seq<Profile>, frontier: seq<Profile>, level: nat, j: int)
    requires Forest(before) && FrontierAt(before, frontier, level)
    requires ExtendsLevel(before, after, children, frontier, level)
    requires forall i :: 0 <= i < |before| ==> after[i] == before[i]
    requires 0 <= j < |after|
    ensures Rooted(after, j)
  {
    var n := |before|;
    if j < n {
      assert Rooted(before, j);
      if before[j].depthLevel > 0 {
        var k :| ParentAt(before, j, k);
        assert ParentAt(after, j, k);
      }
    } else {
      var i :| 0 <= i < |frontier| && UrnsOf(frontier)[i] == after[j].sourceUrn;
      var k := n - |frontier| + i;
      assert ParentAt(after, j, k);
    }
  }

  /** The starting profiles form a forest of roots, which is also the first frontier. */
  lemma {:induction false} SeedsForest(seeds: seq<Profile>)
    ensures Forest(Tag(seeds, 0, "")) && FrontierAt(Tag(seeds, 0, ""), seeds, 0) && DepthsAtMost(Tag(seeds, 0, ""), 0)
  {
    var rs := Tag(seeds, 0, "");
    assert DepthsAtMost(rs, 0);
    assert FrontierAt(rs, seeds, 0);
    assert Forest(rs);
  }

  /** The crawl keeps the records a forest and never records a profile deeper than
      `maxDepth`, or than the level it started from. */
  lemma {:induction false} CrawlKeepsForest(fullOf: FullOracle, similarOf: SimilarOracle, st: State, frontier: seq<Profile>, level: nat, maxDepth: int)
    requires Forest(st.records) && FrontierAt(st.records, frontier, level) && DepthsAtMost(st.records, level)
    ensures Forest(Crawl(fullOf, similarOf, st, frontier, level, maxDepth).records)
    ensures DepthsAtMost(Crawl(fullOf, similarOf, st, frontier, level, maxDepth).records, if level >= maxDepth then level else maxDepth)
    decreases maxDepth - level
  {
    if |frontier| == 0 || level >= maxDepth {
      if level < maxDepth {
        assert forall j :: 0 <= j < |st.records| ==> st.records[j].depthLevel <= maxDepth;
      }
    } else {
      var e := ExpandLevel(fullOf, similarOf, st, frontier, level);
      LevelRecords(fullOf, similarOf, st, frontier, level);
      ForestExtends(st.records, e.state.records, e.children, frontier, level);
      CrawlKeepsForest(fullOf, similarOf, e.state, e.children, level + 1, maxDepth);
    }
  }

  /** Whatever the oracles answer, the result lists every profile after its source
      (seeds first, at depth 0 with no source), and no profile is deeper than
      `max_depth` (or 0, for a non-positive `max_depth`). */
  lemma {:induction false} RunIsForest(fullOf: FullOracle, similarOf: SimilarOracle, usernames: seq<string>, maxDepth: int)
    ensures Forest(Run(fullOf, similarOf, usernames, maxDepth).records)
    ensures DepthsAtMost(Run(fullOf, similarOf, usernames, maxDepth).records, if maxDepth <= 0 then 0 else maxDepth)
  {
    var s := ResolveSeeds(fullOf, usernames);
    if |s.seeds| > 0 {
      var st := RecordSeeds(s.state, s.seeds);
      assert st.records == Tag(s.seeds, 0, "");
      SeedsForest(s.seeds);
      CrawlKeepsForest(fullOf, similarOf, st, s.seeds, 0, maxDepth);
    }
  }

  /** The crawl only appends to the records, and everything it appends lies below
      the level it starts from. */
  lemma {:induction false} CrawlAppendsDeeper(fullOf: FullOracle, similarOf: SimilarOracle, st: State, frontier: seq<Profile>, level: nat, maxDepth: int)
    ensures |st.records| <= |Crawl(fullOf, similarOf, st, frontier, level, maxDepth).records|
    ensures Crawl(fullOf, similarOf, st, frontier, level, maxDepth).records[..|st.records|] == st.records
    ensures forall j :: |st.records| <= j < |Crawl(fullOf, similarOf, st, frontier, level, maxDepth).records| ==>
              Crawl(fullOf, similarOf, st, frontier, level, maxDepth).records[j].depthLevel > level
    decreases maxDepth - level
  {
    if |frontier| > 0 && level < maxDepth {
      var e := ExpandLevel(fullOf, similarOf, st, frontier, level);
      var out := Crawl(fullOf, similarOf, e.state, e.children, level + 1, maxDepth).records;
      LevelRecords(fullOf, similarOf, st, frontier, level);
      CrawlAppendsDeeper(fullOf, similarOf, e.state, e.children, level + 1, maxDepth);
      var n := |st.records|;
      var m := |e.state.records|;
      assert out[..n] == out[..m][..n];
      forall j | n <= j < |out| ensures out[j].depthLevel > level {
        if j < m {
          assert out[j] == out[..m][j];
        }
      }
    }
  }

  /** A run's records open with the starting profiles, in input order, at depth 0
      with no source; every later record was discovered, at depth 1 or more. */
  lemma {:induction false} RunStartsWithSeeds(fullOf: FullOracle, similarOf: SimilarOracle, usernames: seq<string>, maxDepth: int)
    ensures |ResolveSeeds(fullOf, usernames).seeds| <= |Run(fullOf, similarOf, usernames, maxDepth).records|
    ensures Run(fullOf, similarOf, usernames, maxDepth).records[..|ResolveSeeds(fullOf, usernames).seeds|]
              == Tag(ResolveSeeds(fullOf, usernames).seeds, 0, "")
    ensures forall j :: |ResolveSeeds(fullOf, usernames).seeds| <= j < |Run(fullOf, similarOf, usernames, maxDepth).records| ==>
              Run(fullOf, similarOf, usernames, maxDepth).records[j].depthLevel > 0
  {
    var s := ResolveSeeds(fullOf, usernames);
    if |s.seeds| > 0 {
      var st := RecordSeeds(s.state, s.seeds);
      assert st.records == Tag(s.seeds, 0, "");
      CrawlAppendsDeeper(fullOf, similarOf, st, s.seeds, 0, maxDepth);
    }
  }

  /** Expanding any of a level's nodes, in any order, keeps the records a forest: the
      records `_build_result` reports when a level is interrupted between node
      expansions. */
  lemma PartialLevelForest(fullOf: FullOracle, similarOf: SimilarOracle, st: State, frontier: seq<Profile>, done: seq<Profile>, level: nat)
    requires Forest(st.records) && FrontierAt(st.records, frontier, level) && DepthsAtMost(st.records, level)
    requires forall i :: 0 <= i < |done| ==> done[i] in frontier
    ensures Forest(ExpandLevel(fullOf, similarOf, st, done, level).state.records)
  {
    var e := ExpandLevel(fullOf, similarOf, st, done, level);
    LevelRecords(fullOf, similarOf, st, done, level);
    forall j | |st.records| <= j < |e.state.records| ensures e.state.records[j].sourceUrn in UrnsOf(frontier) {
      var i :| 0 <= i < |done| && UrnsOf(done)[i] == e.state.records[j].sourceUrn;
      var k :| 0 <= k < |frontier| && frontier[k] == done[i];
      assert UrnsOf(frontier)[k] == e.state.records[j].sourceUrn;
    }
    assert ExtendsLevel(st.records, e.state.records, e.children, frontier, level);
    ForestExtends(st.records, e.state.records, e.children, frontier, level);
  }

  // ---------------------------------------------------------------------------
  // Which lookups the crawl makes

  /** `failed_urns` lists exactly the looked-up URNs whose similar-profiles lookup
      failed, in lookup order. */
  lemma {:induction false} CrawlFailedUrns(fullOf: FullOracle, similarOf: SimilarOracle, st: State, frontier: seq<Profile>, level: nat, maxDepth: int)
    requires st.failedUrns == Filter(st.expanded, LookupFailsBy(similarOf))
    ensures Crawl(fullOf, similarOf, st, frontier, level, maxDepth).failedUrns
              == Filter(Crawl(fullOf, similarOf, st, frontier, level, maxDepth).expanded, LookupFailsBy(similarOf))
    ensures Crawl(fullOf, similarOf, st, frontier, level, maxDepth).failedUsernames == st.failedUsernames
    decreases maxDepth - level
  {
    if |frontier| > 0 && level < maxDepth {
      var e := ExpandLevel(fullOf, similarOf, st, frontier, level);
      LevelExpandsFrontier(fullOf, similarOf, st, frontier, level);
      LevelFailedUrns(fullOf, similarOf, st, frontier, level);
      FilterAppend(st.expanded, UrnsOf(frontier), LookupFailsBy(similarOf));
      CrawlFailedUrns(fullOf, similarOf, e.state, e.children, level + 1, maxDepth);
    }
  }

  lemma {:induction false} CrawlQueueSound(fullOf: FullOracle, similarOf: SimilarOracle, st: State, frontier: seq<Profile>, level: nat, maxDepth: int)
    requires QueueSound(st)
    ensures QueueSound(Crawl(fullOf, similarOf, st, frontier, level, maxDepth))
    decreases maxDepth - level
  {
    if |frontier| > 0 && level < maxDepth {
      var e := ExpandLevel(fullOf, similarOf, st, frontier, level);
      LevelKeepsSeen(fullOf, similarOf, st, frontier, level);
      CrawlQueueSound(fullOf, similarOf, e.state, e.children, level + 1, maxDepth);
    }
  }

  /** Over a whole run no candidate URN is queued for a full fetch twice, and every
      queued URN is in `seen_urns`. */
  lemma {:induction false} RunQueuesOnce(fullOf: FullOracle, similarOf: SimilarOracle, usernames: seq<string>, maxDepth: int)
    ensures NoDup(Run(fullOf, similarOf, usernames, maxDepth).queued)
    ensures forall i :: 0 <= i < |Run(fullOf, similarOf, usernames, maxDepth).queued| ==>
              Run(fullOf, similarOf, usernames, maxDepth).queued[i] in Run(fullOf, similarOf, usernames, maxDepth).seen
  {
    var s := ResolveSeeds(fullOf, usernames);
    if |s.seeds| > 0 {
      CrawlQueueSound(fullOf, similarOf, RecordSeeds(s.state, s.seeds), s.seeds, 0, maxDepth);
    }
  }

  /** Every looked-up URN belongs to a record lying strictly above depth `d`. */
  ghost predicate ExpandedShallow(st: State, d: int) {
    forall i :: 0 <= i < |st.expanded| ==>
      exists j :: 0 <= j < |st.records| && st.records[j].profile.urn == st.expanded[i] && st.records[j].depthLevel < d
  }

  lemma {:induction false} ShallowExtends(st: State, post: State, frontier: seq<Profile>, level: nat, d: int)
    requires ExpandedShallow(st, d) && FrontierAt(st.records, frontier, level) && level < d
    requires |st.records| <= |post.records| && post.records[..|st.records|] == st.records
    requires post.expanded == st.expanded + UrnsOf(frontier)
    ensures ExpandedShallow(post, d)
  {
    var n := |st.records|;
    forall j | 0 <= j < n ensures post.records[j] == st.records[j] {
      assert post.records[..n][j] == post.records[j];
    }
    forall i | 0 <= i < |post.expanded|
      ensures exists j :: 0 <= j < |post.records| && post.records[j].profile.urn == post.expanded[i] && post.records[j].depthLevel < d
    {
      if i < |st.expanded| {
        var j :| 0 <= j < n && st.records[j].profile.urn == st.expanded[i] && st.records[j].depthLevel < d;
        assert post.records[j] == st.records[j];
      } else {
        var k := i - |st.expanded|;
        var j := n - |frontier| + k;
        assert post.expanded[i] == frontier[k].urn;
        assert post.records[j] == st.records[j];
        assert post.records[j].profile.urn == post.expanded[i] && post.records[j].depthLevel < d;
      }
    }
    assert forall i :: 0 <= i < |post.expanded| ==>
      exists j :: 0 <= j < |post.records| && post.records[j].profile.urn == post.expanded[i] && post.records[j].depthLevel < d;
  }

  /** The crawl looks up only profiles it has recorded above `maxDepth`. */
  lemma {:induction false} CrawlShallow(fullOf: FullOracle, similarOf: SimilarOracle, st: State, frontier: seq<Profile>, level: nat, maxDepth: int)
    requires Forest(st.records) && FrontierAt(st.records, frontier, level) && DepthsAtMost(st.records, level)
    requires ExpandedShallow(st, maxDepth)
    ensures ExpandedShallow(Crawl(fullOf, similarOf, st, frontier, level, maxDepth), maxDepth)
    decreases maxDepth - level
  {
    if |frontier| > 0 && level < maxDepth {
      var e := ExpandLevel(fullOf, similarOf, st, frontier, level);
      LevelExpandsFrontier(fullOf, similarOf, st, frontier, level);
      ShallowExtends(st, e.state, frontier, level, maxDepth);
      LevelRecords(fullOf, similarOf, st, frontier, level);
      ForestExtends(st.records, e.state.records, e.children, frontier, level);
      CrawlShallow(fullOf, similarOf, e.state, e.children, level + 1, maxDepth);
    }
  }

  /** The whole run: the similar-profiles endpoint is called for exactly the recorded
      profiles above `max_depth`, in record order; `failed_urns` is exactly the failed subsequence of
      those calls; and `failed_usernames` is exactly the unresolvable seed usernames,
      in input order. */
  lemma {:induction false} RunLookups(fullOf: FullOracle, similarOf: SimilarOracle, usernames: seq<string>, maxDepth: int)
    ensures ExpandedShallow(Run(fullOf, similarOf, usernames, maxDepth), maxDepth)
    ensures Run(fullOf, similarOf, usernames, maxDepth).expanded
              == RecordUrns(Filter(Run(fullOf, similarOf, usernames, maxDepth).records, ShallowerThan(maxDepth)))
    ensures Run(fullOf, similarOf, usernames, maxDepth).failedUrns
              == Filter(Run(fullOf, similarOf, usernames, maxDepth).expanded, LookupFailsBy(similarOf))
    ensures Run(fullOf, similarOf, usernames, maxDepth).failedUsernames == Filter(usernames, UnresolvedBy(fullOf))
  {
    RunShallow(fullOf, similarOf, usernames, maxDepth);
    RunExpandsShallow(fullOf, similarOf, usernames, maxDepth);
    RunFailedUrns(fullOf, similarOf, usernames, maxDepth);
    RunFailedUsernames(fullOf, similarOf, usernames, maxDepth);
  }

  lemma {:induction false} RunShallow(fullOf: FullOracle, similarOf: SimilarOracle, usernames: seq<string>, maxDepth: int)
    ensures ExpandedShallow(Run(fullOf, similarOf, usernames, maxDepth), maxDepth)
  {
    var s := ResolveSeeds(fullOf, usernames);
    if |s.seeds| > 0 {
      var st := RecordSeeds(s.state, s.seeds);
      assert st.records == Tag(s.seeds, 0, "");
      assert st.expanded == [];
      SeedsForest(s.seeds);
      CrawlShallow(fullOf, similarOf, st, s.seeds, 0, maxDepth);
    }
  }

  lemma {:induction false} RunFailedUrns(fullOf: FullOracle, similarOf: SimilarOracle, usernames: seq<string>, maxDepth: int)
    ensures Run(fullOf, similarOf, usernames, maxDepth).failedUrns
              == Filter(Run(fullOf, similarOf, usernames, maxDepth).expanded, LookupFailsBy(similarOf))
  {
    var s := ResolveSeeds(fullOf, usernames);
    assert Filter(s.state.expanded, LookupFailsBy(similarOf)) == [];
    if |s.seeds| > 0 {
      CrawlFailedUrns(fullOf, similarOf, RecordSeeds(s.state, s.seeds), s.seeds, 0, maxDepth);
    }
  }

  lemma {:induction false} RunFailedUsernames(fullOf: FullOracle, similarOf: SimilarOracle, usernames: seq<string>, maxDepth: int)
    ensures Run(fullOf, similarOf, usernames, maxDepth).failedUsernames == Filter(usernames, UnresolvedBy(fullOf))
  {
    var s := ResolveSeeds(fullOf, usernames);
    FailedSeedsAreUnresolved(fullOf, usernames);
    if |s.seeds| > 0 {
      CrawlFailedUrns(fullOf, similarOf, RecordSeeds(s.state, s.seeds), s.seeds, 0, maxDepth);
    }
  }

  /** A record lying strictly above depth `d`. */
  function ShallowerThan(d: int): Record -> bool {
    (r: Record) => r.depthLevel < d
  }

  /** Before the level of `frontier` is expanded, the lookups made so far are exactly
      the URNs of the records in front of the frontier, in record order, and those
      records all lie above `level`. */
  ghost predicate LookedUpBefore(rs: seq<Record>, expanded: seq<string>, frontier: seq<Profile>, level: nat) {
    && FrontierAt(rs, frontier, level)
    && (forall j :: 0 <= j < |rs| - |frontier| ==> rs[j].depthLevel < level)
    && expanded == RecordUrns(rs[..|rs| - |frontier|])
  }

  /** Expanding a level keeps the lookups in step with the records: the frontier's
      URNs are appended and the children become the next frontier. */
  lemma LookedUpStep(before: seq<Record>, after: seq<Record>, children: seq<Profile>, frontier: seq<Profile>, level: nat,
                     expBefore: seq<string>, expAfter: seq<string>)
    requires LookedUpBefore(before, expBefore, frontier, level)
    requires ExtendsLevel(before, after, children, frontier, level)
    requires expAfter == expBefore + UrnsOf(frontier)
    ensures LookedUpBefore(after, expAfter, children, level + 1)
  {
    var n := |before|;
    var m := n - |frontier|;
    assert after[..|after| - |children|] == before;
    assert before == before[..m] + before[m..];
    forall k | 0 <= k < n ensures RecordUrns(before)[k] == (expBefore + UrnsOf(frontier))[k] {
      if k >= m {
        assert before[m + (k - m)].profile == frontier[k - m];
      }
    }
    assert expAfter == RecordUrns(before);
    forall j | 0 <= j < |after| - |children| ensures after[j].depthLevel < level + 1 {
      assert after[j] == before[j];
    }
  }

  /** When the loop stops, every record above `maxDepth` has been looked up, in
      record order, and nothing else has. */
  lemma LookedUpAll(rs: seq<Record>, expanded: seq<string>, frontier: seq<Profile>, level: nat, maxDepth: int)
    requires LookedUpBefore(rs, expanded, frontier, level) && level <= maxDepth
    requires |frontier| == 0 || level >= maxDepth
    ensures expanded == RecordUrns(Filter(rs, ShallowerThan(maxDepth)))
  {
    var m := |rs| - |frontier|;
    assert forall i :: 0 <= i < m ==> rs[..m][i].depthLevel < maxDepth;
    forall i | 0 <= i < |rs| - m ensures rs[m..][i].depthLevel >= maxDepth {
      assert rs[m..][i] == rs[|rs| - |frontier| + i];
      assert rs[|rs| - |frontier| + i].profile == frontier[i] && rs[|rs| - |frontier| + i].depthLevel == level;
    }
    assert rs == rs[..m] + rs[m..];
    SplitAtDepth(rs[..m], rs[m..], maxDepth);
  }

  /** A run of records above `d` followed by records at depth `d` or deeper keeps
      exactly the first run. */
  lemma SplitAtDepth(front: seq<Record>, tail: seq<Record>, d: int)
    requires forall i :: 0 <= i < |front| ==> front[i].depthLevel < d
    requires forall i :: 0 <= i < |tail| ==> tail[i].depthLevel >= d
    ensures Filter(front + tail, ShallowerThan(d)) == front
  {
    var keep := ShallowerThan(d);
    FilterAppend(front, tail, keep);
    FilterAll(front, keep);
    FilterNone(tail, keep);
  }

  /** The crawl looks up exactly the profiles it records above `maxDepth`. */
  lemma {:induction false} CrawlExpandsShallow(fullOf: FullOracle, similarOf: SimilarOracle, st: State, frontier: seq<Profile>, level: nat, maxDepth: int)
    requires LookedUpBefore(st.records, st.expanded, frontier, level) && level <= maxDepth
    ensures Crawl(fullOf, similarOf, st, frontier, level, maxDepth).expanded
              == RecordUrns(Filter(Crawl(fullOf, similarOf, st, frontier, level, maxDepth).records, ShallowerThan(maxDepth)))
    decreases maxDepth - level
  {
    if |frontier| == 0 || level >= maxDepth {
      LookedUpAll(st.records, st.expanded, frontier, level, maxDepth);
    } else {
      var e := ExpandLevel(fullOf, similarOf, st, frontier, level);
      LevelRecords(fullOf, similarOf, st, frontier, level);
      LevelExpandsFrontier(fullOf, similarOf, st, frontier, level);
      LookedUpStep(st.records, e.state.records, e.children, frontier, level, st.expanded, e.state.expanded);
      CrawlExpandsShallow(fullOf, similarOf, e.state, e.children, level + 1, maxDepth);
    }
  }

  /** A whole run looks up the similar profiles of exactly its records above
      `max_depth`, each once and in record order: no shallow profile is skipped. */
  lemma {:induction false} RunExpandsShallow(fullOf: FullOracle, similarOf: SimilarOracle, usernames: seq<string>, maxDepth: int)
    ensures Run(fullOf, similarOf, usernames, maxDepth).expanded
              == RecordUrns(Filter(Run(fullOf, similarOf, usernames, maxDepth).records, ShallowerThan(maxDepth)))
  {
    var s := ResolveSeeds(fullOf, usernames);
    if |s.seeds| == 0 {
      assert Filter(s.state.records, ShallowerThan(maxDepth)) == [];
    } else {
      var st := RecordSeeds(s.state, s.seeds);
      var rs := Tag(s.seeds, 0, "");
      assert st.records == rs && st.expanded == [];
      SeedsLookedUp(s.seeds);
      if maxDepth <= 0 {
        assert [] + rs == rs;
        SplitAtDepth([], rs, maxDepth);
        assert Crawl(fullOf, similarOf, st, s.seeds, 0, maxDepth) == st;
      } else {
        CrawlExpandsShallow(fullOf, similarOf, st, s.seeds, 0, maxDepth);
      }
    }
  }

  /** Before the first level nothing has been looked up, and the seeds are the
      frontier. */
  lemma SeedsLookedUp(seeds: seq<Profile>)
    ensures LookedUpBefore(Tag(seeds, 0, ""), [], seeds, 0)
    ensures forall i :: 0 <= i < |seeds| ==> Tag(seeds, 0, "")[i].depthLevel == 0
  {
    var rs := Tag(seeds, 0, "");
    assert rs[..|rs| - |seeds|] == [];
    SeedsForest(seeds);
  }

  /** With no positive depth budget the seeds are still recorded, but no similar
      profile is ever looked up. */
  lemma {:induction false} NoDepthNoLookup(fullOf: FullOracle, similarOf: SimilarOracle, usernames: seq<string>, maxDepth: int)
    requires maxDepth <= 0
    ensures Run(fullOf, similarOf, usernames, maxDepth).records == Tag(ResolveSeeds(fullOf, usernames).seeds, 0, "")
    ensures Run(fullOf, similarOf, usernames, maxDepth).expanded == []
    ensures Run(fullOf, similarOf, usernames, maxDepth).failedUrns == []
  {
    var s := ResolveSeeds(fullOf, usernames);
    if |s.seeds| == 0 {
      assert Tag(s.seeds, 0, "") == [];
    }
  }

  /** When no username resolves, the run stops before the crawl: nothing is recorded
      or looked up, and every username is reported as failed. */
  lemma {:induction false} NoSeedsNoCrawl(fullOf: FullOracle, similarOf: SimilarOracle, usernames: seq<string>, maxDepth: int)
    requires forall i :: 0 <= i < |usernames| ==> Unresolved(fullOf, usernames[i])
    ensures Run(fullOf, similarOf, usernames, maxDepth).records == []
    ensures Run(fullOf, similarOf, usernames, maxDepth).expanded == []
    ensures Run(fullOf, similarOf, usernames, maxDepth).failedUsernames == usernames
  {
    var s := ResolveSeeds(fullOf, usernames);
    SeedsCoverUsernames(fullOf, usernames);
    SeedsDistinct(fullOf, usernames);
    FailedSeedsAreUnresolved(fullOf, usernames);
    FilterAll(usernames, UnresolvedBy(fullOf));
    UnresolvedMeansNoSeeds(fullOf, usernames);
  }

  /** Some username resolves as soon as any seed exists. */
  lemma {:induction false} UnresolvedMeansNoSeeds(fullOf: FullOracle, usernames: seq<string>)
    ensures (forall i :: 0 <= i < |usernames| ==> Unresolved(fullOf, usernames[i])) ==> ResolveSeeds(fullOf, usernames).seeds == []
  {
    var seeds := ResolveSeeds(fullOf, usernames).seeds;
    if |seeds| > 0 {
      SeedsCoverUsernames(fullOf, usernames);
      SeedsDistinct(fullOf, usernames);
      assert Success(seeds[0]) in Fetches(fullOf, usernames);
      var k :| 0 <= k < |usernames| && Fetches(fullOf, usernames)[k] == Success(seeds[0]);
      assert !Unresolved(fullOf, usernames[k]);
    }
  }

  // ---------------------------------------------------------------------------
  // No profile is recorded twice

  function RecordUrns(rs: seq<Record>): (r: seq<string>)
    ensures |r| == |rs|
    ensures forall i :: 0 <= i < |rs| ==> r[i] == rs[i].profile.urn
  {
    seq(|rs|, i requires 0 <= i < |rs| => rs[i].profile.urn)
  }

  /** The engine's dedup keys on the URN of the similar-profile entry but records the
      profile fetched by its handle; the two agree whenever the API is consistent,
      and that is all the dedup relies on. */
  ghost predicate UrnMatch(fullOf: FullOracle, similarOf: SimilarOracle) {
    forall x: string, c: Candidate ::
      similarOf(x).Success? && c in similarOf(x).value && Queueable(c) && fullOf(Handle(c)).Success? ==>
        fullOf(Handle(c)).value.urn == c.urn
  }

  /** Recorded URNs are pairwise distinct and all marked seen. */
  ghost predicate Distinct(st: State) {
    && NoDup(RecordUrns(st.records))
    && forall i :: 0 <= i < |st.records| ==> st.records[i].profile.urn in st.seen
  }

  /** Fetching a batch of handles queued under distinct URNs, each fetched profile
      carrying its queued URN, yields children with distinct URNs drawn from those. */
  lemma {:induction false} FetchedDistinct(entries: seq<BatchEntry>, urns: seq<string>)
    requires |entries| == |urns| && NoDup(urns)
    requires forall i :: 0 <= i < |entries| && entries[i].result.Success? ==> entries[i].result.value.urn == urns[i]
    ensures NoDup(UrnsOf(Fetched(entries)))
    ensures forall i :: 0 <= i < |Fetched(entries)| ==> Fetched(entries)[i].urn in urns
    decreases |entries|
  {
    if |entries| > 0 {
      var rest := Fetched(entries[1..]);
      FetchedDistinct(entries[1..], urns[1..]);
      assert urns[0] !in urns[1..] by {
        forall k | 0 <= k < |urns[1..]| ensures urns[1..][k] != urns[0] {
          assert urns[1..][k] == urns[k + 1];
        }
      }
      if entries[0].result.Success? {
        var p := entries[0].result.value;
        assert Fetched(entries) == [p] + rest;
        assert UrnsOf(Fetched(entries)) == [p.urn] + UrnsOf(rest);
        NoDupAppend([p.urn], UrnsOf(rest));
      } else {
        assert Fetched(entries) == rest;
      }
    } else {
      assert UrnsOf(Fetched(entries)) == [];
    }
  }

  /** Appending profiles whose URNs are distinct, fresh and among the newly seen
      ones keeps the records distinct and seen. */
  lemma DistinctAppend(rs: seq<Record>, kids: seq<Profile>, depth: nat, source: string,
                       seen: set<string>, newUrns: seq<string>, seen2: set<string>)
    requires NoDup(RecordUrns(rs)) && forall i :: 0 <= i < |rs| ==> rs[i].profile.urn in seen
    requires NoDup(UrnsOf(kids)) && forall i :: 0 <= i < |kids| ==> kids[i].urn in newUrns
    requires forall i :: 0 <= i < |newUrns| ==> newUrns[i] !in seen
    requires forall x :: x in seen2 <==> x in seen || x in newUrns
    ensures NoDup(RecordUrns(rs + Tag(kids, depth, source)))
    ensures forall i :: 0 <= i < |rs + Tag(kids, depth, source)| ==> (rs + Tag(kids, depth, source))[i].profile.urn in seen2
  {
    var all := rs + Tag(kids, depth, source);
    assert RecordUrns(all) == RecordUrns(rs) + UrnsOf(kids);
    forall i | 0 <= i < |UrnsOf(kids)| ensures UrnsOf(kids)[i] !in RecordUrns(rs) {
      var x := UrnsOf(kids)[i];
      assert x in newUrns;
      forall k | 0 <= k < |rs| ensures RecordUrns(rs)[k] != x {
        assert rs[k].profile.urn in seen;
      }
    }
    NoDupAppend(RecordUrns(rs), UrnsOf(kids));
    forall i | 0 <= i < |all| ensures all[i].profile.urn in seen2 {
      if i >= |rs| {
        assert all[i].profile == kids[i - |rs|];
      }
    }
  }

  /** Expanding one node keeps the recorded URNs distinct and seen. */
  lemma {:induction false} NodeDistinct(fullOf: FullOracle, similarOf: SimilarOracle, st: State, parent: Profile, level: nat)
    requires UrnMatch(fullOf, similarOf) && Distinct(st)
    ensures Distinct(ExpandNode(fullOf, similarOf, st, parent, level).state)
  {
    var r := ExpandNode(fullOf, similarOf, st, parent, level);
    var urn := parent.urn;
    if similarOf(urn).Success? {
      var cands := similarOf(urn).value;
      var sel := SelectCandidates(cands, st.seen);
      if |sel.handles| > 0 {
        var st1 := st.(expanded := st.expanded + [urn], seen := sel.seen, queued := st.queued + sel.urns);
        var entries := GetFullProfilesBatch(fullOf, sel.handles);
        assert r == FetchChildren(st1, entries, urn, level);
        FetchChildrenAreFetched(st1, entries, urn, level);
        SelectionFromCandidates(cands, st.seen);
        forall i | 0 <= i < |entries| && entries[i].result.Success?
          ensures entries[i].result.value.urn == sel.urns[i]
        {
          var c :| c in cands && Queueable(c) && c.urn == sel.urns[i] && Handle(c) == sel.handles[i];
          assert fullOf(Handle(c)).Success?;
        }
        FetchedDistinct(entries, sel.urns);
        DistinctAppend(st.records, r.children, level + 1, urn, st.seen, sel.urns, r.state.seen);
      }
    }
  }

  lemma {:induction false} LevelDistinct(fullOf: FullOracle, similarOf: SimilarOracle, st: State, frontier: seq<Profile>, level: nat)
    requires UrnMatch(fullOf, similarOf) && Distinct(st)
    ensures Distinct(ExpandLevel(fullOf, similarOf, st, frontier, level).state)
    decreases |frontier|
  {
    if |frontier| > 0 {
      var e1 := ExpandNode(fullOf, similarOf, st, frontier[0], level);
      NodeDistinct(fullOf, similarOf, st, frontier[0], level);
      LevelDistinct(fullOf, similarOf, e1.state, frontier[1..], level);
    }
  }

  lemma {:induction false} CrawlDistinct(fullOf: FullOracle, similarOf: SimilarOracle, st: State, frontier: seq<Profile>, level: nat, maxDepth: int)
    requires UrnMatch(fullOf, similarOf) && Distinct(st)
    ensures Distinct(Crawl(fullOf, similarOf, st, frontier, level, maxDepth))
    decreases maxDepth - level
  {
    if |frontier| > 0 && level < maxDepth {
      var e := ExpandLevel(fullOf, similarOf, st, frontier, level);
      LevelDistinct(fullOf, similarOf, st, frontier, level);
      CrawlDistinct(fullOf, similarOf, e.state, e.children, level + 1, maxDepth);
    }
  }

  /** With a consistent API, a run never records the same URN twice, and so reports
      no more discovered profiles than unique URNs. */
  lemma {:induction false} RunDistinct(fullOf: FullOracle, similarOf: SimilarOracle, usernames: seq<string>, maxDepth: int)
    requires UrnMatch(fullOf, similarOf)
    ensures NoDup(RecordUrns(Run(fullOf, similarOf, usernames, maxDepth).records))
    ensures |Run(fullOf, similarOf, usernames, maxDepth).records| <= |Run(fullOf, similarOf, usernames, maxDepth).seen|
    ensures Discover(fullOf, similarOf, usernames, maxDepth).totalDiscovered <= Discover(fullOf, similarOf, usernames, maxDepth).uniqueUrns
  {
    var st := Run(fullOf, similarOf, usernames, maxDepth);
    RunKeepsDistinct(fullOf, similarOf, usernames, maxDepth);
    forall x | x in RecordUrns(st.records) ensures x in st.seen {
      var i :| 0 <= i < |st.records| && RecordUrns(st.records)[i] == x;
    }
    NoDupWithin(RecordUrns(st.records), st.seen);
  }

  lemma {:induction false} RunKeepsDistinct(fullOf: FullOracle, similarOf: SimilarOracle, usernames: seq<string>, maxDepth: int)
    requires UrnMatch(fullOf, similarOf)
    ensures Distinct(Run(fullOf, similarOf, usernames, maxDepth))
  {
    var s := ResolveSeeds(fullOf, usernames);
    if |s.seeds| > 0 {
      SeedsRecordedDistinct(fullOf, usernames);
      CrawlDistinct(fullOf, similarOf, RecordSeeds(s.state, s.seeds), s.seeds, 0, maxDepth);
    } else {
      assert RecordUrns(s.state.records) == [];
    }
  }

  /** The seeds, once recorded, have distinct URNs, all seen. */
  lemma SeedsRecordedDistinct(fullOf: FullOracle, usernames: seq<string>)
    ensures Distinct(RecordSeeds(ResolveSeeds(fullOf, usernames).state, ResolveSeeds(fullOf, usernames).seeds))
  {
    var s := ResolveSeeds(fullOf, usernames);
    var st0 := RecordSeeds(s.state, s.seeds);
    SeedsDistinct(fullOf, usernames);
    assert st0.records == Tag(s.seeds, 0, "");
    assert RecordUrns(st0.records) == UrnsOf(s.seeds);
  }

  /** The result dictionary, less the activity log. */
  datatype Report = Report(
    profiles: seq<Record>,
    totalDiscovered: nat,
    uniqueUrns: nat,
    failedUsernames: seq<string>,
    failedUrns: seq<string>)

  /** `_build_result`: defined on every state, so it can report a partial run. */
  function BuildReport(st: State): Report {
    Report(st.records, |st.records|, |st.seen|, st.failedUsernames, st.failedUrns)
  }

  function Discover(fullOf: FullOracle, similarOf: SimilarOracle, usernames: seq<string>, maxDepth: int): Report {
    BuildReport(Run(fullOf, similarOf, usernames, maxDepth))
  }

  /** What the report of a run tells its reader: the profiles form a parents-first
      forest counted by `total_discovered`; `failed_usernames` are the unresolvable
      inputs; `failed_urns` are exactly the reported profiles above `max_depth` whose
      similar-profiles lookup failed, in report order; and with a consistent API
      `total_discovered` never exceeds `unique_urns`. */
  lemma {:induction false} DiscoverReport(fullOf: FullOracle, similarOf: SimilarOracle, usernames: seq<string>, maxDepth: int)
    ensures Forest(Discover(fullOf, similarOf, usernames, maxDepth).profiles)
    ensures Discover(fullOf, similarOf, usernames, maxDepth).totalDiscovered == |Discover(fullOf, similarOf, usernames, maxDepth).profiles|
    ensures Discover(fullOf, similarOf, usernames, maxDepth).failedUsernames == Filter(usernames, UnresolvedBy(fullOf))
    ensures Discover(fullOf, similarOf, usernames, maxDepth).failedUrns
              == Filter(RecordUrns(Filter(Discover(fullOf, similarOf, usernames, maxDepth).profiles, ShallowerThan(maxDepth))),
                        LookupFailsBy(similarOf))
    ensures UrnMatch(fullOf, similarOf) ==>
              Discover(fullOf, similarOf, usernames, maxDepth).totalDiscovered <= Discover(fullOf, similarOf, usernames, maxDepth).uniqueUrns
  {
    RunIsForest(fullOf, similarOf, usernames, maxDepth);
    RunFailedUsernames(fullOf, similarOf, usernames, maxDepth);
    RunFailedUrns(fullOf, similarOf, usernames, maxDepth);
    RunExpandsShallow(fullOf, similarOf, usernames, maxDepth);
    if UrnMatch(fullOf, similarOf) {
      RunDistinct(fullOf, similarOf, usernames, maxDepth);
    }
  }
}

=== FILE: export.dfy ===
/** The export transforms of src/utils/export.py: flattening a discovered record
    into a CSV row, choosing the CSV columns, and naming the output files. File
    writing, `json.dump`, `csv.DictWriter`'s quoting, `Path` joining and the clock
    are left out; the timestamp is a parameter. */
module Export {
  import opened Wrappers
  import opened Seqs
  import opened Text
  import opened Profiles

  // ---------------------------------------------------------------------------
  // Flattened rows (flatten_profile, export.py:71-119)

  /** A value of a flattened row: most are strings, `isCreator`/`isPremium` are
      booleans and `depth_level` is an integer. */
  datatype Cell = Str(s: string) | Flag(b: bool) | Num(n: nat)

  /** Python truthiness of a cell: `''`, `False` and `0` are empty. */
  predicate Truthy(c: Cell) {
    match c
    case Str(s) => s != ""
    case Flag(b) => b
    case Num(n) => n != 0
  }

  /** The keys a flattened row can have. `Name` gives the key's text; the
      constructors are listed in the code-point order of those texts. */
  datatype Key =
    | City | Country | CurrentCompany | CurrentCompanyUrl | CurrentTitle | DepthLevel
    | Education | FirstName | Headline | Id | IsCreator | IsPremium | Languages
    | LastName | Location | ProfilePicture | Skills | SourceUrn | Summary | Urn | Username

  function Name(k: Key): string {
    match k
    case City => "city"
    case Country => "country"
    case CurrentCompany => "current_company"
    case CurrentCompanyUrl => "current_company_url"
    case CurrentTitle => "current_title"
    case DepthLevel => "depth_level"
    case Education => "education"
    case FirstName => "firstName"
    case Headline => "headline"
    case Id => "id"
    case IsCreator => "isCreator"
    case IsPremium => "isPremium"
    case Languages => "languages"
    case LastName => "lastName"
    case Location => "location"
    case ProfilePicture => "profilePicture"
    case Skills => "skills"
    case SourceUrn => "source_urn"
    case Summary => "summary"
    case Urn => "urn"
    case Username => "username"
  }

  type Row = map<Key, Cell>

  /** The twelve keys every flattened row has (export.py:73-86): all but the nine
      optional ones. */
  predicate IsBase(k: Key) {
    !(k.Location? || k.Country? || k.City? || k.Languages? || k.CurrentTitle? || k.CurrentCompany?
      || k.CurrentCompanyUrl? || k.Skills? || k.Education?)
  }

  /** A key that is present only when its source field is non-empty: the geo keys
      for a non-empty `geo`, `languages`, the `current_*` keys for a non-empty
      `position` list, `skills`, and `education`. */
  predicate OptionalKey(p: Profile, k: Key) {
    || ((k.Location? || k.Country? || k.City?) && |p.geo| > 0)
    || (k.Languages? && |p.languages| > 0)
    || ((k.CurrentTitle? || k.CurrentCompany? || k.CurrentCompanyUrl?) && |p.positions| > 0)
    || (k.Skills? && |p.skills| > 0)
    || (k.Education? && |p.educations| > 0)
  }

  /** The `name` fields of the first `limit` entries, as the code collects them. */
  function FirstNames(items: seq<Fields>, limit: nat): (r: seq<string>)
    ensures |r| == if |items| < limit then |items| else limit
    ensures forall i :: 0 <= i < |r| ==> r[i] == Field(items[i], "name")
  {
    var n := if |items| < limit then |items| else limit;
    seq(n, i requires 0 <= i < n => Field(items[i], "name"))
  }

  function BaseRow(r: Record): (m: Row)
    ensures forall k :: k in m <==> IsBase(k)
  {
    var p := r.profile;
    map[
      Id := Str(p.id), Urn := Str(p.urn), Username := Str(p.username.GetOr("")),
      FirstName := Str(p.firstName), LastName := Str(p.lastName),
      Headline := Str(p.headline.GetOr("")), Summary := Str(p.summary),
      IsCreator := Flag(p.isCreator), IsPremium := Flag(p.isPremium),
      ProfilePicture := Str(p.profilePicture),
      DepthLevel := Num(r.depthLevel), SourceUrn := Str(r.sourceUrn)]
  }

  function GeoRow(p: Profile): (m: Row)
    ensures m.Keys == if |p.geo| > 0 then {Location, Country, City} else {}
  {
    if |p.geo| > 0 then
      map[Location := Str(Field(p.geo, "full")), Country := Str(Field(p.geo, "country")),
          City := Str(Field(p.geo, "city"))]
    else map[]
  }

  function LanguagesRow(p: Profile): (m: Row)
    ensures m.Keys == if |p.languages| > 0 then {Languages} else {}
  {
    if |p.languages| > 0 then map[Languages := Str(Join(", ", FirstNames(p.languages, 3)))] else map[]
  }

  function PositionRow(p: Profile): (m: Row)
    ensures m.Keys == if |p.positions| > 0 then {CurrentTitle, CurrentCompany, CurrentCompanyUrl} else {}
    ensures |p.positions| > 0 ==> m[CurrentTitle] == Str(Field(p.positions[0], "title"))
    ensures |p.positions| > 0 ==> m[CurrentCompany] == Str(Field(p.positions[0], "companyName"))
    ensures |p.positions| > 0 ==> m[CurrentCompanyUrl] == Str(Field(p.positions[0], "companyURL"))
  {
    if |p.positions| > 0 then
      map[CurrentTitle := Str(Field(p.positions[0], "title")),
          CurrentCompany := Str(Field(p.positions[0], "companyName")),
          CurrentCompanyUrl := Str(Field(p.positions[0], "companyURL"))]
    else map[]
  }

  function SkillsRow(p: Profile): (m: Row)
    ensures m.Keys == if |p.skills| > 0 then {Skills} else {}
  {
    if |p.skills| > 0 then map[Skills := Str(Join(", ", FirstNames(p.skills, 10)))] else map[]
  }

  function EducationRow(p: Profile): (m: Row)
    ensures m.Keys == if |p.educations| > 0 then {Education} else {}
  {
    if |p.educations| > 0 then map[Education := Str(Field(p.educations[0], "schoolName"))] else map[]
  }

  /** The cells taken from nested fields, each group present only when its source
      field is non-empty. */
  function NestedRow(p: Profile): Row {
    GeoRow(p) + LanguagesRow(p) + PositionRow(p) + SkillsRow(p) + EducationRow(p)
  }

  /** `flatten_profile`: the base cells, then the nested ones. */
  function Flatten(r: Record): Row {
    BaseRow(r) + NestedRow(r.profile)
  }

  lemma NestedKey(p: Profile, k: Key)
    ensures k in NestedRow(p) <==> OptionalKey(p, k)
  {
    PartKeys(p, k);
    GroupsKey(GeoRow(p), LanguagesRow(p), PositionRow(p), SkillsRow(p), EducationRow(p), p, k);
  }

  /** Five groups holding their keys exactly when their source fields are non-empty
      together hold exactly the optional keys. */
  lemma GroupsKey(g: Row, l: Row, c: Row, s: Row, e: Row, p: Profile, k: Key)
    requires k in g <==> (k.Location? || k.Country? || k.City?) && |p.geo| > 0
    requires k in l <==> k.Languages? && |p.languages| > 0
    requires k in c <==> (k.CurrentTitle? || k.CurrentCompany? || k.CurrentCompanyUrl?) && |p.positions| > 0
    requires k in s <==> k.Skills? && |p.skills| > 0
    requires k in e <==> k.Education? && |p.educations| > 0
    ensures k in g + l + c + s + e <==> OptionalKey(p, k)
  {
    UnionKeys(g, l, c, s, e, k);
  }

  lemma PartKeys(p: Profile, k: Key)
    ensures k in GeoRow(p) <==> (k.Location? || k.Country? || k.City?) && |p.geo| > 0
    ensures k in LanguagesRow(p) <==> k.Languages? && |p.languages| > 0
    ensures k in PositionRow(p) <==> (k.CurrentTitle? || k.CurrentCompany? || k.CurrentCompanyUrl?) && |p.positions| > 0
    ensures k in SkillsRow(p) <==> k.Skills? && |p.skills| > 0
    ensures k in EducationRow(p) <==> k.Education? && |p.educations| > 0
  {
    GeoKeys(p, k);
    PositionKeys(p, k);
    SingleKeys(p, k);
  }

  lemma GeoKeys(p: Profile, k: Key)
    ensures k in GeoRow(p) <==> (k.Location? || k.Country? || k.City?) && |p.geo| > 0
  {
    var m := GeoRow(p);
    assert k in m <==> k in m.Keys;
  }

  lemma PositionKeys(p: Profile, k: Key)
    ensures k in PositionRow(p) <==> (k.CurrentTitle? || k.CurrentCompany? || k.CurrentCompanyUrl?) && |p.positions| > 0
  {
    var m := PositionRow(p);
    assert k in m <==> k in m.Keys;
  }

  lemma SingleKeys(p: Profile, k: Key)
    ensures k in LanguagesRow(p) <==> k.Languages? && |p.languages| > 0
    ensures k in SkillsRow(p) <==> k.Skills? && |p.skills| > 0
    ensures k in EducationRow(p) <==> k.Education? && |p.educations| > 0
  {
    var l, s, e := LanguagesRow(p), SkillsRow(p), EducationRow(p);
    assert k in l <==> k in l.Keys;
    assert k in s <==> k in s.Keys;
    assert k in e <==> k in e.Keys;
  }

  /** A key of a union of five maps is a key of one of them. */
  lemma UnionKeys<K, V>(a: map<K, V>, b: map<K, V>, c: map<K, V>, d: map<K, V>, e: map<K, V>, k: K)
    ensures k in a + b + c + d + e <==> k in a || k in b || k in c || k in d || k in e
  {
  }

  /** A key of a map union comes from one side; the right side wins. */
  lemma UnionAt<K, V>(a: map<K, V>, b: map<K, V>, k: K)
    ensures k in a + b <==> k in a || k in b
    ensures k in b ==> (a + b)[k] == b[k]
    ensures k in a && k !in b ==> (a + b)[k] == a[k]
  {
  }

  /** The twelve base keys are always present, an optional key is present exactly
      when its source field is non-empty, and a nested cell never overwrites a base
      cell. */
  lemma FlattenKey(r: Record, k: Key)
    ensures k in Flatten(r) <==> IsBase(k) || OptionalKey(r.profile, k)
    ensures IsBase(k) ==> Flatten(r)[k] == BaseRow(r)[k]
    ensures OptionalKey(r.profile, k) ==> Flatten(r)[k] == NestedRow(r.profile)[k]
  {
    var base, nested := BaseRow(r), NestedRow(r.profile);
    NestedKey(r.profile, k);
    UnionAt(base, nested, k);
    assert IsBase(k) ==> !OptionalKey(r.profile, k);
  }

  lemma FlattenKeys(r: Record)
    ensures forall k :: k in Flatten(r) <==> IsBase(k) || OptionalKey(r.profile, k)
  {
    forall k ensures k in Flatten(r) <==> IsBase(k) || OptionalKey(r.profile, k) {
      FlattenKey(r, k);
    }
  }

  /** Every base key holds the cell `BaseRow` reads from its field: no nested cell
      replaces a base cell. */
  lemma BaseWins(r: Record)
    ensures forall k :: IsBase(k) ==> k in Flatten(r) && Flatten(r)[k] == BaseRow(r)[k]
  {
    forall k | IsBase(k) ensures k in Flatten(r) && Flatten(r)[k] == BaseRow(r)[k] {
      FlattenKey(r, k);
    }
  }

  /** The `current_*` cells come from the first position and `education` from the
      first education. */
  lemma FirstEntryValues(r: Record)
    ensures |r.profile.positions| > 0 ==>
              && Flatten(r)[CurrentTitle] == Str(Field(r.profile.positions[0], "title"))
              && Flatten(r)[CurrentCompany] == Str(Field(r.profile.positions[0], "companyName"))
              && Flatten(r)[CurrentCompanyUrl] == Str(Field(r.profile.positions[0], "companyURL"))
    ensures |r.profile.educations| > 0 ==> Flatten(r)[Education] == Str(Field(r.profile.educations[0], "schoolName"))
  {
    if |r.profile.positions| > 0 {
      PositionValues(r);
    }
    if |r.profile.educations| > 0 {
      EducationValue(r);
    }
  }

  lemma PositionValues(r: Record)
    requires |r.profile.positions| > 0
    ensures Flatten(r)[CurrentTitle] == Str(Field(r.profile.positions[0], "title"))
    ensures Flatten(r)[CurrentCompany] == Str(Field(r.profile.positions[0], "companyName"))
    ensures Flatten(r)[CurrentCompanyUrl] == Str(Field(r.profile.positions[0], "companyURL"))
  {
    TitleValue(r);
    CompanyValue(r);
    CompanyUrlValue(r);
  }

  lemma TitleValue(r: Record)
    requires |r.profile.positions| > 0
    ensures Flatten(r)[CurrentTitle] == Str(Field(r.profile.positions[0], "title"))
  {
    FlattenKey(r, CurrentTitle);
    NestedValue(r.profile, CurrentTitle);
  }

  lemma CompanyValue(r: Record)
    requires |r.profile.positions| > 0
    ensures Flatten(r)[CurrentCompany] == Str(Field(r.profile.positions[0], "companyName"))
  {
    FlattenKey(r, CurrentCompany);
    NestedValue(r.profile, CurrentCompany);
  }

  lemma CompanyUrlValue(r: Record)
    requires |r.profile.positions| > 0
    ensures Flatten(r)[CurrentCompanyUrl] == Str(Field(r.profile.positions[0], "companyURL"))
  {
    FlattenKey(r, CurrentCompanyUrl);
    NestedValue(r.profile, CurrentCompanyUrl);
  }

  lemma EducationValue(r: Record)
    requires |r.profile.educations| > 0
    ensures Flatten(r)[Education] == Str(Field(r.profile.educations[0], "schoolName"))
  {
    FlattenKey(r, Education);
    NestedValue(r.profile, Education);
  }

  /** Each optional key is read from its own group: no later group shares a key
      with an earlier one. */
  lemma NestedValue(p: Profile, k: Key)
    requires OptionalKey(p, k)
    ensures k in NestedRow(p)
    ensures k in GeoRow(p) ==> NestedRow(p)[k] == GeoRow(p)[k]
    ensures k in LanguagesRow(p) ==> NestedRow(p)[k] == LanguagesRow(p)[k]
    ensures k in PositionRow(p) ==> NestedRow(p)[k] == PositionRow(p)[k]
    ensures k in SkillsRow(p) ==> NestedRow(p)[k] == SkillsRow(p)[k]
    ensures k in EducationRow(p) ==> NestedRow(p)[k] == EducationRow(p)[k]
  {
    PartKeys(p, k);
    GroupsValue(GeoRow(p), LanguagesRow(p), PositionRow(p), SkillsRow(p), EducationRow(p), p, k);
  }

  /** With disjoint groups, the union reads each key from its own group. */
  lemma GroupsValue(g: Row, l: Row, c: Row, s: Row, e: Row, p: Profile, k: Key)
    requires k in g <==> (k.Location? || k.Country? || k.City?) && |p.geo| > 0
    requires k in l <==> k.Languages? && |p.languages| > 0
    requires k in c <==> (k.CurrentTitle? || k.CurrentCompany? || k.CurrentCompanyUrl?) && |p.positions| > 0
    requires k in s <==> k.Skills? && |p.skills| > 0
    requires k in e <==> k.Education? && |p.educations| > 0
    requires OptionalKey(p, k)
    ensures k in g + l + c + s + e
    ensures k in g ==> (g + l + c + s + e)[k] == g[k]
    ensures k in l ==> (g + l + c + s + e)[k] == l[k]
    ensures k in c ==> (g + l + c + s + e)[k] == c[k]
    ensures k in s ==> (g + l + c + s + e)[k] == s[k]
    ensures k in e ==> (g + l + c + s + e)[k] == e[k]
  {
    UnionAt(g, l, k);
    UnionAt(g + l, c, k);
    UnionAt(g + l + c, s, k);
    UnionAt(g + l + c + s, e, k);
  }

  /** The list cells join, with ", ", the names of at most the first 3 languages and
      at most the first 10 skills, in order. */
  lemma ListValues(r: Record)
    ensures |r.profile.languages| > 0 ==>
              exists names :: Flatten(r)[Languages] == Str(Join(", ", names)) && NamesOf(names, r.profile.languages, 3)
    ensures |r.profile.skills| > 0 ==>
              exists names :: Flatten(r)[Skills] == Str(Join(", ", names)) && NamesOf(names, r.profile.skills, 10)
  {
    var p := r.profile;
    if |p.languages| > 0 {
      FlattenKey(r, Languages);
      NestedValue(p, Languages);
      assert NamesOf(FirstNames(p.languages, 3), p.languages, 3);
    }
    if |p.skills| > 0 {
      FlattenKey(r, Skills);
      NestedValue(p, Skills);
      assert NamesOf(FirstNames(p.skills, 10), p.skills, 10);
    }
  }

  /** `names` are the `name` fields of the first `limit` entries of `items` (all
      of them when there are fewer). */
  predicate NamesOf(names: seq<string>, items: seq<Fields>, limit: nat) {
    && |names| <= limit
    && |names| <= |items|
    && (|names| < limit ==> |names| == |items|)
    && forall i :: 0 <= i < |names| ==> names[i] == Field(items[i], "name")
  }

  // ---------------------------------------------------------------------------
  // CSV columns (export.py:46-61)

  /** Every key, in the code-point order of the key texts. */
  const Columns: seq<Key> := [
    City, Country, CurrentCompany, CurrentCompanyUrl, CurrentTitle, DepthLevel, Education,
    FirstName, Headline, Id, IsCreator, IsPremium, Languages, LastName, Location,
    ProfilePicture, Skills, SourceUrn, Summary, Urn, Username]

  /** The key texts of a list of keys. */
  function Names(ks: seq<Key>): (r: seq<string>)
    ensures |r| == |ks|
    ensures forall i :: 0 <= i < |ks| ==> r[i] == Name(ks[i])
  {
    seq(|ks|, i requires 0 <= i < |ks| => Name(ks[i]))
  }

  /** The position of each key among the columns: every key is a column. */
  function Rank(k: Key): (i: nat)
    ensures i < |Columns| && Columns[i] == k
  {
    match k
    case City => 0
    case Country => 1
    case CurrentCompany => 2
    case CurrentCompanyUrl => 3
    case CurrentTitle => 4
    case DepthLevel => 5
    case Education => 6
    case FirstName => 7
    case Headline => 8
    case Id => 9
    case IsCreator => 10
    case IsPremium => 11
    case Languages => 12
    case LastName => 13
    case Location => 14
    case ProfilePicture => 15
    case Skills => 16
    case SourceUrn => 17
    case Summary => 18
    case Urn => 19
    case Username => 20
  }

  // The code-point comparisons behind the column order, a few at a time.

  lemma NamePairs0()
    ensures Less(Name(City), Name(Country))
    ensures Less(Name(Country), Name(CurrentCompany))
    ensures Less(Name(CurrentCompanyUrl), Name(CurrentTitle))
    ensures Less(Name(CurrentTitle), Name(DepthLevel))
  {
    LessAt(Name(City), Name(Country), 1);
    LessAt(Name(Country), Name(CurrentCompany), 1);
    LessAt(Name(CurrentCompanyUrl), Name(CurrentTitle), 8);
    LessAt(Name(CurrentTitle), Name(DepthLevel), 0);
  }

  lemma NamePairs1()
    ensures Less(Name(DepthLevel), Name(Education))
    ensures Less(Name(Education), Name(FirstName))
    ensures Less(Name(FirstName), Name(Headline))
    ensures Less(Name(Headline), Name(Id))
    ensures Less(Name(Id), Name(IsCreator))
  {
  }

  lemma NamePairs2()
    ensures Less(Name(IsCreator), Name(IsPremium))
    ensures Less(Name(IsPremium), Name(Languages))
    ensures Less(Name(Languages), Name(LastName))
    ensures Less(Name(LastName), Name(Location))
    ensures Less(Name(Location), Name(ProfilePicture))
  {
  }

  lemma NamePairs3()
    ensures Less(Name(ProfilePicture), Name(Skills))
    ensures Less(Name(Skills), Name(SourceUrn))
    ensures Less(Name(SourceUrn), Name(Summary))
    ensures Less(Name(Summary), Name(Urn))
    ensures Less(Name(Urn), Name(Username))
  {
  }

  /** "current_company" is a proper prefix of "current_company_url". */
  lemma CompanyPair()
    ensures Less(Name(CurrentCompany), Name(CurrentCompanyUrl))
  {
    var a := Name(CurrentCompany);
    var b := Name(CurrentCompanyUrl);
    assert b == a + "_url";
    assert b[..|a|] == a;
    LessAt(a, b, |a|);
  }

  lemma ColumnsAdjacent0(i: nat)
    requires 0 <= i < 5
    ensures Less(Name(Columns[i]), Name(Columns[i + 1]))
  {
    var a := Columns[i];
    var b := Columns[i + 1];
    if i == 0 {
      assert a == City && b == Country;
      NamePairs0();
    } else if i == 1 {
      assert a == Country && b == CurrentCompany;
      NamePairs0();
    } else if i == 2 {
      assert a == CurrentCompany && b == CurrentCompanyUrl;
      CompanyPair();
    } else if i == 3 {
      assert a == CurrentCompanyUrl && b == CurrentTitle;
      NamePairs0();
    } else if i == 4 {
      assert a == CurrentTitle && b == DepthLevel;
      NamePairs0();
    }
  }

  lemma ColumnsAdjacent1(i: nat)
    requires 5 <= i < 10
    ensures Less(Name(Columns[i]), Name(Columns[i + 1]))
  {
    var a := Columns[i];
    var b := Columns[i + 1];
    if i == 5 {
      assert a == DepthLevel && b == Education;
      NamePairs1();
    } else if i == 6 {
      assert a == Education && b == FirstName;
      NamePairs1();
    } else if i == 7 {
      assert a == FirstName && b == Headline;
      NamePairs1();
    } else if i == 8 {
      assert a == Headline && b == Id;
      NamePairs1();
    } else if i == 9 {
      assert a == Id && b == IsCreator;
      NamePairs1();
    }
  }

  lemma ColumnsAdjacent2(i: nat)
    requires 10 <= i < 15
    ensures Less(Name(Columns[i]), Name(Columns[i + 1]))
  {
    var a := Columns[i];
    var b := Columns[i + 1];
    if i == 10 {
      assert a == IsCreator && b == IsPremium;
      NamePairs2();
    } else if i == 11 {
      assert a == IsPremium && b == Languages;
      NamePairs2();
    } else if i == 12 {
      assert a == Languages && b == LastName;
      NamePairs2();
    } else if i == 13 {
      assert a == LastName && b == Location;
      NamePairs2();
    } else if i == 14 {
      assert a == Location && b == ProfilePicture;
      NamePairs2();
    }
  }

  lemma ColumnsAdjacent3(i: nat)
    requires 15 <= i < 20
    ensures Less(Name(Columns[i]), Name(Columns[i + 1]))
  {
    var a := Columns[i];
    var b := Columns[i + 1];
    if i == 15 {
      assert a == ProfilePicture && b == Skills;
      NamePairs3();
    } else if i == 16 {
      assert a == Skills && b == SourceUrn;
      NamePairs3();
    } else if i == 17 {
      assert a == SourceUrn && b == Summary;
      NamePairs3();
    } else if i == 18 {
      assert a == Summary && b == Urn;
      NamePairs3();
    } else if i == 19 {
      assert a == Urn && b == Username;
      NamePairs3();
    }
  }

  /** The column texts ascend strictly, as `sorted` leaves the keys of a set. */
  lemma ColumnsSorted()
    ensures StrictlySorted(Names(Columns))
  {
    var n := Names(Columns);
    forall i | 0 <= i < |n| - 1 ensures Less(n[i], n[i + 1]) {
      if i < 5 {
        ColumnsAdjacent0(i);
      } else if i < 10 {
        ColumnsAdjacent1(i);
      } else if i < 15 {
        ColumnsAdjacent2(i);
      } else {
        ColumnsAdjacent3(i);
      }
    }
    AdjacentSorted(n);
  }

  function Flattened(rs: seq<Record>): (rows: seq<Row>)
    ensures |rows| == |rs|
    ensures forall i :: 0 <= i < |rs| ==> rows[i] == Flatten(rs[i])
  {
    seq(|rs|, i requires 0 <= i < |rs| => Flatten(rs[i]))
  }

  /** Some row has a truthy value under `k`. */
  predicate SomeTruthy(rows: seq<Row>, k: Key) {
    exists i :: 0 <= i < |rows| && k in rows[i] && Truthy(rows[i][k])
  }

  function SomeTruthyIn(rows: seq<Row>): Key -> bool {
    k => SomeTruthy(rows, k)
  }

  /** The keys of `sorted(non_empty_keys)`: among all keys of the flattened rows,
      those under which at least one row holds a truthy value. */
  function CsvColumns(rs: seq<Record>): seq<Key> {
    Filter(Columns, SomeTruthyIn(Flattened(rs)))
  }

  /** The CSV header. */
  function CsvFieldnames(rs: seq<Record>): seq<string> {
    Names(CsvColumns(rs))
  }

  /** A key is a CSV column exactly when some flattened record holds a truthy value
      under it. */
  lemma {:induction false} CsvColumnsExact(rs: seq<Record>)
    ensures forall k :: k in CsvColumns(rs) <==> SomeTruthy(Flattened(rs), k)
  {
    forall k | SomeTruthy(Flattened(rs), k) ensures k in CsvColumns(rs) {
      var j := Rank(k);
      assert SomeTruthyIn(Flattened(rs))(Columns[j]);
    }
  }

  /** The header texts ascend strictly: no duplicates, in `sorted` order. */
  lemma {:induction false} CsvFieldnamesSorted(rs: seq<Record>)
    ensures StrictlySorted(CsvFieldnames(rs))
  {
    ColumnsSorted();
    FilterIsSubsequence(Columns, SomeTruthyIn(Flattened(rs)));
    NamesSubsequence(CsvColumns(rs), Columns);
    SortedSubsequence(CsvFieldnames(rs), Names(Columns));
  }

  lemma {:induction false} NamesSubsequence(r: seq<Key>, s: seq<Key>)
    requires Subsequence(r, s)
    ensures Subsequence(Names(r), Names(s))
    decreases |s|
  {
    if |r| > 0 {
      assert Names(r)[1..] == Names(r[1..]) && Names(s)[1..] == Names(s[1..]);
      if r[0] == s[0] && Subsequence(r[1..], s[1..]) {
        NamesSubsequence(r[1..], s[1..]);
      } else {
        NamesSubsequence(r, s[1..]);
      }
    }
  }

  /** A subsequence of a strictly sorted sequence is strictly sorted. */
  lemma {:induction false} SortedSubsequence(r: seq<string>, s: seq<string>)
    requires Subsequence(r, s) && StrictlySorted(s)
    ensures StrictlySorted(r)
    decreases |s|
  {
    if |r| > 0 {
      if r[0] == s[0] && Subsequence(r[1..], s[1..]) {
        SortedSubsequence(r[1..], s[1..]);
        SubsequenceMembers(r[1..], s[1..]);
        forall j | 0 < j < |r| ensures Less(r[0], r[j]) {
          assert r[j] == r[1..][j - 1];
          var k :| 0 <= k < |s[1..]| && s[1..][k] == r[j];
          assert s[k + 1] == r[j];
        }
      } else {
        SortedSubsequence(r, s[1..]);
      }
    }
  }

  /** Every element of a subsequence is an element of the whole. */
  lemma {:induction false} SubsequenceMembers(r: seq<string>, s: seq<string>)
    requires Subsequence(r, s)
    ensures forall i :: 0 <= i < |r| ==> r[i] in s
    decreases |s|
  {
    if |r| > 0 {
      if r[0] == s[0] && Subsequence(r[1..], s[1..]) {
        SubsequenceMembers(r[1..], s[1..]);
        forall i | 1 <= i < |r| ensures r[i] in s {
          assert r[i] == r[1..][i - 1];
        }
      } else {
        SubsequenceMembers(r, s[1..]);
      }
    }
  }

  /** How `csv.DictWriter` renders a cell: booleans as `True`/`False`, integers in
      decimal. */
  function Render(c: Cell): string {
    match c
    case Str(s) => s
    case Flag(b) => if b then "True" else "False"
    case Num(n) => NatToDecimal(n)
  }

  /** One data row under the chosen columns; a key the row lacks is written as "". */
  function CsvRow(row: Row, columns: seq<Key>): seq<string> {
    seq(|columns|, i requires 0 <= i < |columns| =>
      if columns[i] in row then Render(row[columns[i]]) else "")
  }

  /** Dropping columns loses nothing: every key a flattened record holds a truthy
      value under is a column, so what is left out is empty in every row. */
  lemma {:induction false} DroppedColumnsEmpty(rs: seq<Record>)
    ensures forall i, k :: 0 <= i < |rs| && k in Flatten(rs[i]) && k !in CsvColumns(rs) ==> !Truthy(Flatten(rs[i])[k])
  {
    CsvColumnsExact(rs);
    var rows := Flattened(rs);
    forall i, k | 0 <= i < |rs| && k in Flatten(rs[i]) && Truthy(Flatten(rs[i])[k]) ensures k in CsvColumns(rs) {
      assert rows[i] == Flatten(rs[i]);
      assert SomeTruthy(rows, k);
    }
  }

  /** Distinct keys have distinct texts, so a header text names one column. */
  lemma NameInjective(a: Key, b: Key)
    requires Name(a) == Name(b)
    ensures a == b
  {
    ColumnsSorted();
    var i := Rank(a);
    var j := Rank(b);
    assert Names(Columns)[i] == Names(Columns)[j];
    if i < j {
      LessIrreflexive(Name(a));
    } else if j < i {
      LessIrreflexive(Name(a));
    }
  }

  /** Reading the CSV file back loses no data: for every truthy value of a flattened
      record, the header has that key's text, and the record's row holds the rendered
      value in the column so named. */
  lemma CsvKeepsValues(rs: seq<Record>, filename: string, stamp: string, i: int, k: Key)
    requires 0 <= i < |rs| && k in Flatten(rs[i]) && Truthy(Flatten(rs[i])[k])
    ensures ExportCsv(rs, filename, stamp).Some?
    ensures Name(k) in ExportCsv(rs, filename, stamp).value.header
    ensures forall j :: 0 <= j < |ExportCsv(rs, filename, stamp).value.header|
                        && ExportCsv(rs, filename, stamp).value.header[j] == Name(k) ==>
              ExportCsv(rs, filename, stamp).value.rows[i][j] == Render(Flatten(rs[i])[k])
  {
    CsvFileLayout(rs, filename, stamp, i);
    var rows := Flattened(rs);
    CsvColumnsExact(rs);
    assert SomeTruthy(rows, k);
    RowReadsBack(rows[i], CsvColumns(rs), k);
  }

  /** The CSV file's header is the column texts and row `i` is record `i`'s
      flattened row under those columns. */
  lemma CsvFileLayout(rs: seq<Record>, filename: string, stamp: string, i: int)
    requires 0 <= i < |rs|
    ensures ExportCsv(rs, filename, stamp).Some?
    ensures ExportCsv(rs, filename, stamp).value.header == Names(CsvColumns(rs))
    ensures ExportCsv(rs, filename, stamp).value.rows[i] == CsvRow(Flattened(rs)[i], CsvColumns(rs))
  {
  }

  /** In a row written under distinct-text columns that include `k`, the column named
      by `k`'s text holds the row's rendered value under `k`. */
  lemma RowReadsBack(row: Row, columns: seq<Key>, k: Key)
    requires k in row && k in columns
    ensures Name(k) in Names(columns)
    ensures forall j :: 0 <= j < |columns| && Names(columns)[j] == Name(k) ==> CsvRow(row, columns)[j] == Render(row[k])
  {
    var j0 :| 0 <= j0 < |columns| && columns[j0] == k;
    assert Names(columns)[j0] == Name(k);
    forall j | 0 <= j < |columns| && Names(columns)[j] == Name(k) ensures CsvRow(row, columns)[j] == Render(row[k]) {
      NameInjective(columns[j], k);
    }
  }

  // ---------------------------------------------------------------------------
  // Output file names (export.py:16-21, 37-42, 128-133)

  /** An absent or empty `filename` becomes `stem + stamp + ext`; a name that does
      not end with `ext` gets it appended. The comparison is case-sensitive. */
  function OutputName(given: string, stem: string, stamp: string, ext: string): (name: string)
    ensures EndsWith(name, ext)
  {
    var n := if given == "" then stem + stamp + ext else given;
    if EndsWith(n, ext) then n else n + ext
  }

  /** A given name already ending with the extension is kept as it is; any other
      given name is kept with the extension appended. */
  lemma OutputNameOfGiven(given: string, stem: string, stamp: string, ext: string)
    requires given != ""
    ensures EndsWith(given, ext) ==> OutputName(given, stem, stamp, ext) == given
    ensures !EndsWith(given, ext) ==> OutputName(given, stem, stamp, ext) == given + ext
  {
  }

  /** Normalising twice changes nothing, including the degenerate case where every
      part is empty and the name stays "". */
  lemma OutputNameIdempotent(given: string, stem: string, stamp: string, ext: string)
    ensures OutputName(OutputName(given, stem, stamp, ext), stem, stamp, ext) == OutputName(given, stem, stamp, ext)
  {
  }

  const JsonExt := ".json"
  const CsvExt := ".csv"
  const TxtExt := ".txt"

  /** The CSV file as the writer would lay it out: header, then one row per record. */
  datatype CsvFile = CsvFile(name: string, header: seq<string>, rows: seq<seq<string>>)

  /** `export_to_json`: there is no empty-list check, so a name is always produced. */
  function ExportJson(rs: seq<Record>, filename: string, stamp: string): (name: string)
    ensures EndsWith(name, JsonExt)
  {
    OutputName(filename, "linkedin_leads_", stamp, JsonExt)
  }

  /** `export_to_csv`: nothing is written for an empty record list. The second
      emptiness test (export.py:48-50) cannot fire, since there is one flattened row
      per record. */
  function ExportCsv(rs: seq<Record>, filename: string, stamp: string): (r: Option<CsvFile>)
    ensures r.None? <==> |rs| == 0
    ensures r.Some? ==> EndsWith(r.value.name, CsvExt) && |r.value.rows| == |rs|
  {
    if |rs| == 0 then None
    else
      var columns := CsvColumns(rs);
      var rows := Flattened(rs);
      Some(CsvFile(OutputName(filename, "linkedin_leads_", stamp, CsvExt), Names(columns),
                   seq(|rows|, i requires 0 <= i < |rows| => CsvRow(rows[i], columns))))
  }
}

=== FILE: profiles.dfy ===
/** The records the discovery engine, the API client and the exporters exchange. */
module Profiles {
  import opened Wrappers

  /** A nested JSON object whose values the code only ever reads as strings
      (`geo`, the entries of `languages`, `position`, `skills`, `educations`). */
  type Fields = map<string, string>

  /** `d.get(key, '')` on such an object. */
  function Field(d: Fields, key: string): string {
    if key in d then d[key] else ""
  }

  /** A full profile as returned by the profile endpoint. Plain `string` fields use
      "" for both "absent" and "empty", because the code only reads them with an
      empty-string default or by truthiness; `username` and `headline` are optional
      because the tree export substitutes different text when they are absent. An
      empty `geo` map stands for an absent or empty `geo` object. */
  datatype Profile = Profile(
    id: string,
    urn: string,
    username: Option<string>,
    firstName: string,
    lastName: string,
    headline: Option<string>,
    summary: string,
    isCreator: bool,
    isPremium: bool,
    profilePicture: string,
    geo: Fields,
    languages: seq<Fields>,
    positions: seq<Fields>,
    skills: seq<Fields>,
    educations: seq<Fields>)

  /** `profile.get('username')` is truthy. */
  predicate HasUsername(p: Profile) {
    p.username.Some? && p.username.value != ""
  }

  /** One entry of a similar-profiles list; "" stands for an absent field. */
  datatype Candidate = Candidate(urn: string, id: string, username: string, publicIdentifier: string)

  /** `similar.get('username') or similar.get('publicIdentifier')`. */
  function Handle(c: Candidate): string {
    if c.username != "" then c.username else c.publicIdentifier
  }

  /** A profile stored by the discovery engine: the fetched profile with the two
      fields the engine injects. */
  datatype Record = Record(profile: Profile, depthLevel: nat, sourceUrn: string)

  function UrnOf(r: Record): string {
    r.profile.urn
  }
}

=== FILE: seqs.dfy ===
/** Generic facts about sequences: an order-preserving filter, the subsequence
    relation, and duplicate-freedom. */
module Seqs {

  /** The elements of `s` that satisfy `keep`, in their original order (Python's
      list comprehension `[x for x in s if keep(x)]`). */
  function Filter<T>(s: seq<T>, keep: T -> bool): (r: seq<T>)
    ensures |r| <= |s|
    ensures forall i :: 0 <= i < |r| ==> r[i] in s && keep(r[i])
    ensures forall i :: 0 <= i < |s| && keep(s[i]) ==> s[i] in r
    decreases |s|
  {
    if |s| == 0 then []
    else if keep(s[0]) then [s[0]] + Filter(s[1..], keep)
    else Filter(s[1..], keep)
  }

  /** `r` can be obtained from `s` by deleting elements, without reordering. */
  ghost predicate Subsequence<T>(r: seq<T>, s: seq<T>)
    decreases |s|
  {
    if |r| == 0 then true
    else if |s| == 0 then false
    else (r[0] == s[0] && Subsequence(r[1..], s[1..])) || Subsequence(r, s[1..])
  }

  /** Filtering keeps the relative order and the multiplicity of every kept element:
      together these pin the result down uniquely. */
  lemma {:induction false} FilterIsSubsequence<T>(s: seq<T>, keep: T -> bool)
    ensures Subsequence(Filter(s, keep), s)
    ensures forall x :: multiset(Filter(s, keep))[x] == if keep(x) then multiset(s)[x] else 0
    decreases |s|
  {
    if |s| > 0 {
      FilterIsSubsequence(s[1..], keep);
      assert s == [s[0]] + s[1..];
      var r := Filter(s, keep);
      if keep(s[0]) {
        assert r[1..] == Filter(s[1..], keep);
      }
    }
  }

  lemma {:induction false} FilterAppend<T>(a: seq<T>, b: seq<T>, keep: T -> bool)
    ensures Filter(a + b, keep) == Filter(a, keep) + Filter(b, keep)
    decreases |a|
  {
    if |a| > 0 {
      assert (a + b)[1..] == a[1..] + b;
      FilterAppend(a[1..], b, keep);
    } else {
      assert a + b == b;
    }
  }

  /** One step of the filter: the first element, kept or not, then the rest. */
  lemma FilterCons<T>(s: seq<T>, keep: T -> bool)
    requires |s| > 0
    ensures keep(s[0]) ==> Filter(s, keep) == [s[0]] + Filter(s[1..], keep)
    ensures !keep(s[0]) ==> Filter(s, keep) == Filter(s[1..], keep)
  {
  }

  /** Filtering keeps everything exactly when every element passes. */
  lemma {:induction false} FilterAll<T>(s: seq<T>, keep: T -> bool)
    requires forall i :: 0 <= i < |s| ==> keep(s[i])
    ensures Filter(s, keep) == s
    decreases |s|
  {
    if |s| > 0 {
      FilterAll(s[1..], keep);
      assert [s[0]] + s[1..] == s;
    }
  }

  /** Filtering keeps nothing exactly when no element passes. */
  lemma {:induction false} FilterNone<T>(s: seq<T>, keep: T -> bool)
    requires forall i :: 0 <= i < |s| ==> !keep(s[i])
    ensures Filter(s, keep) == []
    decreases |s|
  {
    if |s| > 0 {
      FilterNone(s[1..], keep);
    }
  }

  /** No element occurs twice. */
  ghost predicate NoDup<T>(s: seq<T>) {
    forall i, j :: 0 <= i < |s| && 0 <= j < |s| && i != j ==> s[i] != s[j]
  }

  /** Two duplicate-free sequences with no common element concatenate without
      duplicates. */
  lemma NoDupAppend<T>(a: seq<T>, b: seq<T>)
    requires NoDup(a) && NoDup(b)
    requires forall i :: 0 <= i < |b| ==> b[i] !in a
    ensures NoDup(a + b)
  {
    forall i, j | 0 <= i < |a + b| && 0 <= j < |a + b| && i != j ensures (a + b)[i] != (a + b)[j] {
      if i < |a| && j >= |a| {
        assert (a + b)[j] == b[j - |a|];
      } else if j < |a| && i >= |a| {
        assert (a + b)[i] == b[i - |a|];
      }
    }
  }

  /** A duplicate-free sequence has as many distinct elements as it has entries. */
  lemma {:induction false} NoDupCard<T>(s: seq<T>)
    requires NoDup(s)
    ensures |set x | x in s| == |s|
    decreases |s|
  {
    if |s| > 0 {
      var t := s[..|s| - 1];
      assert NoDup(t);
      NoDupCard(t);
      var last := s[|s| - 1];
      assert (set x | x in s) == (set x | x in t) + {last};
      assert last !in (set x | x in t);
    } else {
      assert (set x | x in s) == {};
    }
  }

  /** Every distinct-element sequence drawn from a finite set is no longer than the set. */
  lemma NoDupWithin<T>(s: seq<T>, u: set<T>)
    requires NoDup(s)
    requires forall x :: x in s ==> x in u
    ensures |s| <= |u|
  {
    NoDupCard(s);
    var e := set x | x in s;
    assert u == e + (u - e);
    assert e * (u - e) == {};
  }
}

=== FILE: text.dfy ===
/** The string operations the Python code relies on, written out: substring and
    suffix tests, `str.lower`, `str.strip`, `str.join`, `str(n)` for naturals,
    `"=" * n`, and the code-point order `sorted` uses. */
module Text {

  function StartsWith(s: string, prefix: string): bool {
    |prefix| <= |s| && s[..|prefix|] == prefix
  }

  function EndsWith(s: string, suffix: string): bool {
    |suffix| <= |s| && s[|s| - |suffix|..] == suffix
  }

  /** `sub` occurs in `s` starting at index `i`. */
  predicate OccursAt(s: string, sub: string, i: int) {
    0 <= i <= |s| - |sub| && s[i..i + |sub|] == sub
  }

  /** Python's `sub in s`. */
  predicate Contains(s: string, sub: string) {
    exists i | 0 <= i <= |s| - |sub| :: OccursAt(s, sub, i)
  }

  /** `str.lower` restricted to ASCII letters. */
  function LowerChar(c: char): char {
    if 'A' <= c <= 'Z' then (c as int + 32) as char else c
  }

  function Lower(s: string): (r: string)
    ensures |r| == |s|
    ensures forall i :: 0 <= i < |s| ==> r[i] == LowerChar(s[i])
  {
    seq(|s|, i requires 0 <= i < |s| => LowerChar(s[i]))
  }

  /** The characters Python's `str.isspace` accepts, hence those `str.strip()` removes. */
  predicate IsSpace(c: char) {
    var n := c as int;
    n == 0x20 || 0x09 <= n <= 0x0D || 0x1C <= n <= 0x1F || n == 0x85 || n == 0xA0
    || n == 0x1680 || 0x2000 <= n <= 0x200A || n == 0x2028 || n == 0x2029
    || n == 0x202F || n == 0x205F || n == 0x3000
  }

  /** `r` is `s[i..j]`, everything cut off on either side is whitespace, and `r`
      neither starts nor ends with whitespace. */
  ghost predicate StrippedAt(r: string, s: string, i: int, j: int) {
    && 0 <= i <= j <= |s| && r == s[i..j]
    && (forall k :: 0 <= k < i ==> IsSpace(s[k]))
    && (forall k :: j <= k < |s| ==> IsSpace(s[k]))
    && (|r| > 0 ==> !IsSpace(r[0]) && !IsSpace(r[|r| - 1]))
  }

  function TrimLeft(s: string): (r: string)
    ensures |r| <= |s| && r == s[|s| - |r|..]
    ensures forall k :: 0 <= k < |s| - |r| ==> IsSpace(s[k])
    ensures |r| > 0 ==> !IsSpace(r[0])
    decreases |s|
  {
    if |s| > 0 && IsSpace(s[0]) then TrimLeft(s[1..]) else s
  }

  function TrimRight(s: string): (r: string)
    ensures |r| <= |s| && r == s[..|r|]
    ensures forall k :: |r| <= k < |s| ==> IsSpace(s[k])
    ensures |r| > 0 ==> !IsSpace(r[|r| - 1])
    decreases |s|
  {
    if |s| > 0 && IsSpace(s[|s| - 1]) then TrimRight(s[..|s| - 1]) else s
  }

  /** Python's `str.strip()` with no argument. */
  function Strip(s: string): (r: string)
    ensures exists i, j :: StrippedAt(r, s, i, j)
  {
    var left := TrimLeft(s);
    var r := TrimRight(left);
    StripWitness(s, left, r);
    r
  }

  lemma StripWitness(s: string, left: string, r: string)
    requires |left| <= |s| && left == s[|s| - |left|..]
    requires forall k :: 0 <= k < |s| - |left| ==> IsSpace(s[k])
    requires |left| > 0 ==> !IsSpace(left[0])
    requires |r| <= |left| && r == left[..|r|]
    requires forall k :: |r| <= k < |left| ==> IsSpace(left[k])
    requires |r| > 0 ==> !IsSpace(r[|r| - 1])
    ensures StrippedAt(r, s, |s| - |left|, |s| - |left| + |r|)
  {
    var i := |s| - |left|;
    var j := i + |r|;
    assert r == s[i..j];
    forall k | j <= k < |s| ensures IsSpace(s[k]) {
      assert s[k] == left[k - i];
    }
    if |r| > 0 {
      assert r[0] == left[0];
    }
  }

  /** Python's `sep.join(parts)`. */
  function Join(sep: string, parts: seq<string>): string
    decreases |parts|
  {
    if |parts| == 0 then ""
    else if |parts| == 1 then parts[0]
    else parts[0] + sep + Join(sep, parts[1..])
  }

  /** Python's `c * n` for a one-character string. */
  function Repeat(c: char, n: nat): (r: string)
    ensures |r| == n
    ensures forall i :: 0 <= i < n ==> r[i] == c
  {
    seq(n, _ => c)
  }

  predicate IsDigit(c: char) {
    '0' <= c <= '9'
  }

  function DigitChar(d: nat): (c: char)
    requires d < 10
    ensures IsDigit(c)
  {
    ('0' as int + d) as char
  }

  function DigitValue(c: char): nat
    requires IsDigit(c)
  {
    c as int - '0' as int
  }

  /** Python's `str(n)` for a natural number: the shortest decimal numeral. */
  function NatToDecimal(n: nat): (r: string)
    ensures |r| > 0
    ensures forall i :: 0 <= i < |r| ==> IsDigit(r[i])
    ensures |r| > 1 ==> r[0] != '0'
    decreases n
  {
    if n < 10 then [DigitChar(n)] else NatToDecimal(n / 10) + [DigitChar(n % 10)]
  }

  /** The number a string of decimal digits denotes. */
  function DecimalValue(s: string): nat
    requires forall i :: 0 <= i < |s| ==> IsDigit(s[i])
    decreases |s|
  {
    if |s| == 0 then 0 else 10 * DecimalValue(s[..|s| - 1]) + DigitValue(s[|s| - 1])
  }

  /** Reading back the numeral `str(n)` gives `n`: the count printed in a tree line
      is the count that was computed. */
  lemma {:induction false} DecimalRoundTrip(n: nat)
    ensures DecimalValue(NatToDecimal(n)) == n
    decreases n
  {
    var r := NatToDecimal(n);
    if n >= 10 {
      DecimalRoundTrip(n / 10);
      assert r[..|r| - 1] == NatToDecimal(n / 10);
    }
  }

  /** Code-point lexicographic order: Python's `<` on `str`. */
  predicate Less(a: string, b: string)
    decreases |a|
  {
    if |a| == 0 then |b| > 0
    else |b| > 0 && (a[0] < b[0] || (a[0] == b[0] && Less(a[1..], b[1..])))
  }

  /** `a` comes before `b` when they agree up to index `i` and `a` ends there or
      has the smaller character there. */
  lemma {:induction false} LessAt(a: string, b: string, i: nat)
    requires i <= |a| && i < |b| && a[..i] == b[..i]
    requires i == |a| || a[i] < b[i]
    ensures Less(a, b)
    decreases i
  {
    if i > 0 {
      assert a[0] == a[..i][0] && b[0] == b[..i][0];
      assert a[1..][..i - 1] == a[..i][1..] && b[1..][..i - 1] == b[..i][1..];
      LessAt(a[1..], b[1..], i - 1);
    }
  }

  lemma {:induction false} LessIrreflexive(a: string)
    ensures !Less(a, a)
    decreases |a|
  {
    if |a| > 0 { LessIrreflexive(a[1..]); }
  }

  lemma {:induction false} LessTransitive(a: string, b: string, c: string)
    requires Less(a, b) && Less(b, c)
    ensures Less(a, c)
    decreases |a|
  {
    if |a| > 0 && a[0] == b[0] && b[0] == c[0] {
      LessTransitive(a[1..], b[1..], c[1..]);
    }
  }

  /** Ascending without duplicates, as `sorted(set)` produces. */
  ghost predicate StrictlySorted(s: seq<string>) {
    forall i, j :: 0 <= i < j < |s| ==> Less(s[i], s[j])
  }

  /** Checking neighbours suffices, because `Less` is transitive. */
  lemma {:induction false} AdjacentSorted(s: seq<string>)
    requires forall i :: 0 <= i < |s| - 1 ==> Less(s[i], s[i + 1])
    ensures StrictlySorted(s)
    decreases |s|
  {
    if |s| > 1 {
      AdjacentSorted(s[1..]);
      forall j | 1 < j < |s| ensures Less(s[0], s[j]) {
        assert Less(s[1], s[j]) by { assert s[1] == s[1..][0] && s[j] == s[1..][j - 1]; }
        LessTransitive(s[0], s[1], s[j]);
      }
    }
  }
}

=== FILE: tree.dfy ===
/** The tree export of src/utils/export.py (`export_to_tree`): the records are
    grouped under the URN they were discovered from and drawn as an indented tree,
    at most five levels below each root and at most `maxChildren` children per
    node. File writing and the clock are left out: both timestamps are parameters,
    and the result is the list of entries the code joins with newlines. */
module TreeExport {
  import opened Wrappers
  import opened Seqs
  import opened Text
  import opened Profiles
  import opened Export
  import Discovery

  // ---------------------------------------------------------------------------
  // Parent-child grouping (export.py:138-149)

  /** The records discovered from `urn`, in record order. A record whose
      `source_urn` is empty is nobody's child, so the empty URN has no children. */
  function ChildrenOf(rs: seq<Record>, urn: string): seq<Record> {
    Filter(rs, (c: Record) => c.sourceUrn != "" && c.sourceUrn == urn)
  }

  /** `children_map.get(urn, [])`. */
  function Lookup(m: map<string, seq<Record>>, urn: string): seq<Record> {
    if urn in m then m[urn] else []
  }

  /** The `defaultdict` loop: appending each record under its non-empty
      `source_urn` groups the records exactly as `ChildrenOf` does, and creates a
      key only for a URN that has a child. */
  method BuildChildrenMap(rs: seq<Record>) returns (m: map<string, seq<Record>>)
    ensures forall urn :: Lookup(m, urn) == ChildrenOf(rs, urn)
    ensures forall urn :: urn in m ==> |m[urn]| > 0
  {
    m := map[];
    var i := 0;
    while i < |rs|
      invariant 0 <= i <= |rs|
      invariant forall urn :: Lookup(m, urn) == ChildrenOf(rs[..i], urn)
      invariant forall urn :: urn in m ==> |m[urn]| > 0
    {
      var r := rs[i];
      assert rs[..i + 1] == rs[..i] + [r];
      ghost var before := m;
      if r.sourceUrn != "" {
        m := m[r.sourceUrn := Lookup(m, r.sourceUrn) + [r]];
      }
      forall urn ensures Lookup(m, urn) == ChildrenOf(rs[..i + 1], urn) {
        ChildrenStep(rs[..i], r, urn);
        assert Lookup(before, urn) == ChildrenOf(rs[..i], urn);
      }
      i := i + 1;
    }
    assert rs[..i] == rs;
  }

  /** One more record adds itself to its source's children and to no one else's. */
  lemma ChildrenStep(prev: seq<Record>, r: Record, urn: string)
    ensures ChildrenOf(prev + [r], urn) == ChildrenOf(prev, urn) + (if r.sourceUrn != "" && r.sourceUrn == urn then [r] else [])
  {
    FilterAppend(prev, [r], (c: Record) => c.sourceUrn != "" && c.sourceUrn == urn);
    var one: seq<Record> := [r];
    assert one[1..] == [];
  }

  /** The records at depth 0. */
  function Roots(rs: seq<Record>): seq<Record> {
    Filter(rs, (r: Record) => r.depthLevel == 0)
  }

  /** A non-empty discovery result always has a root: the first record cannot
      have been discovered from an earlier one. So the tree export of a
      discovery result is refused only when there are no profiles at all. */
  lemma ForestHasRoot(rs: seq<Record>)
    requires Discovery.Forest(rs) && |rs| > 0
    ensures |Roots(rs)| > 0
  {
    assert Discovery.Rooted(rs, 0);
    assert rs[0].depthLevel == 0;
    assert rs[0] in rs;
  }

  // ---------------------------------------------------------------------------
  // One profile's text (get_profile_text, export.py:160-181)

  /** The full name with surrounding whitespace stripped; when that is empty, the
      username, or "Unknown" when the profile has none. */
  function DisplayName(p: Profile): string {
    var full := Strip(p.firstName + " " + p.lastName);
    if full != "" then full else p.username.GetOr("Unknown")
  }

  /** The name shown is blank exactly when the profile has a blank name and an
      empty username. */
  lemma DisplayNameBlank(p: Profile)
    ensures DisplayName(p) == "" <==> Strip(p.firstName + " " + p.lastName) == "" && p.username == Some("")
  {
  }

  /** A non-blank name is shown without surrounding whitespace. */
  lemma DisplayNameTrimmed(p: Profile)
    requires Strip(p.firstName + " " + p.lastName) != ""
    ensures !IsSpace(DisplayName(p)[0]) && !IsSpace(DisplayName(p)[|DisplayName(p)| - 1])
  {
    var s := p.firstName + " " + p.lastName;
    var i, j :| StrippedAt(Strip(s), s, i, j);
  }

  /** The `(N discovered)` part: empty for a profile without children. */
  function CountNote(n: nat): string {
    if n > 0 then " (" + NatToDecimal(n) + " discovered)" else ""
  }

  /** `name | headline[ | location][ (N discovered)]`, then a second line with the
      profile link. An absent headline reads "No headline" and an absent username
      "N/A"; the location is the `full` field of a non-empty `geo`. */
  function ProfileText(rs: seq<Record>, r: Record): string {
    var p := r.profile;
    var location := Field(p.geo, "full");
    var head := DisplayName(p) + " | " + p.headline.GetOr("No headline");
    var place := if location != "" then " | " + location else "";
    var link := "\n    LinkedIn: linkedin.com/in/" + p.username.GetOr("N/A");
    head + place + CountNote(|ChildrenOf(rs, p.urn)|) + link
  }

  /** `get_profile_text` over the whole record list. */
  function TextOf(rs: seq<Record>): Record -> string {
    (r: Record) => ProfileText(rs, r)
  }

  /** The count in the note reads back as the number of children. */
  lemma CountNoteReadsBack(n: nat)
    requires n > 0
    ensures exists d :: CountNote(n) == " (" + d + " discovered)" && (forall i :: 0 <= i < |d| ==> IsDigit(d[i])) && DecimalValue(d) == n
  {
    DecimalRoundTrip(n);
    var d := NatToDecimal(n);
    assert CountNote(n) == " (" + d + " discovered)";
  }

  /** The text reads back field by field: it opens with the name and the headline
      ("No headline" when absent) and closes with the link line carrying the
      username ("N/A" when absent). Between them stands a ` | location` part exactly
      when `geo.full` is non-empty, followed by the count note. */
  lemma ProfileTextReadsBack(rs: seq<Record>, r: Record)
    ensures var p := r.profile;
            var t := ProfileText(rs, r);
            var head := DisplayName(p) + " | " + p.headline.GetOr("No headline");
            var link := "\n    LinkedIn: linkedin.com/in/" + p.username.GetOr("N/A");
            && StartsWith(t, head) && EndsWith(t, link) && |head| + |link| <= |t|
            && (StartsWith(t[|head|..|t| - |link|], " | ") <==> Field(p.geo, "full") != "")
            && (Field(p.geo, "full") != "" ==> StartsWith(t[|head|..|t| - |link|], " | " + Field(p.geo, "full")))
            && EndsWith(t[|head|..|t| - |link|], CountNote(|ChildrenOf(rs, p.urn)|))
  {
    var p := r.profile;
    var head := DisplayName(p) + " | " + p.headline.GetOr("No headline");
    var link := "\n    LinkedIn: linkedin.com/in/" + p.username.GetOr("N/A");
    var location := Field(p.geo, "full");
    var place := if location != "" then " | " + location else "";
    var note := CountNote(|ChildrenOf(rs, p.urn)|);
    assert ProfileText(rs, r) == head + place + note + link;
    Framed(head, place, note, link);
    NoteOpens(|ChildrenOf(rs, p.urn)|);
    PlaceThenNote(location, note);
  }

  /** A count note, when present, opens with ` (`. */
  lemma NoteOpens(n: nat)
    ensures CountNote(n) == "" || StartsWith(CountNote(n), " (")
  {
    if n > 0 {
      assert CountNote(n)[..2] == " (";
    }
  }

  /** A string built as `head + place + note + link` gives `place + note` back
      between `head` and `link`. */
  lemma Framed(head: string, place: string, note: string, link: string)
    ensures var t := head + place + note + link;
            StartsWith(t, head) && EndsWith(t, link) && |head| + |link| <= |t| && t[|head|..|t| - |link|] == place + note
  {
    var t := head + place + note + link;
    assert t[..|head|] == head;
    assert t[|t| - |link|..] == link;
    assert t[|head|..|t| - |link|] == place + note;
  }

  /** The middle of a profile's text starts with ` | ` exactly when it carries a
      location: the count note starts with ` (`. */
  lemma PlaceThenNote(location: string, note: string)
    requires note == "" || StartsWith(note, " (")
    ensures var mid := (if location != "" then " | " + location else "") + note;
            && (StartsWith(mid, " | ") <==> location != "")
            && (location != "" ==> StartsWith(mid, " | " + location))
            && EndsWith(mid, note)
  {
    var place := if location != "" then " | " + location else "";
    var mid := place + note;
    assert mid[|mid| - |note|..] == note;
    if location != "" {
      assert mid[..|" | " + location|] == " | " + location;
      assert mid[..3] == (" | " + location)[..3];
    } else if note != "" {
      assert note[..2][1] == note[1] == '(';
      assert mid[1] == note[1];
    }
  }

  // ---------------------------------------------------------------------------
  // Drawing the children (add_children_to_tree, export.py:183-212)

  /** The code calls `add_children_to_tree` with `max_depth=5` for every root. */
  const MaxTreeDepth: nat := 5

  const LastConnector := "└── "
  const MidConnector := "├── "
  const LastIndent := "    "
  const MidIndent := "│   "

  /** The connector in front of a child's entry: the closing one for the last entry. */
  function Connector(closing: bool): string {
    if closing then LastConnector else MidConnector
  }

  /** The indentation continuing a child's column below its entry. */
  function Indent(closing: bool): string {
    if closing then LastIndent else MidIndent
  }

  /** `children[:limit]` with Python slice semantics: a negative limit drops that
      many children from the end. */
  function Visible(children: seq<Record>, limit: int): (v: seq<Record>)
    ensures |v| <= |children| && v == children[..|v|]
    ensures limit >= 0 ==> |v| == if limit < |children| then limit else |children|
    ensures limit < 0 ==> |v| == if -limit < |children| then |children| + limit else 0
  {
    if limit >= 0 then children[..if limit < |children| then limit else |children|]
    else children[..if -limit < |children| then |children| + limit else 0]
  }

  /** The entry summarising the children that are not shown. */
  function ElisionLine(prefix: string, hidden: nat): string {
    prefix + LastConnector + "... and " + NatToDecimal(hidden) + " more profiles"
  }

  /** The entries drawn below `r` at `depth`, each starting with `prefix`. */
  function NodeLines(rs: seq<Record>, text: Record -> string, r: Record, prefix: string, depth: nat, limit: int): seq<string>
    decreases MaxTreeDepth - depth, 1, 0
  {
    if depth >= MaxTreeDepth then []
    else
      var children := ChildrenOf(rs, r.profile.urn);
      if |children| == 0 then []
      else
        var visible := Visible(children, limit);
        var hidden := |children| - |visible|;
        SiblingLines(rs, text, visible, 0, hidden, prefix, depth, limit)
        + (if hidden > 0 then [ElisionLine(prefix, hidden)] else [])
  }

  /** The entries for `visible[i..]`: each child's entry, then its own subtree. The
      last visible child is drawn with the closing connector only when no elision
      entry follows. */
  function SiblingLines(rs: seq<Record>, text: Record -> string, visible: seq<Record>, i: nat, hidden: nat, prefix: string, depth: nat, limit: int): seq<string>
    requires depth < MaxTreeDepth
    decreases MaxTreeDepth - depth, 0, |visible| - i
  {
    if i >= |visible| then []
    else
      var isLast := i == |visible| - 1 && hidden == 0;
      var line := prefix + Connector(isLast) + text(visible[i]);
      var childPrefix := prefix + Indent(isLast);
      [line] + NodeLines(rs, text, visible[i], childPrefix, depth + 1, limit)
      + SiblingLines(rs, text, visible, i + 1, hidden, prefix, depth, limit)
  }

  /** An entry drawn directly under the current node: the prefix, then a connector. */
  function DirectAt(prefix: string): string -> bool {
    (l: string) => |l| > |prefix| && l[..|prefix|] == prefix && (l[|prefix|] == '└' || l[|prefix|] == '├')
  }

  /** An entry drawn directly under the current node with the closing connector. */
  function ClosingAt(prefix: string): string -> bool {
    (l: string) => |l| > |prefix| && l[..|prefix|] == prefix && l[|prefix|] == '└'
  }

  /** Every entry of a subtree starts with the subtree's prefix. */
  lemma {:induction false} NodeLinesPrefixed(rs: seq<Record>, text: Record -> string, r: Record, prefix: string, depth: nat, limit: int)
    ensures forall i :: 0 <= i < |NodeLines(rs, text, r, prefix, depth, limit)| ==> StartsWith(NodeLines(rs, text, r, prefix, depth, limit)[i], prefix)
    decreases MaxTreeDepth - depth, 1, 0
  {
    if depth < MaxTreeDepth {
      var children := ChildrenOf(rs, r.profile.urn);
      if |children| > 0 {
        var visible := Visible(children, limit);
        var hidden := |children| - |visible|;
        SiblingLinesPrefixed(rs, text, visible, 0, hidden, prefix, depth, limit);
      }
    }
  }

  lemma {:induction false} SiblingLinesPrefixed(rs: seq<Record>, text: Record -> string, visible: seq<Record>, i: nat, hidden: nat, prefix: string, depth: nat, limit: int)
    requires depth < MaxTreeDepth
    ensures forall j :: 0 <= j < |SiblingLines(rs, text, visible, i, hidden, prefix, depth, limit)| ==>
              StartsWith(SiblingLines(rs, text, visible, i, hidden, prefix, depth, limit)[j], prefix)
    decreases MaxTreeDepth - depth, 0, |visible| - i
  {
    if i < |visible| {
      var isLast := i == |visible| - 1 && hidden == 0;
      SiblingUnfold(rs, text, visible, i, hidden, prefix, depth, limit);
      NodeLinesPrefixed(rs, text, visible[i], prefix + Indent(isLast), depth + 1, limit);
      SiblingLinesPrefixed(rs, text, visible, i + 1, hidden, prefix, depth, limit);
      PrefixedPieces(prefix, Indent(isLast), prefix + Connector(isLast) + text(visible[i]),
                     NodeLines(rs, text, visible[i], prefix + Indent(isLast), depth + 1, limit),
                     SiblingLines(rs, text, visible, i + 1, hidden, prefix, depth, limit));
    }
  }

  /** The entries for `visible[i..]` are the child's entry, its subtree, and the
      entries for the later children. */
  lemma SiblingUnfold(rs: seq<Record>, text: Record -> string, visible: seq<Record>, i: nat, hidden: nat, prefix: string, depth: nat, limit: int)
    requires depth < MaxTreeDepth && i < |visible|
    ensures SiblingLines(rs, text, visible, i, hidden, prefix, depth, limit)
              == [prefix + Connector(i == |visible| - 1 && hidden == 0) + text(visible[i])]
                 + NodeLines(rs, text, visible[i], prefix + Indent(i == |visible| - 1 && hidden == 0), depth + 1, limit)
                 + SiblingLines(rs, text, visible, i + 1, hidden, prefix, depth, limit)
  {
  }

  /** A line after the prefix, a block indented past it, and a block after it all
      start with the prefix. */
  lemma PrefixedPieces(prefix: string, indent: string, line: string, sub: seq<string>, rest: seq<string>)
    requires StartsWith(line, prefix)
    requires forall j :: 0 <= j < |sub| ==> StartsWith(sub[j], prefix + indent)
    requires forall j :: 0 <= j < |rest| ==> StartsWith(rest[j], prefix)
    ensures forall j :: 0 <= j < |[line] + sub + rest| ==> StartsWith(([line] + sub + rest)[j], prefix)
  {
    var all := [line] + sub + rest;
    forall j | 0 <= j < |all| ensures StartsWith(all[j], prefix) {
      if j == 0 {
        assert all[j] == line;
      } else if j < 1 + |sub| {
        assert all[j] == sub[j - 1];
        assert all[j][..|prefix|] == (prefix + indent)[..|prefix|];
      } else {
        assert all[j] == rest[j - 1 - |sub|];
      }
    }
  }

  /** How many entries the code draws directly under `r`: the visible children,
      plus the elision line when some are hidden; none at the depth cap or for a
      childless profile. */
  function DirectCount(rs: seq<Record>, r: Record, depth: nat, limit: int): nat {
    var children := ChildrenOf(rs, r.profile.urn);
    if depth >= MaxTreeDepth || |children| == 0 then 0
    else
      var visible := Visible(children, limit);
      |visible| + (if |children| > |visible| then 1 else 0)
  }

  /** The entries of a child's subtree are indented past the parent's connector
      column, so none of them is a direct entry of the parent. */
  lemma SubtreeIndirect(lines: seq<string>, prefix: string, indent: string)
    requires indent == LastIndent || indent == MidIndent
    requires forall i :: 0 <= i < |lines| ==> StartsWith(lines[i], prefix + indent)
    ensures Filter(lines, DirectAt(prefix)) == []
    ensures Filter(lines, ClosingAt(prefix)) == []
    ensures forall i :: 0 <= i < |lines| ==> !DirectAt(prefix)(lines[i]) && !ClosingAt(prefix)(lines[i])
  {
    forall i | 0 <= i < |lines| ensures !DirectAt(prefix)(lines[i]) {
      var l := lines[i];
      assert l[..|prefix + indent|] == prefix + indent;
      assert l[..|prefix|] == (prefix + indent)[..|prefix|];
      assert l[|prefix|] == (prefix + indent)[|prefix|] == indent[0];
    }
    FilterNone(lines, DirectAt(prefix));
    FilterNone(lines, ClosingAt(prefix));
  }

  /** One entry drawn with a connector is a direct entry; it is a closing one
      exactly when the connector is the closing one. */
  lemma ConnectorLine(prefix: string, closing: bool, body: string)
    ensures Filter([prefix + Connector(closing) + body], DirectAt(prefix)) == [prefix + Connector(closing) + body]
    ensures Filter([prefix + Connector(closing) + body], ClosingAt(prefix)) == if closing then [prefix + Connector(closing) + body] else []
  {
    var connector := Connector(closing);
    var l := prefix + connector + body;
    assert l[..|prefix|] == prefix;
    assert l[|prefix|] == connector[0];
    var one: seq<string> := [l];
    assert one[1..] == [];
  }

  /** The elision entry is a direct entry drawn with the closing connector, and the
      count in it reads back as the number of hidden children. */
  lemma ElisionDirect(prefix: string, hidden: nat)
    ensures Filter([ElisionLine(prefix, hidden)], DirectAt(prefix)) == [ElisionLine(prefix, hidden)]
    ensures Filter([ElisionLine(prefix, hidden)], ClosingAt(prefix)) == [ElisionLine(prefix, hidden)]
    ensures exists d :: ElisionLine(prefix, hidden) == prefix + LastConnector + "... and " + d + " more profiles"
                        && (forall i :: 0 <= i < |d| ==> IsDigit(d[i])) && DecimalValue(d) == hidden
  {
    var d := NatToDecimal(hidden);
    var body := "... and " + d + " more profiles";
    assert ElisionLine(prefix, hidden) == prefix + Connector(true) + body;
    ConnectorLine(prefix, true, body);
    DecimalRoundTrip(hidden);
    assert ElisionLine(prefix, hidden) == prefix + LastConnector + "... and " + d + " more profiles";
  }

  /** Below the sibling at index `i`, every remaining visible child contributes
      exactly one direct entry, and the closing connector appears once, on the
      last child, exactly when nothing is hidden. */
  lemma {:induction false} SiblingLinesDirect(rs: seq<Record>, text: Record -> string, visible: seq<Record>, i: nat, hidden: nat, prefix: string, depth: nat, limit: int)
    requires depth < MaxTreeDepth && i <= |visible|
    ensures |Filter(SiblingLines(rs, text, visible, i, hidden, prefix, depth, limit), DirectAt(prefix))| == |visible| - i
    ensures |Filter(SiblingLines(rs, text, visible, i, hidden, prefix, depth, limit), ClosingAt(prefix))| == if i < |visible| && hidden == 0 then 1 else 0
    decreases |visible| - i
  {
    if i < |visible| {
      var isLast := i == |visible| - 1 && hidden == 0;
      var indent := Indent(isLast);
      var line := prefix + Connector(isLast) + text(visible[i]);
      var sub := NodeLines(rs, text, visible[i], prefix + indent, depth + 1, limit);
      var rest := SiblingLines(rs, text, visible, i + 1, hidden, prefix, depth, limit);
      SiblingUnfold(rs, text, visible, i, hidden, prefix, depth, limit);
      NodeLinesPrefixed(rs, text, visible[i], prefix + indent, depth + 1, limit);
      SubtreeIndirect(sub, prefix, indent);
      ConnectorLine(prefix, isLast, text(visible[i]));
      SiblingLinesDirect(rs, text, visible, i + 1, hidden, prefix, depth, limit);
      var restClosing := if i + 1 < |visible| && hidden == 0 then 1 else 0;
      CountPieces(line, sub, rest, DirectAt(prefix), ClosingAt(prefix), isLast, |visible| - (i + 1), restClosing);
      assert (if isLast then 1 else 0) + restClosing == if hidden == 0 then 1 else 0;
    }
  }

  /** Counting the direct and the closing entries of a child's entry, its subtree
      and the later children's entries. */
  lemma CountPieces(line: string, sub: seq<string>, rest: seq<string>, direct: string -> bool, closingAt: string -> bool,
                    closing: bool, restDirect: nat, restClosing: nat)
    requires Filter([line], direct) == [line]
    requires Filter([line], closingAt) == if closing then [line] else []
    requires Filter(sub, direct) == [] && Filter(sub, closingAt) == []
    requires |Filter(rest, direct)| == restDirect && |Filter(rest, closingAt)| == restClosing
    ensures |Filter([line] + sub + rest, direct)| == restDirect + 1
    ensures |Filter([line] + sub + rest, closingAt)| == (if closing then 1 else 0) + restClosing
  {
    FilterCount3([line], sub, rest, direct);
    FilterCount3([line], sub, rest, closingAt);
  }

  /** Counting the kept entries of three concatenated pieces. */
  lemma FilterCount3<T>(a: seq<T>, b: seq<T>, c: seq<T>, keep: T -> bool)
    ensures |Filter(a + b + c, keep)| == |Filter(a, keep)| + |Filter(b, keep)| + |Filter(c, keep)|
  {
    FilterAppend(a + b, c, keep);
    FilterAppend(a, b, keep);
  }

  /** Directly under a node the code draws one entry per visible child plus the
      elision line when children are hidden, and exactly one of them, the last,
      uses the closing connector. */
  lemma {:induction false} NodeLinesDirect(rs: seq<Record>, text: Record -> string, r: Record, prefix: string, depth: nat, limit: int)
    ensures |Filter(NodeLines(rs, text, r, prefix, depth, limit), DirectAt(prefix))| == DirectCount(rs, r, depth, limit)
    ensures |Filter(NodeLines(rs, text, r, prefix, depth, limit), ClosingAt(prefix))| == if DirectCount(rs, r, depth, limit) > 0 then 1 else 0
  {
    var lines := NodeLines(rs, text, r, prefix, depth, limit);
    var children := ChildrenOf(rs, r.profile.urn);
    if depth >= MaxTreeDepth || |children| == 0 {
      assert lines == [];
      assert DirectCount(rs, r, depth, limit) == 0;
    } else {
      var visible := Visible(children, limit);
      var hidden := |children| - |visible|;
      var sib := SiblingLines(rs, text, visible, 0, hidden, prefix, depth, limit);
      SiblingLinesDirect(rs, text, visible, 0, hidden, prefix, depth, limit);
      if hidden > 0 {
        var e := ElisionLine(prefix, hidden);
        assert lines == sib + [e];
        ElisionDirect(prefix, hidden);
        FilterAppend(sib, [e], DirectAt(prefix));
        FilterAppend(sib, [e], ClosingAt(prefix));
        assert |Filter(lines, DirectAt(prefix))| == |visible| + 1;
        assert |Filter(lines, ClosingAt(prefix))| == 1;
      } else {
        assert sib + [] == sib;
        assert lines == sib;
        assert |visible| > 0;
        assert |Filter(lines, ClosingAt(prefix))| == 1;
      }
      assert DirectCount(rs, r, depth, limit) == |visible| + (if hidden > 0 then 1 else 0);
    }
  }

  /** Filtering three concatenated pieces. */
  lemma FilterSplit3<T>(a: seq<T>, b: seq<T>, c: seq<T>, keep: T -> bool)
    ensures Filter(a + b + c, keep) == Filter(a, keep) + Filter(b, keep) + Filter(c, keep)
  {
    FilterAppend(a + b, c, keep);
    FilterAppend(a, b, keep);
  }

  /** The direct entries for `visible[i..]` are the children's own entries, in list
      order, each carrying its child's text; only the last one, and only when
      nothing is hidden, uses the closing connector. */
  lemma {:induction false} SiblingLinesEntries(rs: seq<Record>, text: Record -> string, visible: seq<Record>, i: nat, hidden: nat, prefix: string, depth: nat, limit: int)
    requires depth < MaxTreeDepth && i <= |visible|
    ensures Filter(SiblingLines(rs, text, visible, i, hidden, prefix, depth, limit), DirectAt(prefix))
              == seq(|visible| - i, j requires 0 <= j < |visible| - i => prefix + Connector(i + j == |visible| - 1 && hidden == 0) + text(visible[i + j]))
    decreases |visible| - i
  {
    if i < |visible| {
      SiblingDirectStep(rs, text, visible, i, hidden, prefix, depth, limit);
      SiblingLinesEntries(rs, text, visible, i + 1, hidden, prefix, depth, limit);
      EntriesCons(text, visible, i, hidden, prefix);
    }
  }

  /** The direct entries for `visible[i..]`: the child's own entry, then those for
      the later children; its subtree adds none. */
  lemma SiblingDirectStep(rs: seq<Record>, text: Record -> string, visible: seq<Record>, i: nat, hidden: nat, prefix: string, depth: nat, limit: int)
    requires depth < MaxTreeDepth && i < |visible|
    ensures Filter(SiblingLines(rs, text, visible, i, hidden, prefix, depth, limit), DirectAt(prefix))
              == [prefix + Connector(i == |visible| - 1 && hidden == 0) + text(visible[i])]
                 + Filter(SiblingLines(rs, text, visible, i + 1, hidden, prefix, depth, limit), DirectAt(prefix))
  {
    var isLast := i == |visible| - 1 && hidden == 0;
    var indent := Indent(isLast);
    var line := prefix + Connector(isLast) + text(visible[i]);
    var sub := NodeLines(rs, text, visible[i], prefix + indent, depth + 1, limit);
    var rest := SiblingLines(rs, text, visible, i + 1, hidden, prefix, depth, limit);
    SiblingUnfold(rs, text, visible, i, hidden, prefix, depth, limit);
    NodeLinesPrefixed(rs, text, visible[i], prefix + indent, depth + 1, limit);
    SubtreeIndirect(sub, prefix, indent);
    ConnectorLine(prefix, isLast, text(visible[i]));
    FilterSplit3([line], sub, rest, DirectAt(prefix));
  }

  /** The entries drawn for `visible[i..]`: the one for child `i`, then the rest. */
  lemma EntriesCons(text: Record -> string, visible: seq<Record>, i: nat, hidden: nat, prefix: string)
    requires i < |visible|
    ensures seq(|visible| - i, j requires 0 <= j < |visible| - i => prefix + Connector(i + j == |visible| - 1 && hidden == 0) + text(visible[i + j]))
            == [prefix + Connector(i == |visible| - 1 && hidden == 0) + text(visible[i])]
               + seq(|visible| - (i + 1), j requires 0 <= j < |visible| - (i + 1) => prefix + Connector(i + 1 + j == |visible| - 1 && hidden == 0) + text(visible[i + 1 + j]))
  {
    var drawn := seq(|visible| - i, j requires 0 <= j < |visible| - i => prefix + Connector(i + j == |visible| - 1 && hidden == 0) + text(visible[i + j]));
    var later := seq(|visible| - (i + 1), j requires 0 <= j < |visible| - (i + 1) => prefix + Connector(i + 1 + j == |visible| - 1 && hidden == 0) + text(visible[i + 1 + j]));
    var line := prefix + Connector(i == |visible| - 1 && hidden == 0) + text(visible[i]);
    forall j | 0 <= j < |drawn| ensures drawn[j] == ([line] + later)[j] {
      if j > 0 {
        assert ([line] + later)[j] == later[j - 1];
      }
    }
  }

  /** The entries drawn from index 0 are those of all visible children. */
  lemma EntriesFromStart(text: Record -> string, visible: seq<Record>, hidden: nat, prefix: string)
    ensures seq(|visible| - 0, j requires 0 <= j < |visible| - 0 => prefix + Connector(0 + j == |visible| - 1 && hidden == 0) + text(visible[0 + j]))
            == seq(|visible|, j requires 0 <= j < |visible| => prefix + Connector(j == |visible| - 1 && hidden == 0) + text(visible[j]))
  {
  }

  /** Directly under a node, in order: one entry per visible child with that
      child's text, then the elision entry when children are hidden. The closing
      connector goes to the last visible child only when nothing is hidden. */
  lemma NodeLinesEntries(rs: seq<Record>, text: Record -> string, r: Record, prefix: string, depth: nat, limit: int)
    ensures var children := ChildrenOf(rs, r.profile.urn);
            var visible := Visible(children, limit);
            var hidden := |children| - |visible|;
            Filter(NodeLines(rs, text, r, prefix, depth, limit), DirectAt(prefix))
              == if depth >= MaxTreeDepth || |children| == 0 then []
                 else seq(|visible|, j requires 0 <= j < |visible| => prefix + Connector(j == |visible| - 1 && hidden == 0) + text(visible[j]))
                      + (if hidden > 0 then [ElisionLine(prefix, hidden)] else [])
  {
    var children := ChildrenOf(rs, r.profile.urn);
    if depth < MaxTreeDepth && |children| > 0 {
      var visible := Visible(children, limit);
      var hidden := |children| - |visible|;
      var sib := SiblingLines(rs, text, visible, 0, hidden, prefix, depth, limit);
      var tail := if hidden > 0 then [ElisionLine(prefix, hidden)] else [];
      SiblingLinesEntries(rs, text, visible, 0, hidden, prefix, depth, limit);
      FilterAppend(sib, tail, DirectAt(prefix));
      ElisionDirect(prefix, hidden);
      assert Filter(tail, DirectAt(prefix)) == tail;
      EntriesFromStart(text, visible, hidden, prefix);
    }
  }

  /** The column below a node's prefix: an entry after the closing entry is
      indented with blanks, and an indirect entry before it continues the `│`
      rule. */
  ghost predicate ColumnsUnder(lines: seq<string>, prefix: string) {
    && (forall j, k :: 0 <= j < k < |lines| && ClosingAt(prefix)(lines[j]) ==> StartsWith(lines[k], prefix + LastIndent))
    && (forall j, k :: 0 <= k < j < |lines| && ClosingAt(prefix)(lines[j]) && !DirectAt(prefix)(lines[k]) ==> StartsWith(lines[k], prefix + MidIndent))
  }

  /** No entry closes the column, and every indirect entry continues the `│` rule. */
  ghost predicate OpenColumn(lines: seq<string>, prefix: string) {
    forall k :: 0 <= k < |lines| ==> !ClosingAt(prefix)(lines[k]) && (DirectAt(prefix)(lines[k]) || StartsWith(lines[k], prefix + MidIndent))
  }

  /** A child's entry and its subtree, drawn before further siblings: the subtree
      continues the `│` rule, and the rule stays open when it was open after it. */
  lemma OpenPieces(prefix: string, body: string, sub: seq<string>, rest: seq<string>)
    requires forall k :: 0 <= k < |sub| ==> StartsWith(sub[k], prefix + MidIndent) && !DirectAt(prefix)(sub[k]) && !ClosingAt(prefix)(sub[k])
    requires ColumnsUnder(rest, prefix)
    ensures ColumnsUnder([prefix + MidConnector + body] + sub + rest, prefix)
    ensures OpenColumn(rest, prefix) ==> OpenColumn([prefix + MidConnector + body] + sub + rest, prefix)
  {
    var line := prefix + MidConnector + body;
    var all := [line] + sub + rest;
    var n := 1 + |sub|;
    assert line[..|prefix|] == prefix && line[|prefix|] == '├';
    forall k | 0 <= k < n ensures !ClosingAt(prefix)(all[k]) && (DirectAt(prefix)(all[k]) || StartsWith(all[k], prefix + MidIndent)) {
      if k == 0 {
        assert all[k] == line;
      } else {
        assert all[k] == sub[k - 1];
      }
    }
    forall k | n <= k < |all| ensures all[k] == rest[k - n] {
    }
  }

  /** The last child's entry, with the closing connector, and its subtree: every
      entry after it is indented with blanks. */
  lemma ClosingPieces(prefix: string, body: string, sub: seq<string>)
    requires forall k :: 0 <= k < |sub| ==> StartsWith(sub[k], prefix + LastIndent) && !ClosingAt(prefix)(sub[k])
    ensures ColumnsUnder([prefix + LastConnector + body] + sub, prefix)
  {
    var all := [prefix + LastConnector + body] + sub;
    forall k | 1 <= k < |all| ensures all[k] == sub[k - 1] {
    }
  }

  /** The elision entry closes an open column. */
  lemma ElisionCloses(sib: seq<string>, prefix: string, hidden: nat)
    requires OpenColumn(sib, prefix)
    ensures ColumnsUnder(sib + [ElisionLine(prefix, hidden)], prefix)
  {
    var all := sib + [ElisionLine(prefix, hidden)];
    forall k | 0 <= k < |sib| ensures all[k] == sib[k] {
    }
  }

  /** The columns of the entries for `visible[i..]`; while children are hidden the
      column is never closed. */
  lemma {:induction false} SiblingColumns(rs: seq<Record>, text: Record -> string, visible: seq<Record>, i: nat, hidden: nat, prefix: string, depth: nat, limit: int)
    requires depth < MaxTreeDepth && i <= |visible|
    ensures ColumnsUnder(SiblingLines(rs, text, visible, i, hidden, prefix, depth, limit), prefix)
    ensures hidden > 0 ==> OpenColumn(SiblingLines(rs, text, visible, i, hidden, prefix, depth, limit), prefix)
    decreases |visible| - i
  {
    if i < |visible| {
      var isLast := i == |visible| - 1 && hidden == 0;
      var indent := Indent(isLast);
      var sub := NodeLines(rs, text, visible[i], prefix + indent, depth + 1, limit);
      var rest := SiblingLines(rs, text, visible, i + 1, hidden, prefix, depth, limit);
      SiblingUnfold(rs, text, visible, i, hidden, prefix, depth, limit);
      NodeLinesPrefixed(rs, text, visible[i], prefix + indent, depth + 1, limit);
      SubtreeIndirect(sub, prefix, indent);
      if isLast {
        assert rest == [];
        ClosingPieces(prefix, text(visible[i]), sub);
        assert [prefix + LastConnector + text(visible[i])] + sub + rest == [prefix + LastConnector + text(visible[i])] + sub;
      } else {
        SiblingColumns(rs, text, visible, i + 1, hidden, prefix, depth, limit);
        OpenPieces(prefix, text(visible[i]), sub, rest);
      }
    }
  }

  /** Below a node, the subtree of every child but the last hangs from a `│` rule,
      and everything after the closing entry is indented with blanks: the
      `"│   "`/`"    "` child prefix follows the connector of the child's entry. */
  lemma NodeColumns(rs: seq<Record>, text: Record -> string, r: Record, prefix: string, depth: nat, limit: int)
    ensures ColumnsUnder(NodeLines(rs, text, r, prefix, depth, limit), prefix)
  {
    var children := ChildrenOf(rs, r.profile.urn);
    if depth < MaxTreeDepth && |children| > 0 {
      var visible := Visible(children, limit);
      var hidden := |children| - |visible|;
      var sib := SiblingLines(rs, text, visible, 0, hidden, prefix, depth, limit);
      SiblingColumns(rs, text, visible, 0, hidden, prefix, depth, limit);
      if hidden > 0 {
        ElisionCloses(sib, prefix, hidden);
      } else {
        assert NodeLines(rs, text, r, prefix, depth, limit) == sib;
      }
    }
  }

  // ---------------------------------------------------------------------------
  // The whole document (export.py:122-133, 151-158, 214-225)

  /** A rule of 80 `=` signs. */
  function Rule(): string {
    Repeat('=', 80)
  }

  /** Each root's text, the subtree below it, and an empty entry. */
  function RootLines(rs: seq<Record>, text: Record -> string, roots: seq<Record>, limit: int): seq<string>
    decreases |roots|
  {
    if |roots| == 0 then []
    else [text(roots[0])] + NodeLines(rs, text, roots[0], "", 0, limit) + [""] + RootLines(rs, text, roots[1..], limit)
  }

  /** Every root's own text is one of the entries. */
  lemma {:induction false} RootLinesCover(rs: seq<Record>, text: Record -> string, roots: seq<Record>, limit: int)
    ensures forall j :: 0 <= j < |roots| ==> text(roots[j]) in RootLines(rs, text, roots, limit)
    ensures |RootLines(rs, text, roots, limit)| >= 2 * |roots|
    decreases |roots|
  {
    if |roots| > 0 {
      RootLinesCover(rs, text, roots[1..], limit);
      var head := [text(roots[0])] + NodeLines(rs, text, roots[0], "", 0, limit) + [""];
      var tail := RootLines(rs, text, roots[1..], limit);
      assert RootLines(rs, text, roots, limit) == head + tail;
      forall j | 0 <= j < |roots| ensures text(roots[j]) in head + tail {
        if j == 0 {
          assert (head + tail)[0] == text(roots[0]);
        } else {
          assert roots[j] == roots[1..][j - 1];
          assert text(roots[j]) in tail;
        }
      }
    }
  }

  /** The entries of the document: a banner with the profile count and the
      generation time, the trees of all roots in record order, and a closing
      banner repeating the count. */
  function TreeDocument(rs: seq<Record>, limit: int, generated: string): seq<string> {
    Banner(|rs|, generated) + RootLines(rs, TextOf(rs), Roots(rs), limit) + Closing(|rs|)
  }

  function Banner(total: nat, generated: string): (b: seq<string>)
    ensures |b| == 6 && b[0] == Rule()
  {
    [Rule(), "LinkedIn Discovery Tree", "Total Profiles: " + NatToDecimal(total), "Generated: " + generated, Rule(), ""]
  }

  function Closing(total: nat): (c: seq<string>)
    ensures |c| == 4 && c[3] == Rule()
  {
    ["", Rule(), "End of Tree - " + NatToDecimal(total) + " total profiles", Rule()]
  }

  datatype TreeFile = TreeFile(name: string, lines: seq<string>)

  /** `export_to_tree`: nothing is written for an empty record list or when no
      record is at depth 0. */
  function ExportTree(rs: seq<Record>, filename: string, stamp: string, generated: string, limit: int): (r: Option<TreeFile>)
    ensures r.None? <==> |rs| == 0 || |Roots(rs)| == 0
    ensures r.Some? ==> EndsWith(r.value.name, TxtExt)
  {
    if |rs| == 0 then None
    else
      var name := OutputName(filename, "linkedin_leads_tree_", stamp, TxtExt);
      if |Roots(rs)| == 0 then None
      else Some(TreeFile(name, TreeDocument(rs, limit, generated)))
  }

  /** The document opens and closes with a rule, around at least two entries per
      root. */
  lemma DocumentFrame(rs: seq<Record>, limit: int, generated: string)
    ensures |TreeDocument(rs, limit, generated)| >= 10 + 2 * |Roots(rs)|
    ensures TreeDocument(rs, limit, generated)[0] == Rule()
    ensures TreeDocument(rs, limit, generated)[|TreeDocument(rs, limit, generated)| - 1] == Rule()
  {
    RootLinesCover(rs, TextOf(rs), Roots(rs), limit);
  }

  /** Every root's text is an entry of the document. */
  lemma DocumentShowsRoots(rs: seq<Record>, limit: int, generated: string)
    ensures forall j :: 0 <= j < |Roots(rs)| ==> TextOf(rs)(Roots(rs)[j]) in TreeDocument(rs, limit, generated)
  {
    var roots := Roots(rs);
    RootLinesCover(rs, TextOf(rs), roots, limit);
    forall j | 0 <= j < |roots| ensures TextOf(rs)(roots[j]) in TreeDocument(rs, limit, generated) {
      InMiddle(Banner(|rs|, generated), RootLines(rs, TextOf(rs), roots, limit), Closing(|rs|), TextOf(rs)(roots[j]));
    }
  }

  lemma InMiddle<T>(a: seq<T>, b: seq<T>, c: seq<T>, x: T)
    requires x in b
    ensures x in a + b + c
  {
    var k :| 0 <= k < |b| && b[k] == x;
    assert (a + b + c)[|a| + k] == x;
  }

  /** The tree export of a discovery result is refused only when the result has
      no profiles. */
  lemma DiscoveryTreeExported(fullOf: Discovery.FullOracle, similarOf: Discovery.SimilarOracle, usernames: seq<string>, maxDepth: int,
                              filename: string, stamp: string, generated: string, limit: int)
    ensures var rs := Discovery.Discover(fullOf, similarOf, usernames, maxDepth).profiles;
            ExportTree(rs, filename, stamp, generated, limit).None? <==> |rs| == 0
  {
    var rs := Discovery.Discover(fullOf, similarOf, usernames, maxDepth).profiles;
    Discovery.RunIsForest(fullOf, similarOf, usernames, maxDepth);
    if |rs| > 0 {
      ForestHasRoot(rs);
    }
  }
}

=== FILE: wrappers.dfy ===
/** Failure-carrying values used across the model: an optional value and a
    success-or-error result, the shapes the Python code expresses with `None`
    and with `(success, payload, error)` tuples. */
module Wrappers {

  datatype Option<+T> = None | Some(value: T) {

    /** The carried value, or `default` when there is none (Python's `x or default`
        and `d.get(key, default)`). */
    function GetOr(default: T): T {
      match this
      case Some(v) => v
      case None => default
    }
  }

  datatype Result<+R, +E> = Success(value: R) | Failure(error: E)
}
